=== FILE: README.md ===
# ra-data-postgraphile core in Dafny

This project models the part of ra-data-postgraphile that turns react-admin
data requests into PostGraphile GraphQL requests, and proves properties of
that model. That part covers:

- building a `BaseResource` from the introspection result;
- compiling the selection set of a type (`createQueryFromType` and the
  simple field handler);
- compiling react-admin filters into PostGraphile filter objects
  (`createFilter`, `mapFilterType` and the built-in operator table);
- building the variables of every react-admin verb, including
  `recordToVariables` and the `updateMany` fan-out;
- the verb dispatch of `fetch`;
- the per-name resource cache of the provider the factory returns.

Modules, one per source file plus two shared ones:

| module | file | models |
|---|---|---|
| `Wrappers` | wrappers.dfy | `Option` and `Result` |
| `Text` | text.dfy | ASCII case mapping, decimal integer text, `split`, `join` and `trim` |
| `Values` | values.dfy | JavaScript values, objects as ordered entries, `{...o, [k]: v}`, `String(v)`, `Number(v)`, truthiness |
| `GqlTypes` | gqltype.dfy | introspection types and src/gqltype.ts |
| `Utils` | utils.dfy | src/utils.ts, including the `CAMEL_REGEX` replacement of `snake` |
| `Filters`, `FilterExamples` | filters.dfy | src/filters.ts |
| `Selection`, `SelectionExamples` | selection.dfy | src/field.ts |
| `Resource` | resource.dfy | src/resource.ts |

JavaScript is modelled in these terms:

- **Objects** keep their keys in insertion order.
  - Spreading an object and then setting a key (`Put`) keeps an existing key
    in its place and appends a new one.
  - `{[k]: v, ...next}` is `Assign([(k, v)], next)`.
- **Errors.** A runtime crash such as reading a property of `undefined` is
  `Err(TypeError)`. `throw new Error(m)` is `Err(Error(m))`, with the
  source's messages word for word.
- **Values the model does not compute** are the symbolic `Foreign(fn, arg)`.
  These include a caller's value mapper, the full-text parser, and `Number`
  on text that is not a signed decimal integer.
- **A `Date`** exists only as such an uncomputed value. Its
  `toISOString()` stays uncomputed. Every other value has no
  `toISOString`, and the `Datetime` filter transformation crashes on it.
- **A missing string used as a key or in a template** is the text
  `"undefined"` (`JsStr`).
- **A missing type `name` or `kind`** renders as `"null"` (`GqlTypes.TypeText`).
  The introspection result carries both properties on every type node, with
  JSON `null` for the name of a `LIST` or `NON_NULL` wrapper. A `[String]!`
  field filtered by text therefore fails with
  `Filter for type "null" or kind "LIST" not implemented.`, and a `[Int!]`
  field is filtered as type `nullList`.

The code and its tests disagree in some places. The model follows the code:

- `createGetListVariables` sends the whole `createFilter` result,
  `{filters, filterOrderBy}`, as the `filter` variable.
  - `createFilter` of a record whose keys match no field returns
    `{filters: undefined, filterOrderBy: []}`, not `undefined`.
- `recordToVariables` copies every declared input field that the record
  defines. It does not drop `__typename` or any other key by name.
- DELETE is offered when the schema has `delete<Type>`, even for a compound
  key whose request goes to `delete<Type>ByNodeId`
  (`Resource.MutationFieldExists`).
  - UPDATE and UPDATE_MANY check the same name they send,
    `updateResourceName`.
- The selection compiler walks a type's fields in schema order. It has no
  alias syntax and does not sort.

## Model

| member | source | states |
|---|---|---|
| `Text.IntToStringRoundTrip` | src/resource.ts:349 | the decimal text of an integer reads back as that integer |
| `Text.JoinSplit` | src/filters.ts:11 | joining the pieces of `split(',')` gives back the original text |
| `Text.SplitJoin` | src/filters.ts:11 | splitting joined pieces that contain no separator gives back the pieces |
| `Text.TrimInfix` | src/filters.ts:12 | the trim is the infix left after removing white space from both ends |
| `Text.TrimAvoids` | src/filters.ts:12 | `trim` never introduces a character |
| `Text.TrimUnchanged` | src/filters.ts:12 | text without surrounding white space is unchanged by `trim` |
| `Values.LookupPut` | src/resource.ts:549-552 | after `{...o, [k]: v}` the key `k` holds `v` and every other key keeps its value |
| `Values.PutKeepsDistinct` | src/resource.ts:549-552 | the spread-and-set object still has each key once |
| `Values.LookupAssign` | src/resource.ts:367-370 | after `{...es, ...more}` a key of `more` holds `more`'s value and any other key keeps its old one |
| `Values.EntriesEqual` | src/resource.ts:191-201 | two objects with the same key order and the same value under each key are equal |
| `Values.NumberOfStringOfInt` | src/resource.ts:54-62 | `Number(String(n))` is `n` for an integer `n` |
| `GqlTypes.HasKind` | src/gqltype.ts:9-18 | the loop answers true exactly when some type in the field's `ofType` chain has the kind |
| `GqlTypes.IsObjectOrListOfObjectsType` | src/gqltype.ts:25-26 | true exactly when an `OBJECT` occurs anywhere in the field's type chain |
| `GqlTypes.IsListType` | src/gqltype.ts:3-4 | true exactly when the type or its direct `ofType` is a `LIST` |
| `GqlTypes.IsObjectType` | src/gqltype.ts:6-7 | true exactly when the type or its direct `ofType` is an `OBJECT` |
| `GqlTypes.FirstName` | src/gqltype.ts:45-49 | the name of the first named type in the chain, and none exactly when no type there is named |
| `GqlTypes.FieldTypeName` | src/gqltype.ts:34-50 | a direct name is returned; null exactly when there is no type, or no name and no `ofType`; a `TypeError` crash exactly when the chain has no named type; otherwise the first name down the chain |
| `GqlTypes.FieldType` | src/gqltype.ts:55-64 | the type-map entry for the field's type name; fails exactly when the name lookup crashes |
| `Utils.Capitalize` | src/utils.ts:9-10 | same length and tail; the first letter is upper-case and the same letter as before |
| `Utils.Lowercase` | src/utils.ts:11-12 | same length and tail; the first letter is lower-case and the same letter as before |
| `Utils.CaseChangesIdempotent` | src/utils.ts:9-12 | each case change is idempotent, and each undoes the other's effect on the first letter |
| `Utils.ScanMatchesReplace` | src/utils.ts:14-15 | the one-pass scan equals the global `CAMEL_REGEX` replacement `$1_$2` |
| `Utils.SnakeOnlyInsertsUnderscores` | src/utils.ts:14-15 | `snake` only inserts underscores: removing all underscores gives the same text as before |
| `Utils.SnakeWithoutInnerUpper` | src/utils.ts:14-15 | text with no upper-case letter after its first character is unchanged |
| `Utils.SnakeCamelCase` | src/utils.ts:14-15 | a camel-case word sequence gets one underscore before each inner capital |
| `Utils.SnakeExampleCamelCaseMore` | src/__tests__/utils.test.ts:24 | `snake('CamelCaseMore')` is `Camel_Case_More` |
| `Utils.SnakeExampleConsecutiveCapitals` | src/utils.ts:14-15 | `snake('ABC')` is `A_BC`: the lazy group consumes the letter after a match |
| `Text.ToUpperAppend` | src/utils.ts:18 | upper-casing distributes over concatenation |
| `Utils.CreateSortingKey` | src/utils.ts:17-19 | the key is the upper-cased snake form of the field, then `_`, then the order |
| `Utils.SortingKeyExample` | src/__tests__/utils.test.ts:30-32 | `createSortingKey('camelCaseFieldName', 'DESC')` is `CAMEL_CASE_FIELD_NAME_DESC` |
| `Utils.FieldIsObjectOrListOfObject` | src/utils.ts:21-24 | crashes exactly when the field has no type; otherwise true exactly when the type or the type it wraps is an `OBJECT`, or the wrapped type is a `LIST` |
| `Utils.CreateTypeMap` | src/utils.ts:30-37 | every listed name is a key, and each key maps to the last type carrying that name |
| `Utils.TypeMapRetrievesEach` | src/utils.ts:30-37 | with distinct names, every type is found under its own name |
| `Filters.NormalizeList` | src/filters.ts:9-13 | the items are non-empty, contain no comma and carry no surrounding white space |
| `Filters.CleanPiecesTrimmed` | src/filters.ts:12-13 | every kept piece is non-empty with no white space at either end |
| `Filters.NormalizeJoin` | src/filters.ts:9-13 | a list of clean items joined with commas normalizes back to itself |
| `Filters.NormalizeIdempotent` | src/filters.ts:9-13 | normalizing the comma-joined normal form changes nothing |
| `Filters.NormalizeStringList` | src/filters.ts:9-13 | undefined and null pass through as undefined, text becomes the normalized items, an uncomputed value gives an uncomputed split, any other value crashes with `TypeError` |
| `Filters.NumericEachOf` | src/filters.ts:50-51 | an array maps element-wise through `Number`; an uncomputed value gives an uncomputed `map`; anything else crashes with `TypeError` |
| `Filters.ApplyTransform` | src/filters.ts:21-186 | the identity; a constant; `%v%` of the value's text, an array's joined text included; `normalizeStringList`; `Number`; `Number` of each array item; `toISOString()` of a date and a `TypeError` crash on anything else; a caller's function left uncomputed; only the two list transformations and `toISOString` can fail, and never on an uncomputed value |
| `Filters.ChooseTable` | src/filters.ts:166 | the caller's table replaces the built-in one |
| `Filters.ResolveTypeName` | src/filters.ts:148-157 | the name key (with `Array` for arrays) when the table has it, else the kind key |
| `Filters.Operation` | src/filters.ts:173-176 | the first operation, or `default` when none is given |
| `Filters.MapFilterType` | src/filters.ts:159-188 | unknown type and unknown operation errors with their messages, an unnamed type reading `null`; the transformation's crash as is; otherwise exactly the one-key object `{operator: transform(value)}` |
| `Filters.LaterOperationsIgnored` | src/filters.ts:173-176 | only the first operation matters |
| `Filters.IntStringExample` | src/__tests__/filters.test.ts:38 | `mapFilterType(Int, '42', [])` is `{equalTo: 42}` |
| `Filters.IntArrayExample` | src/__tests__/filters.test.ts:46-47 | an array for `Int` uses the `IntArray` table and converts each element |
| `Filters.StringDefaultExample` | src/__tests__/filters.test.ts:54 | the default `String` operation is `likeInsensitive` on `%str%` |
| `Filters.DatetimeTextExample` | src/filters.ts:102-111 | a `Datetime` filter on text crashes with `TypeError`, since text has no `toISOString` |
| `Filters.DatetimeDateExample` | src/filters.ts:102-111 | a `Datetime` filter on a date is `equalTo` its `toISOString()` |
| `Filters.LikePatternArrayExample` | src/filters.ts:22-28 | `%v%` of an array joins the items' texts with commas, a null item reading empty |
| `Filters.EnumArrayExample` | src/__tests__/filters.test.ts:205 | an array for an `ENUM` kind falls back to `ENUMArray` and `!=` gives `notIn` |
| `Filters.UnknownTypeExample` | src/__tests__/filters.test.ts:217-218 | an unknown type fails with the not-implemented message |
| `Filters.UnnamedWrapperExample` | src/filters.ts:148-172 | a `[String]!` field is filtered as its unnamed `LIST` wrapper, and a text value fails with `Filter for type "null" or kind "LIST" not implemented.` |
| `Filters.NonNullElementListName` | src/filters.ts:227-231 | a `[Int!]` field is filtered as its `NON_NULL` wrapper renamed `nullList` |
| `Filters.GetOrderBy` | src/filters.ts:194-207 | an ordering hint exactly for `FullText`, namely the sorting key of `<key>Rank` descending |
| `Filters.FilterParameters` | src/filters.ts:263-265 | the space-separated pieces join back to the key and contain no space |
| `Filters.FindField` | src/filters.ts:225 | the first field with the name, and none exactly when no field has it |
| `Filters.FilterSubType` | src/filters.ts:227-231 | the wrapped type (or the type), renamed `<name>List` for a `LIST` field, `nullList` when the wrapped type is unnamed; crashes exactly when the parts it reads are missing |
| `Filters.FilterForKey` | src/filters.ts:224-237 | a type without fields crashes; an unrecognised key is skipped; a recognised key fails with its field type's crash, else with `mapFilterType`'s error, and otherwise gives its field, the mapped fragment and its ordering hint |
| `Filters.RecognisedEntries` | src/filters.ts:222-251 | exactly the entries whose key names a field of the type |
| `Filters.RecognisedEntriesAppend` | src/filters.ts:222-251 | the filter keeps input order: the entries of `a + b` are those of `a` followed by those of `b` |
| `Filters.RecognisedEntriesSingle` | src/filters.ts:224-226 | one entry is kept exactly when its key names a field |
| `Filters.KeyFilters` | src/filters.ts:222-237 | succeeds exactly when every key compiles, and otherwise fails with the error of the first key that does not; one filter per recognised entry, in order, each the one `FilterForKey` gives |
| `Filters.MergeInto` | src/filters.ts:238-248 | a new field is appended and an existing field keeps its place |
| `Filters.CreateFilter` | src/filters.ts:209-261 | a missing or empty record gives no filters; a record succeeds exactly when its key reduction does, with the same error; a result is `{and: [m]}` with `m` non-empty, or no filters and no hints |
| `Filters.CreateFilterSucceeds` | src/filters.ts:209-237 | a record compiles exactly when it is empty, or the type has fields and every recognised key's field type and value compile |
| `Filters.MergedKeys` | src/filters.ts:238-248 | the merged object has each field once and exactly the recognised fields |
| `Filters.MergedLookup` | src/filters.ts:238-248 | each field holds all its operator fragments spread together in order |
| `Filters.LaterOperatorWins` | src/filters.ts:242 | a later key's operator overrides an earlier one for the same field |
| `Filters.CreateFilterUndefinedIff` | src/filters.ts:254-256 | `filters` is undefined exactly when no key is recognised |
| `Filters.RecognisedFieldsMember` | src/filters.ts:224-226 | a field is filtered exactly when some key names it |
| `Filters.CreateFilterKeys` | src/filters.ts:222-260 | the keys of the `and` member are distinct and are exactly the fields named by recognised keys |
| `Filters.KeyFiltersHints` | src/filters.ts:233-236 | the hints are collected in input order from the recognised keys |
| `Filters.CreateFilterOrderBy` | src/filters.ts:233-236 | `filterOrderBy` lists the `FullText` hints of the recognised keys in input order |
| `FilterExamples.CallerTableExample` | src/__tests__/filters.test.ts:272-284 | a caller's table entry `special` on `Int` turns `{'i special': 1}` into `{and: [{i: {isTheAnswer: 42}}]}` |
| `FilterExamples.UnknownFieldExample` | src/filters.ts:250-256 | a record naming no field gives no filters and no hints |
| `Selection.SettingIndex` | src/field.ts:69 | the first setting listed under the name, and none exactly when the name is not listed |
| `Selection.HandlerFor` | src/field.ts:67-71 | the field's own handler, else `__default`, else none |
| `Selection.CreateQueryFromType` | src/field.ts:61-81 | empty for an unknown type or a type without fields; a non-empty selection starts with a space |
| `Selection.CompileFields` | src/field.ts:68-80 | every fragment is appended after one space, so a non-empty result starts with a space |
| `Selection.FieldFragment` | src/field.ts:69-79 | off fields and fields without a handler give nothing; a simple handler renders the field; a caller's handler gives its text |
| `Selection.SimpleFieldHandler` | src/field.ts:39-53 | off gives nothing, `true` gives the name, a nested setting renders an object field |
| `Selection.ObjectField` | src/field.ts:24-31 | an unknown type gives nothing; a known one gives `name { <its selection> }`; a crash in the type lookup or in the nested selection propagates unchanged |
| `Selection.CompileFieldsSnoc` | src/field.ts:74-76 | a field with a non-empty fragment adds ` fragment` to the end |
| `Selection.SameSettingsSameQuery` | src/field.ts:68-80 | the selection depends on the settings only through what they give each field name |
| `Selection.SettingsOrderIrrelevant` | src/field.ts:69 | listing the same settings in another order gives the same selection |
| `Selection.FlatQueryIsEnabledNames` | src/field.ts:39-81 | with simple handlers and flat settings, the selection is the names of the enabled fields in schema order, each after a space |
| `SelectionExamples.CustomHandlerExample` | src/__tests__/field.test.ts:40-67 | a caller's handler for `nodeId` gives ` changedNameForNodeId name id` |
| `SelectionExamples.NestedSelectionExample` | src/field.ts:24-31 | a nested setting renders `block {  type }`, with the inner selection's leading space |
| `Resource.PluralOf` | src/resource.ts:158 | the configured plural when it is non-empty text, else the query name plus `s` |
| `Resource.PrimaryKey` | src/resource.ts:183-217 | `nodeId`/`ID` for a compound key; for one key, its name and wrapped type name, crashing exactly when the type is missing |
| `Resource.Build` | src/resource.ts:155-239 | every derived name: type, query, plurals, get-one, get-many filter, update, delete, and the mutation input names; the type and query tables as given; `inputType` and `patchType` are the `<Type>Input` and `<Type>Patch` entries, absent exactly when the table lacks them |
| `Resource.NewResource` | src/resource.ts:150-240 | an empty name crashes; then the type-not-found, query-not-found and no-args errors in that order; once those checks pass it succeeds exactly when the key arguments are readable and otherwise crashes; a success is the built resource, compound exactly when there are several key arguments |
| `Resource.NamesAgree` | src/resource.ts:155-160 | the type and query names differ only in the case of the first letter, and the default plurals are the singulars plus `s` |
| `Resource.MutationInputNames` | src/resource.ts:219-236 | the inputs are `Update<Type>[ByNodeId]Input` and `Delete<Type>[ByNodeId]Input` |
| `Resource.PrepareForReactAdmin` | src/resource.ts:191-201 | for a compound key `id` shows `nodeId` and `__rawId` keeps the old `id`, with every other key unchanged; simple keys pass through |
| `Resource.PrepareDataForUpdate` | src/resource.ts:223-231 | for a compound key `nodeId` takes `id` and `id` takes `__rawId` back, with every other key unchanged |
| `Resource.RecordRoundTrip` | src/resource.ts:191-231 | a record shown to react-admin and sent back for update regains its `id` and `nodeId`, with `__rawId` added at the end |
| `Resource.ConvertId` | src/resource.ts:54-62 | `Number` for `Int` ids, the identity for every other id type |
| `Resource.ConvertIdOfText` | src/resource.ts:54-62 | converting an id's text equals converting the id, for text and integer ids |
| `Resource.OrderBy` | src/resource.ts:448-450 | `NATURAL` exactly when there is no sort; the sorting key otherwise; a sort without a field crashes |
| `Resource.ListVariables` | src/resource.ts:446-462 | errors in evaluation order, a missing pagination crashing last; keys `offset, first, filter, orderBy`; the window `(page-1)*perPage`/`perPage`; the whole filter result; `orderBy` holds the sort keys in order |
| `Resource.PagesTile` | src/resource.ts:457-458 | page 1 starts at 0 and each page starts where the previous one ends |
| `Resource.ReferenceFilter` | src/resource.ts:405-408 | `target` holds the id and every other key is the caller's filter |
| `Resource.ReferenceTargetFiltered` | src/resource.ts:399-409 | a reference target that names a field is a key of the compiled filter |
| `Resource.FieldCalled` | src/resource.ts:526 | the first resource field with the name, or none when no field has it |
| `Resource.MapperTypeName` | src/resource.ts:528-529 | the wrapped type's name when it is non-empty, else the type's own name when that is non-empty, else none |
| `Resource.MapInputValue` | src/resource.ts:525-548 | values are copied unless a mapper is configured for the field's type; a mapper maps each element of a list field and the whole value otherwise |
| `Resource.InputEntries` | src/resource.ts:519-553 | keys are distinct input field names; a missing input crashes |
| `Resource.RecordToVariables` | src/resource.ts:507-554 | a missing type crashes; null without input fields; otherwise the reduced object |
| `Resource.InputEntriesOk` | src/resource.ts:519-553 | the reduction fails exactly when mapping some defined value fails |
| `Resource.InputEntriesCopy` | src/resource.ts:519-553 | without mappers the variables are the record restricted to the defined input fields |
| `Resource.InputEntriesOrder` | src/resource.ts:519-553 | with distinct names the keys are the defined field names in schema order, each holding its mapped value |
| `Resource.TruthyIds` | src/resource.ts:268 | every truthy id is sent converted, and as many ids are sent as are truthy |
| `Resource.AllTruthyIdsKept` | src/resource.ts:268 | when all ids are truthy, all are sent converted in order |
| `Resource.GetManyVariables` | src/resource.ts:267-269 | missing ids crash; otherwise `{ids}` with the truthy ids converted |
| `Resource.CreateVariables` | src/resource.ts:302-309 | `{input: {<queryTypeName>: record}}`, failing exactly when the record conversion fails |
| `Resource.UpdateVariables` | src/resource.ts:327-335 | `{input: {id, patch}}` with the converted id and the patch from the prepared data |
| `Resource.UpdateManyInputs` | src/resource.ts:345-355 | one input per id with the converted id, the id's text and the shared patch; missing ids crash |
| `Resource.UpdateManyVariables` | src/resource.ts:367-370 | each variable name occurs once |
| `Resource.UpdateManyVariablesLookup` | src/resource.ts:367-370 | every input has its `arg<id>` variable, and for a repeated name the earliest input wins |
| `Resource.ParseUpdateMany` | src/resource.ts:371-375 | one converted id per requested id in order, failing exactly when some read fails |
| `Resource.UpdateManyRoundTrip` | src/resource.ts:344-376 | when the server echoes `clientMutationId`, the parsed ids are the requested ids converted |
| `Resource.ParseVerb` | src/resource.ts:477-498 | a recognised fetch type is the name of the verb returned |
| `Resource.VerbNamesParse` | src/resource.ts:477-498 | each verb name is recognised as that verb, and nothing else is recognised |
| `Resource.Dispatch` | src/resource.ts:471-500 | a served verb matches the fetch type; every refusal is the not-implemented error with its message |
| `Resource.DispatchServes` | src/resource.ts:477-499 | reads are always served; CREATE, UPDATE, UPDATE_MANY and DELETE exactly when the mutation they check exists |
| `Resource.Compose` | src/resource.ts:242-257 | the query is built before the variables, so a selection error wins; a request exists exactly when both succeed |
| `Resource.VerbVariables` | src/resource.ts:248-397 | per verb: `{id}` for GET_ONE, `{input: {id}}` for DELETE, the get-many and list variables (narrowed to `target = id` for GET_MANY_REFERENCE), the create input, the update input of the prepared data, and the UPDATE_MANY inputs |
| `Resource.FetchVerb` | src/resource.ts:242-397 | before the document is parsed, a request succeeds exactly when the verb's variables and its selection do; it goes to the verb's root field with the selection of the verb's settings key and sends the verb's variables; the selection is compiled first except for UPDATE, which prepares its data first and crashes when that fails; UPDATE_MANY selects `clientMutationId` |
| `Resource.Fetch` | src/resource.ts:471-500 | a dispatch error is returned as is; otherwise the verb's request |
| `Resource.ReferenceIsNarrowedList` | src/resource.ts:399-409 | GET_MANY_REFERENCE is GET_LIST with the filter narrowed to `target = id` |
| `Resource.MutationFieldExists` | src/resource.ts:482-497 | an accepted CREATE, UPDATE or UPDATE_MANY mutates a root field the schema has, and so does DELETE for a simple key |
| `Resource.MakeProvider` | src/resource.ts:72-81 | every listed type and query is indexed, and the cache starts empty |
| `Resource.Call` | src/resource.ts:83-103 | a failed lookup or construction caches nothing; otherwise the resource is cached and then fetched |
| `Resource.CallIsUncached` | src/resource.ts:88-102 | from a coherent cache a call returns what a fresh construction would |
| `Resource.CallKeepsCoherent` | src/resource.ts:88-102 | a call keeps every cached resource equal to what its options construct |
| `Resource.CallKeepsEntries` | src/resource.ts:88-102 | a call never changes a resource already cached |
| `Resource.CacheTransparent` | src/resource.ts:88-102 | a call returns what a fresh construction would, keeps the cache coherent and never changes a cached entry |
| `Resource.RepeatedCalls` | src/resource.ts:88-102 | a second call for the same resource behaves like an uncached call |

## Left out

- src/provider.ts and src/factory.ts are not part of this model. They are
  the ra-data-graphql wiring around the resource factory.
- The GraphQL document text and its parsing (`gql`) are left out. A request
  is modelled as its root field, its selection set and its variables.
- The `parseResponse` closures of the single-record verbs are left out.
  They apply `prepareForReactAdmin` to the response, which
  `Resource.PrepareForReactAdmin` models. The UPDATE_MANY parser is modelled.
- `resourceClass` is left out. Only `BaseResource` is built, so
  `valueToQueryVariablesMap` and `typeToFilterMap` start as null.
  Subclasses that set them are represented by resources whose fields are
  set directly.
- The `FullText` query rewrite calls the `pg-tsquery` parser, a library
  outside the core. Its result is left uncomputed (`Foreign`), and it is
  modelled as never failing.
- A caller's filter table may hold any of the transformations above. A
  function of the caller's own is left uncomputed (`External`) and is
  modelled as never failing.
- A caller's field handlers are modelled as handlers that return a fixed
  text. A handler that inspects its field or parameters is not modelled.
- Other values are also left uncomputed:
  - `Number` of text other than an optionally signed decimal integer;
  - spreading a string or an array;
  - mapping over a value the model leaves uncomputed.
- The model treats such uncomputed values as truthy.
- Property reads do not see `Object.prototype` members (e.g. `length` of a
  string). lodash `get` with a dotted path is modelled only for the paths
  the source uses.
- `Utils.Capitalize`: requires a non-empty name, because `str[0]` of `''`
  is undefined and the source then crashes. `Resource.NewResource` models
  that crash as `Err(TypeError)`.
- `Utils.Lowercase`: requires a non-empty name, for the same reason.
- `Resource.TruthyIds`: states that every truthy id is sent and how many
  are sent, not that the order is kept. `Resource.AllTruthyIdsKept` states
  the order when every id is truthy.
- `Resource.UpdateManyRoundTrip`: requires ids whose text survives
  conversion (`Echoable`). For an `Int` id such as `"05"`, the alias sent
  (`update5`) and the alias read back (`update05`) differ.
- `Resource.MutationFieldExists`: states nothing about the root field of a
  compound-key DELETE. The source checks `delete<Type>` but sends
  `delete<Type>ByNodeId`.
- Numbers are integers: floating-point ids, pages and filter values are not
  modelled.
- `Values.ToNumber`: `Number` of decimal text is the exact integer. JavaScript
  rounds above 2^53 (`Number('9007199254740993')` is `9007199254740992`), and
  `String` of a number from 1e21 up uses exponent notation (`"1e+21"`). So
  `Resource.ConvertId` and the `Int` filter transformations are exact where
  the source is not. `Number(undefined)` is `NaN`, which is falsy, but the
  model leaves it uncomputed and so truthy.
- `Resource.FetchVerb`: the document is not parsed, so requests the source's
  `gql` rejects are returned as `Ok`:
  - a selection set that compiles to nothing (no enabled field, or
    `querySettings` without the verb's key);
  - UPDATE_MANY with no ids, whose variable list is `()`;
  - UPDATE_MANY ids that are not GraphQL name characters (e.g. a UUID with
    `-`) in `$arg<id>` and `update<id>:`.
- `Resource.MapInputValue`: a value mapper is modelled as a function of its
  first argument. `value.map(mapper)` also passes the index and the array, so
  a list mapper that reads them (such as `parseInt`) is not modelled.
- A `null` `querySettings` is not modelled. The source would crash reading
  a key from it; the model treats missing settings as off.
- Case mapping is ASCII only.
- `Filters.MapFilterType`: a type object that omits `name` or `kind`
  altogether is rendered as `"null"`. In the source such an object renders
  `"undefined"`; the introspection result always carries both properties.
- `Filters.FilterSubType`: names a `LIST` of an unnamed type `nullList`, for
  the same reason; a hand-built type without a `name` gives `undefinedList`.
- `Resource.FieldCalled`: compares names as one optional string, so a
  missing name equals a missing name. The source's `===` tells `null` from
  `undefined`; field names in the introspection result are always strings.
- Integer-like object keys are kept in insertion order. JavaScript lists
  them first, in ascending numeric order, so for a filter whose keys look
  like array indices `Filters.CreateFilter` visits the keys in a different
  order from `Object.keys`.

=== FILE: filters.dfy ===
/**
  The filter compiler (src/filters.ts): a table from type name and
  operation to a PostGraphile filter operator and a value transformation,
  the name-then-kind table resolution, and `createFilter`, which turns a
  flat record `{"field [op]": value}` into `{and: [{field: {operator: value}}]}`
  plus a list of ordering hints.
 */
module Filters {
  import opened Wrappers
  import opened Text
  import opened Values
  import opened GqlTypes
  import opened Utils

  // ---------------------------------------------------------------------
  // The operator table
  // ---------------------------------------------------------------------

  /** What happens to the filter value before it is sent. */
  datatype Transform =
    | Identity                  // no transformation given
    | Constant(c: Value)        // `() => true` / `() => false`
    | LikePattern               // `` v => `%${v}%` ``
    | SplitList                 // `normalizeStringList`
    | Numeric                   // `Number`
    | NumericEach               // `v => v.map(Number)`
    | IsoString                 // `(value: Date) => value.toISOString()`
    | External(fn: string)      // a function the model leaves uncomputed

  /**
    One table entry `[operator, transformator]`. An empty operator stands
    for an entry whose operator is falsy.
   */
  datatype FilterOp = FilterOp(backend: string, transform: Transform)

  type OpTable = map<string, FilterOp>
  type FilterTable = map<string, OpTable>

  const StringOps: OpTable := map[
    "=" := FilterOp("equalTo", Identity),
    "!=" := FilterOp("notEqualTo", Identity),
    "null" := FilterOp("isNull", Constant(Bool(true))),
    "!null" := FilterOp("isNull", Constant(Bool(false))),
    "likeInsensitive" := FilterOp("likeInsensitive", LikePattern),
    "default" := FilterOp("likeInsensitive", LikePattern)]

  const StringListOps: OpTable := map[
    "=" := FilterOp("equalTo", SplitList),
    "contains" := FilterOp("contains", SplitList),
    "containedBy" := FilterOp("containedBy", SplitList),
    "default" := FilterOp("equalTo", SplitList)]

  const BooleanOps: OpTable := map[
    "=" := FilterOp("equalTo", Identity),
    "!=" := FilterOp("notEqualTo", Identity),
    "default" := FilterOp("equalTo", Identity)]

  const IntOps: OpTable := map[
    "=" := FilterOp("equalTo", Numeric),
    "!=" := FilterOp("notEqualTo", Numeric),
    "<" := FilterOp("lessThan", Numeric),
    "<=" := FilterOp("lessThanOrEqualTo", Numeric),
    ">" := FilterOp("greaterThan", Numeric),
    ">=" := FilterOp("greaterThanOrEqualTo", Numeric),
    "null" := FilterOp("isNull", Constant(Bool(true))),
    "!null" := FilterOp("isNull", Constant(Bool(false))),
    "in" := FilterOp("in", NumericEach),
    "!in" := FilterOp("notIn", NumericEach),
    "default" := FilterOp("equalTo", Numeric)]

  const IntArrayOps: OpTable := map[
    "=" := FilterOp("in", NumericEach),
    "!=" := FilterOp("notIn", NumericEach),
    "in" := FilterOp("in", NumericEach),
    "!in" := FilterOp("notIn", NumericEach),
    "default" := FilterOp("in", NumericEach)]

  const IntListOps: OpTable := map[
    "=" := FilterOp("anyEqualTo", Numeric),
    "!=" := FilterOp("anyNotEqualTo", Numeric),
    "anyEqualTo" := FilterOp("anyEqualTo", Numeric),
    "anyNotEqualTo" := FilterOp("anyNotEqualTo", Numeric),
    "default" := FilterOp("anyEqualTo", Numeric)]

  const IntListArrayOps: OpTable := map[
    "=" := FilterOp("equalTo", NumericEach),
    "!=" := FilterOp("notEqualTo", NumericEach),
    "overlaps" := FilterOp("overlaps", NumericEach),
    "contains" := FilterOp("contains", NumericEach),
    "containedBy" := FilterOp("containedBy", NumericEach),
    "distinctFrom" := FilterOp("distinctFrom", NumericEach),
    "notDistinctFrom" := FilterOp("notDistinctFrom", NumericEach),
    "default" := FilterOp("overlaps", NumericEach)]

  const EnumOps: OpTable := map[
    "=" := FilterOp("equalTo", Identity),
    "!=" := FilterOp("notEqualTo", Identity),
    "null" := FilterOp("isNull", Constant(Bool(true))),
    "!null" := FilterOp("isNull", Constant(Bool(false))),
    "default" := FilterOp("equalTo", Identity)]

  const EnumArrayOps: OpTable := map[
    "=" := FilterOp("in", Identity),
    "!=" := FilterOp("notIn", Identity),
    "in" := FilterOp("in", Identity),
    "!in" := FilterOp("notIn", Identity),
    "default" := FilterOp("in", Identity)]

  const DatetimeOps: OpTable := map[
    "=" := FilterOp("equalTo", IsoString),
    "!=" := FilterOp("notEqualTo", IsoString),
    "<" := FilterOp("lessThan", IsoString),
    "<=" := FilterOp("lessThanOrEqualTo", IsoString),
    ">" := FilterOp("greaterThan", IsoString),
    ">=" := FilterOp("greaterThanOrEqualTo", IsoString),
    "null" := FilterOp("isNull", Constant(Bool(true))),
    "!null" := FilterOp("isNull", Constant(Bool(false))),
    "default" := FilterOp("equalTo", IsoString)]

  const FullTextOps: OpTable := map[
    "=" := FilterOp("matches", Identity),
    "default" := FilterOp("matches", External("tsquery"))]

  /** `TYPE_TO_FILTER_MAPPINGS`; `BigInt` and `BigIntArray` read the `Int` tables. */
  const BuiltinTable: FilterTable := map[
    "String" := StringOps,
    "StringList" := StringListOps,
    "Boolean" := BooleanOps,
    "Int" := IntOps,
    "BigInt" := IntOps,
    "IntArray" := IntArrayOps,
    "BigIntArray" := IntArrayOps,
    "IntList" := IntListOps,
    "IntListArray" := IntListArrayOps,
    "ENUM" := EnumOps,
    "ENUMArray" := EnumArrayOps,
    "Datetime" := DatetimeOps,
    "FullText" := FullTextOps]

  // ---------------------------------------------------------------------
  // normalizeStringList
  // ---------------------------------------------------------------------

  /** A non-empty text with no white space at either end. */
  predicate Trimmed(x: string) {
    x != "" && !IsWhiteSpace(x[0]) && !IsWhiteSpace(x[|x| - 1])
  }

  /** The trimmed pieces, with the empty ones dropped. */
  function CleanPieces(pieces: seq<string>): (r: seq<string>)
    ensures |r| <= |pieces|
  {
    if |pieces| == 0 then []
    else
      var t := Trim(pieces[0]);
      var rest := CleanPieces(pieces[1..]);
      if t == "" then rest else [t] + rest
  }

  /** Every cleaned piece is non-empty with no white space at either end. */
  lemma {:induction false} CleanPiecesTrimmed(pieces: seq<string>)
    ensures forall i :: 0 <= i < |CleanPieces(pieces)| ==> Trimmed(CleanPieces(pieces)[i])
  {
    if |pieces| > 0 {
      var t := Trim(pieces[0]);
      var rest := CleanPieces(pieces[1..]);
      CleanPiecesTrimmed(pieces[1..]);
      if t != "" {
        var r := CleanPieces(pieces);
        assert r == [t] + rest;
        forall i | 0 <= i < |r|
          ensures Trimmed(r[i])
        {
          if i == 0 {
            assert r[0] == t;
          } else {
            assert r[i] == rest[i - 1];
          }
        }
      }
    }
  }

  /** A character in no piece is in no cleaned piece. */
  lemma {:induction false} CleanPiecesAvoid(pieces: seq<string>, c: char)
    requires forall j :: 0 <= j < |pieces| ==> c !in pieces[j]
    ensures forall i :: 0 <= i < |CleanPieces(pieces)| ==> c !in CleanPieces(pieces)[i]
  {
    if |pieces| > 0 {
      TrimAvoids(pieces[0], c);
      CleanPiecesAvoid(pieces[1..], c);
    }
  }

  /** `value.split(',').map(v => v.trim()).filter(v => v)` on a string. */
  function NormalizeList(s: string): (r: seq<string>)
    ensures forall i :: 0 <= i < |r| ==> CleanItem(r[i])
  {
    CleanPiecesAvoid(Split(s, ','), ',');
    CleanPiecesTrimmed(Split(s, ','));
    CleanPieces(Split(s, ','))
  }

  /** The items of a list that is already clean. */
  predicate CleanItem(item: string) {
    Trimmed(item) && ',' !in item
  }

  lemma {:induction false} CleanPiecesOfClean(items: seq<string>)
    requires forall i :: 0 <= i < |items| ==> CleanItem(items[i])
    ensures CleanPieces(items) == items
  {
    if |items| > 0 {
      TrimUnchanged(items[0]);
      CleanPiecesOfClean(items[1..]);
    }
  }

  /**
    Joining clean items with commas and normalising gives the items back:
    normalisation loses nothing but white space and empty entries.
   */
  lemma NormalizeJoin(items: seq<string>)
    requires |items| > 0
    requires forall i :: 0 <= i < |items| ==> CleanItem(items[i])
    ensures NormalizeList(Join(items, ',')) == items
  {
    SplitJoin(items, ',');
    CleanPiecesOfClean(items);
  }

  /** Normalising is idempotent on the comma-joined result. */
  lemma NormalizeIdempotent(s: string)
    ensures var items := NormalizeList(s);
            |items| > 0 ==> NormalizeList(Join(items, ',')) == items
  {
    var items := NormalizeList(s);
    if |items| > 0 {
      NormalizeJoin(items);
    }
  }

  /**
    `normalizeStringList(value)`: `value?.split(...)` yields undefined for a
    missing value, and any other non-string has no `split` and throws. A
    value the model leaves uncomputed may be text, so its split stays
    uncomputed too.
   */
  function NormalizeStringList(v: Value): (r: Result<Value, JsError>)
    ensures r.Err? <==> !(v.Undefined? || v.Null? || v.Str? || v.Foreign?)
    ensures r.Err? ==> r.error == TypeError
    ensures v.Undefined? || v.Null? ==> r == Ok(Undefined)
    ensures v.Foreign? ==> r == Ok(Foreign("split", v))
    ensures v.Str? ==> r.Ok? && r.value.Arr? && |r.value.items| == |NormalizeList(v.s)|
    ensures v.Str? ==> forall i :: 0 <= i < |r.value.items| ==> r.value.items[i] == Str(NormalizeList(v.s)[i])
  {
    match v
    case Undefined => Ok(Undefined)
    case Null => Ok(Undefined)
    case Str(s) => Ok(Arr(seq(|NormalizeList(s)|, i requires 0 <= i < |NormalizeList(s)| => Str(NormalizeList(s)[i]))))
    case Foreign(_, _) => Ok(Foreign("split", v))
    case _ => Err(TypeError)
  }

  // ---------------------------------------------------------------------
  // mapFilterType
  // ---------------------------------------------------------------------

  /**
    `Number` applied to every element of an array; `map` on anything else
    throws, except that `map` on a value the model leaves uncomputed stays
    uncomputed.
   */
  function NumericEachOf(v: Value): (r: Result<Value, JsError>)
    ensures r.Ok? <==> v.Arr? || v.Foreign?
    ensures r.Err? ==> r.error == TypeError
    ensures v.Foreign? ==> r == Ok(Foreign("map", v))
    ensures v.Arr? ==> r.value.Arr? && |r.value.items| == |v.items|
    ensures v.Arr? ==> forall i :: 0 <= i < |v.items| ==> r.value.items[i] == ToNumber(v.items[i])
  {
    match v
    case Arr(items) => Ok(Arr(seq(|items|, i requires 0 <= i < |items| => ToNumber(items[i]))))
    case Foreign(_, _) => Ok(Foreign("map", v))
    case _ => Err(TypeError)
  }

  /** Applies a table entry's transformation to the filter value. */
  function ApplyTransform(t: Transform, v: Value): (r: Result<Value, JsError>)
    ensures r.Err? ==> (t.SplitList? || t.NumericEach? || t.IsoString?) && !v.Foreign?
    ensures t.Identity? ==> r == Ok(v)
    ensures t.Constant? ==> r == Ok(t.c)
    ensures t.LikePattern? && v.Str? ==> r == Ok(Str("%" + v.s + "%"))
    ensures t.LikePattern? && ToText(v).Some? ==> r == Ok(Str("%" + ToText(v).value + "%"))
    ensures t.LikePattern? && v.Arr? && Computable(v) ==> r == Ok(Str("%" + Stringify(v) + "%"))
    ensures t.LikePattern? && !Computable(v) ==> r == Ok(Foreign("likePattern", v))
    ensures t.SplitList? ==> r == NormalizeStringList(v)
    ensures t.Numeric? ==> r == Ok(ToNumber(v))
    ensures t.NumericEach? ==> r == NumericEachOf(v)
    ensures t.IsoString? ==> (r.Ok? <==> v.Foreign?)
    ensures t.IsoString? && v.Foreign? ==> r == Ok(Foreign("toISOString", v))
    ensures t.IsoString? && r.Err? ==> r.error == TypeError
    ensures t.External? ==> r == Ok(Foreign(t.fn, v))
  {
    match t
    case Identity => Ok(v)
    case Constant(c) => Ok(c)
    case LikePattern =>
      if Computable(v) then Ok(Str("%" + Stringify(v) + "%")) else Ok(Foreign("likePattern", v))
    case SplitList => NormalizeStringList(v)
    case Numeric => Ok(ToNumber(v))
    case NumericEach => NumericEachOf(v)
    case IsoString => if v.Foreign? then Ok(Foreign("toISOString", v)) else Err(TypeError)
    case External(fn) => Ok(Foreign(fn, v))
  }

  /** `typeToFilter || TYPE_TO_FILTER_MAPPINGS`: a caller's table replaces the built-in one. */
  function ChooseTable(custom: Option<FilterTable>): (r: FilterTable)
    ensures custom.Some? ==> r == custom.value
    ensures custom.None? ==> r == BuiltinTable
  {
    custom.GetOr(BuiltinTable)
  }

  /** The table key tried first: the type's name, with `Array` appended for an array value. */
  function NameKey(t: GqlType, v: Value): string {
    if v.Arr? then TypeText(t.name) + "Array" else TypeText(t.name)
  }

  /** The fallback table key: the type's kind, with `Array` appended for an array value. */
  function KindKey(t: GqlType, v: Value): string {
    if v.Arr? then TypeText(t.kind) + "Array" else TypeText(t.kind)
  }

  /** `getTypeName`: the name key when the table has it, otherwise the kind key. */
  function ResolveTypeName(table: FilterTable, t: GqlType, v: Value): (r: string)
    ensures r == NameKey(t, v) || r == KindKey(t, v)
    ensures NameKey(t, v) in table ==> r == NameKey(t, v)
    ensures NameKey(t, v) !in table ==> r == KindKey(t, v)
  {
    if NameKey(t, v) in table then NameKey(t, v) else KindKey(t, v)
  }

  /** The first operation token, or `default`; later tokens are ignored. */
  function Operation(operations: seq<string>): (r: string)
    ensures |operations| > 0 ==> r == operations[0]
    ensures |operations| == 0 ==> r == "default"
  {
    if |operations| > 0 then operations[0] else "default"
  }

  function UnknownTypeMessage(t: GqlType): string {
    "Filter for type \"" + TypeText(t.name) + "\" or kind \"" + TypeText(t.kind) + "\" not implemented."
  }

  function UnknownOperationMessage(operation: string, typeName: string): string {
    "Operation \"" + operation + "\" for type \"" + typeName + "\" not implemented."
  }

  /** The table entry `mapFilterType` uses, if the table has a usable one. */
  function EntryFor(table: FilterTable, t: GqlType, v: Value, operations: seq<string>): Option<FilterOp> {
    var typeName := ResolveTypeName(table, t, v);
    if typeName in table && Operation(operations) in table[typeName] && table[typeName][Operation(operations)].backend != ""
    then Some(table[typeName][Operation(operations)])
    else None
  }

  /**
    `mapFilterType(type, value, operations, typeToFilter)`: a one-key
    object `{operator: transform(value)}`, or the error for an unknown type
    or an unknown operation.
   */
  function MapFilterType(t: GqlType, v: Value, operations: seq<string>, custom: Option<FilterTable>): (r: Result<Value, JsError>)
    ensures var table := ChooseTable(custom);
            var typeName := ResolveTypeName(table, t, v);
            && (typeName !in table ==> r == Err(Error(UnknownTypeMessage(t))))
            && (typeName in table && EntryFor(table, t, v, operations).None? ==>
                  r == Err(Error(UnknownOperationMessage(Operation(operations), typeName))))
    ensures r.Ok? <==>
              var e := EntryFor(ChooseTable(custom), t, v, operations);
              e.Some? && ApplyTransform(e.value.transform, v).Ok?
    ensures r.Ok? ==>
              var e := EntryFor(ChooseTable(custom), t, v, operations).value;
              r.value == Obj([(e.backend, ApplyTransform(e.transform, v).value)])
    ensures var e := EntryFor(ChooseTable(custom), t, v, operations);
            e.Some? && ApplyTransform(e.value.transform, v).Err? ==>
              r == Err(ApplyTransform(e.value.transform, v).error)
  {
    var table := ChooseTable(custom);
    var typeName := ResolveTypeName(table, t, v);
    if typeName !in table then Err(Error(UnknownTypeMessage(t)))
    else
      var operation := Operation(operations);
      match EntryFor(table, t, v, operations)
      case None => Err(Error(UnknownOperationMessage(operation, typeName)))
      case Some(e) =>
        var x :- ApplyTransform(e.transform, v);
        Ok(Obj([(e.backend, x)]))
  }

  /** Only the first operation token matters. */
  lemma LaterOperationsIgnored(t: GqlType, v: Value, op: string, rest: seq<string>, custom: Option<FilterTable>)
    ensures MapFilterType(t, v, [op] + rest, custom) == MapFilterType(t, v, [op], custom)
  {
    assert Operation([op] + rest) == Operation([op]);
  }

  /**
    A caller's table is not merged with the built-in one: a type the
    caller's table does not list is unknown, even one the built-in table has.
   */
  lemma CallerTableReplacesBuiltin(t: GqlType, v: Value, operations: seq<string>, table: FilterTable)
    requires NameKey(t, v) !in table && KindKey(t, v) !in table
    ensures MapFilterType(t, v, operations, Some(table)) == Err(Error(UnknownTypeMessage(t)))
  {
  }

  /** A type known only by its name, or by its name and kind, as the source's examples write them. */
  function NamedType(name: string, kind: Option<string>): GqlType {
    GqlType(Some(name), kind, None, None, None, None, None)
  }

  /** `mapFilterType(IntType, '42', [])`: the default `Int` operation converts the string. */
  lemma IntStringExample(t: GqlType)
    requires t == NamedType("Int", None)
    ensures MapFilterType(t, Str("42"), [], None) == Ok(Obj([("equalTo", Num(42))]))
  {
    IntDefaultEntry();
    assert ResolveTypeName(BuiltinTable, t, Str("42")) == "Int";
    assert EntryFor(BuiltinTable, t, Str("42"), []) == Some(FilterOp("equalTo", Numeric));
    assert ApplyTransform(Numeric, Str("42")) == Ok(Num(42)) by {
      assert "42"[..1] == "4";
      assert DigitsValue("42") == 42;
    }
  }

  lemma IntDefaultEntry()
    ensures "Int" in BuiltinTable && "default" in BuiltinTable["Int"]
    ensures BuiltinTable["Int"]["default"] == FilterOp("equalTo", Numeric)
  {
  }

  /** `mapFilterType(IntType, [2, 3, '42'], [])`: an array value uses the `IntArray` table. */
  lemma IntArrayExample(t: GqlType, items: seq<Value>)
    requires t == NamedType("Int", None) && items == [Num(2), Num(3), Str("42")]
    ensures MapFilterType(t, Arr(items), [], None) == Ok(Obj([("in", Arr([Num(2), Num(3), Num(42)]))]))
  {
    assert "42"[..1] == "4";
    assert DigitsValue("42") == 42;
    var converted := NumericEachOf(Arr(items)).value.items;
    assert converted == [Num(2), Num(3), Num(42)];
    assert NameKey(t, Arr(items)) == "IntArray";
  }

  /** `mapFilterType(StringType, 'str', [])`. */
  lemma StringDefaultExample(t: GqlType)
    requires t == NamedType("String", None)
    ensures MapFilterType(t, Str("str"), [], None) == Ok(Obj([("likeInsensitive", Str("%str%"))]))
  {
    StringDefaultEntry();
    assert ResolveTypeName(BuiltinTable, t, Str("str")) == "String";
    assert EntryFor(BuiltinTable, t, Str("str"), []) == Some(FilterOp("likeInsensitive", LikePattern));
    LikePatternLiteral();
  }

  /** `mapFilterType(DatetimeType, '2021-03-01', [])`: text has no `toISOString`, so the transformation throws. */
  lemma DatetimeTextExample(t: GqlType)
    requires t == NamedType("Datetime", None)
    ensures MapFilterType(t, Str("2021-03-01"), [], None) == Err(TypeError)
  {
    DatetimeDefaultEntry();
    assert ResolveTypeName(BuiltinTable, t, Str("2021-03-01")) == "Datetime";
    assert EntryFor(BuiltinTable, t, Str("2021-03-01"), []) == Some(FilterOp("equalTo", IsoString));
  }

  /** A date, which the model leaves uncomputed, is passed on as its `toISOString()`. */
  lemma DatetimeDateExample(t: GqlType, date: Value)
    requires t == NamedType("Datetime", None) && date.Foreign?
    ensures MapFilterType(t, date, [], None) == Ok(Obj([("equalTo", Foreign("toISOString", date))]))
  {
    DatetimeDefaultEntry();
    assert ResolveTypeName(BuiltinTable, t, date) == "Datetime";
    assert EntryFor(BuiltinTable, t, date, []) == Some(FilterOp("equalTo", IsoString));
  }

  lemma DatetimeDefaultEntry()
    ensures "Datetime" in BuiltinTable && "default" in BuiltinTable["Datetime"]
    ensures BuiltinTable["Datetime"]["default"] == FilterOp("equalTo", IsoString)
  {
  }

  /** `` `%${['a', null, 1]}%` ``: an array's text joins its items, a null item reading empty. */
  lemma LikePatternArrayExample()
    ensures ApplyTransform(LikePattern, Arr([Str("a"), Null, Num(1)])) == Ok(Str("%a,,1%"))
  {
    var items := [Str("a"), Null, Num(1)];
    assert Computable(Arr(items));
    assert IntToString(1) == "1";
    var texts := seq(|items|, i requires 0 <= i < |items| =>
                   if items[i].Undefined? || items[i].Null? then "" else Stringify(items[i]));
    assert texts == ["a", "", "1"];
    assert Join(texts[2..], ',') == "1";
    assert Join(texts[1..], ',') == "" + [','] + "1";
    assert Join(texts, ',') == "a,,1";
    assert Stringify(Arr(items)) == "a,,1";
    assert "%" + "a,,1" + "%" == "%a,,1%";
  }

  lemma StringDefaultEntry()
    ensures "String" in BuiltinTable && "default" in BuiltinTable["String"]
    ensures BuiltinTable["String"]["default"] == FilterOp("likeInsensitive", LikePattern)
  {
  }

  lemma LikePatternLiteral()
    ensures ApplyTransform(LikePattern, Str("str")) == Ok(Str("%str%"))
  {
    assert "%" + "str" + "%" == "%str%";
  }

  /** `mapFilterType(ENUMType, ['V', 'V2'], ['!='])`: the name is unknown, so the kind decides. */
  lemma EnumArrayExample(t: GqlType, items: seq<Value>)
    requires t == NamedType("ContractType", Some("ENUM")) && items == [Str("V"), Str("V2")]
    ensures MapFilterType(t, Arr(items), ["!="], None) == Ok(Obj([("notIn", Arr(items))]))
  {
    EnumArrayKeys(t, Arr(items));
    assert EntryFor(BuiltinTable, t, Arr(items), ["!="]) == Some(FilterOp("notIn", Identity));
  }

  /** The built-in table has no `ContractTypeArray` entry, so an enum array resolves to `ENUMArray`. */
  lemma EnumArrayKeys(t: GqlType, v: Value)
    requires t == NamedType("ContractType", Some("ENUM")) && v.Arr?
    ensures NameKey(t, v) !in BuiltinTable
    ensures KindKey(t, v) == "ENUMArray" && "!=" in BuiltinTable["ENUMArray"]
    ensures BuiltinTable["ENUMArray"]["!="] == FilterOp("notIn", Identity)
  {
    ContractTypeArrayNotBuiltin();
    assert NameKey(t, v) == "ContractType" + "Array";
    assert KindKey(t, v) == "ENUM" + "Array";
    ArrayKeyLiterals();
  }

  lemma ContractTypeArrayNotBuiltin()
    ensures "ContractTypeArray" !in BuiltinTable
  {
  }

  lemma ArrayKeyLiterals()
    ensures "ContractType" + "Array" == "ContractTypeArray" && "ENUM" + "Array" == "ENUMArray"
  {
  }

  /** Neither `Unknown` nor `Kind` is a key of the built-in table. */
  lemma UnknownKeysNotBuiltin()
    ensures "Unknown" !in BuiltinTable && "Kind" !in BuiltinTable
  {
    UnknownNotBuiltin();
    KindNotBuiltin();
  }

  lemma UnknownNotBuiltin()
    ensures "Unknown" !in BuiltinTable
  {
  }

  lemma KindNotBuiltin()
    ensures "Kind" !in BuiltinTable
  {
  }

  /** `mapFilterType(UnknownType, 'value', [])` throws. */
  lemma UnknownTypeExample(t: GqlType)
    requires t == NamedType("Unknown", Some("Kind"))
    ensures MapFilterType(t, Str("value"), [], None) ==
              Err(Error("Filter for type \"" + "Unknown" + "\" or kind \"" + "Kind" + "\" not implemented."))
  {
    UnknownKeysNotBuiltin();
    assert NameKey(t, Str("value")) == "Unknown";
    assert KindKey(t, Str("value")) == "Kind";
  }

  /** Neither `null` nor `LIST` is a key of the built-in table. */
  lemma NullListNotBuiltin()
    ensures "null" !in BuiltinTable && "LIST" !in BuiltinTable
  {
    NullNotBuiltin();
    ListNotBuiltin();
  }

  lemma NullNotBuiltin()
    ensures "null" !in BuiltinTable
  {
  }

  lemma ListNotBuiltin()
    ensures "LIST" !in BuiltinTable
  {
  }

  /**
    A `tags: [String]!` field filtered by a string: it is filtered as the
    unnamed `LIST` wrapper, whose `null` name and `LIST` kind are both
    missing from the built-in table, so the error names type `"null"`.
   */
  lemma UnnamedWrapperExample(field: GqlType)
    requires field == Field("tags", Wrapper(Some("NON_NULL"), Wrapper(Some("LIST"), Scalar("String"))))
    ensures FilterSubType(field) == Ok(Wrapper(Some("LIST"), Scalar("String")))
    ensures MapFilterType(FilterSubType(field).value, Str("x"), [], None) ==
              Err(Error("Filter for type \"null\" or kind \"LIST\" not implemented."))
  {
    var sub := Wrapper(Some("LIST"), Scalar("String"));
    NullListNotBuiltin();
    assert NameKey(sub, Str("x")) == "null";
    assert KindKey(sub, Str("x")) == "LIST";
    assert UnknownTypeMessage(sub) == "Filter for type \"null\" or kind \"LIST\" not implemented." by {
      NullListMessage();
    }
  }

  lemma NullListMessage()
    ensures "Filter for type \"" + "null" + "\" or kind \"" + "LIST" + "\" not implemented." ==
            "Filter for type \"null\" or kind \"LIST\" not implemented."
  {
  }

  /** A `[Int!]` field is filtered as its `NON_NULL` wrapper renamed `nullList`. */
  lemma NonNullElementListName(field: GqlType)
    requires field == Field("ids", Wrapper(Some("LIST"), Wrapper(Some("NON_NULL"), Scalar("Int"))))
    ensures FilterSubType(field) == Ok(GqlType(Some("nullList"), Some("NON_NULL"), None, None, None, None, Some(Scalar("Int"))))
  {
    assert TypeText(None) + "List" == "nullList";
  }

  // ---------------------------------------------------------------------
  // Ordering hints
  // ---------------------------------------------------------------------

  /** `ORDER_BY_TYPES`: only full-text filters add an ordering, by rank, descending. */
  function OrderByFor(typeName: string, key: string): (r: Option<string>)
    ensures r.Some? <==> typeName == "FullText"
  {
    if typeName == "FullText" then Some(CreateSortingKey(key + "Rank", "DESC")) else None
  }

  /** `getOrderBy(key, type, value, typeToFilter)`. */
  function GetOrderBy(key: string, t: GqlType, v: Value, custom: Option<FilterTable>): (r: Option<string>)
    ensures r.Some? <==> ResolveTypeName(ChooseTable(custom), t, v) == "FullText"
    ensures r.Some? ==> r.value == CreateSortingKey(key + "Rank", "DESC")
  {
    OrderByFor(ResolveTypeName(ChooseTable(custom), t, v), key)
  }

  // ---------------------------------------------------------------------
  // createFilter
  // ---------------------------------------------------------------------

  /** `getFilterParameters`: the key split on spaces; the field name comes first. */
  function FilterParameters(key: string): (r: seq<string>)
    ensures |r| >= 1 && Join(r, ' ') == key
    ensures forall i :: 0 <= i < |r| ==> ' ' !in r[i]
  {
    JoinSplit(key, ' ');
    Split(key, ' ')
  }

  /** The field name a filter key starts with. */
  function FieldName(key: string): string {
    FilterParameters(key)[0]
  }

  /** `fields.find(f => f.name === name)`. */
  function FindField(fields: seq<GqlType>, name: string): (r: Option<GqlType>)
    ensures r.None? <==> forall i :: 0 <= i < |fields| ==> fields[i].name != Some(name)
    ensures r.Some? ==> exists i :: && 0 <= i < |fields| && fields[i] == r.value && r.value.name == Some(name)
                                    && forall j :: 0 <= j < i ==> fields[j].name != Some(name)
  {
    if |fields| == 0 then None
    else if fields[0].name == Some(name) then Some(fields[0])
    else
      var r := FindField(fields[1..], name);
      assert forall i :: 0 < i < |fields| ==> fields[i] == fields[1..][i - 1];
      if r.Some? then
        var i :| && 0 <= i < |fields[1..]| && fields[1..][i] == r.value && r.value.name == Some(name)
                 && forall j :: 0 <= j < i ==> fields[1..][j].name != Some(name);
        assert fields[i + 1] == r.value;
        r
      else r
  }

  /**
    The type a field is filtered as: its type's `ofType`, or the type itself
    when there is none; a `LIST` is filtered as `<inner name>List`. A field
    without a type, or a `LIST` without `ofType`, throws.
   */
  function FilterSubType(field: GqlType): (r: Result<GqlType, JsError>)
    ensures r.Err? <==> field.typ.None? || (field.typ.value.kind == Some("LIST") && field.typ.value.ofType.None?)
    ensures r.Ok? && field.typ.value.kind != Some("LIST") ==>
              r.value == if field.typ.value.ofType.Some? then field.typ.value.ofType.value else field.typ.value
    ensures r.Ok? && field.typ.value.kind == Some("LIST") ==>
              r.value == field.typ.value.ofType.value.(name := Some(TypeText(field.typ.value.ofType.value.name) + "List"))
  {
    match field.typ
    case None => Err(TypeError)
    case Some(t) =>
      var sub := if t.ofType.Some? then t.ofType.value else t;
      if t.kind == Some("LIST") then
        if t.ofType.None? then Err(TypeError)
        else Ok(sub.(name := Some(TypeText(t.ofType.value.name) + "List")))
      else Ok(sub)
  }

  /** The key's first token names a field of the type. */
  predicate IsRecognised(typ: GqlType, key: string) {
    typ.fields.Some? && FindField(typ.fields.value, FilterParameters(key)[0]).Some?
  }

  /** The field a recognised key names. */
  function FieldOf(typ: GqlType, key: string): GqlType
    requires IsRecognised(typ, key)
  {
    FindField(typ.fields.value, FilterParameters(key)[0]).value
  }

  /** What one recognised key contributes: its field, its one-key filter object and its ordering hint. */
  datatype KeyFilter = KeyFilter(field: string, fragment: Entries, orderBy: Option<string>)

  /**
    One step of the reduction for `key: value`: `None` when the key's first
    token names no field of the type (the key is ignored). Reading the
    fields of a type that has none throws.
   */
  function FilterForKey(typ: GqlType, custom: Option<FilterTable>, key: string, v: Value): (r: Result<Option<KeyFilter>, JsError>)
    ensures typ.fields.None? ==> r == Err(TypeError)
    ensures typ.fields.Some? && !IsRecognised(typ, key) ==> r == Ok(None)
    ensures r.Ok? && r.value.Some? ==>
              && IsRecognised(typ, key)
              && r.value.value.field == FieldName(key)
              && |r.value.value.fragment| == 1
              && FilterSubType(FieldOf(typ, key)).Ok?
              && var sub := FilterSubType(FieldOf(typ, key)).value;
                 && MapFilterType(sub, v, FilterParameters(key)[1..], custom) == Ok(Obj(r.value.value.fragment))
                 && r.value.value.orderBy == GetOrderBy(key, sub, v, custom)
    ensures IsRecognised(typ, key) ==> r.Err? || r.value.Some?
    ensures IsRecognised(typ, key) ==>
              var sub := FilterSubType(FieldOf(typ, key));
              && (sub.Err? ==> r == Err(sub.error))
              && (sub.Ok? ==>
                    var frag := MapFilterType(sub.value, v, FilterParameters(key)[1..], custom);
                    && (r.Ok? <==> frag.Ok?)
                    && (frag.Err? ==> r == Err(frag.error)))
  {
    var parts := FilterParameters(key);
    var name := parts[0];
    if typ.fields.None? then Err(TypeError)
    else
      match FindField(typ.fields.value, name)
      case None => Ok(None)
      case Some(f) =>
        var sub :- FilterSubType(f);
        var orderBy := GetOrderBy(key, sub, v, custom);
        var frag :- MapFilterType(sub, v, parts[1..], custom);
        Ok(Some(KeyFilter(name, frag.entries, orderBy)))
  }

  /** The input entries whose key is recognised, in input order. */
  function RecognisedEntries(es: Entries, typ: GqlType): (r: Entries)
    ensures |r| <= |es|
    ensures |r| == 0 <==> forall i :: 0 <= i < |es| ==> !IsRecognised(typ, es[i].0)
    ensures forall j :: 0 <= j < |r| ==> IsRecognised(typ, r[j].0) && r[j] in es
    ensures forall e :: e in es && IsRecognised(typ, e.0) ==> e in r
    decreases |es|
  {
    if |es| == 0 then []
    else
      var init := RecognisedEntries(es[..|es| - 1], typ);
      RecognisedEntriesStep(es, typ, init);
      if IsRecognised(typ, es[|es| - 1].0) then init + [es[|es| - 1]] else init
  }

  /**
    Filtering keeps the input order: the recognised entries of `a + b` are
    those of `a` followed by those of `b`.
   */
  lemma {:induction false} RecognisedEntriesAppend(a: Entries, b: Entries, typ: GqlType)
    ensures RecognisedEntries(a + b, typ) == RecognisedEntries(a, typ) + RecognisedEntries(b, typ)
    decreases |b|
  {
    if |b| == 0 {
      assert a + b == a;
    } else {
      var init := b[..|b| - 1];
      assert (a + b)[..|a + b| - 1] == a + init;
      assert (a + b)[|a + b| - 1] == b[|b| - 1];
      RecognisedEntriesAppend(a, init, typ);
    }
  }

  /** A single entry is kept exactly when its key is recognised. */
  lemma RecognisedEntriesSingle(e: (string, Value), typ: GqlType)
    ensures RecognisedEntries([e], typ) == if IsRecognised(typ, e.0) then [e] else []
  {
    assert [e][..0] == [];
  }

  /** Filtering one more entry keeps the properties of `RecognisedEntries`. */
  lemma RecognisedEntriesStep(es: Entries, typ: GqlType, init: Entries)
    requires |es| > 0
    requires |init| <= |es| - 1
    requires |init| == 0 <==> forall i :: 0 <= i < |es| - 1 ==> !IsRecognised(typ, es[i].0)
    requires forall j :: 0 <= j < |init| ==> IsRecognised(typ, init[j].0) && init[j] in es[..|es| - 1]
    requires forall e :: e in es[..|es| - 1] && IsRecognised(typ, e.0) ==> e in init
    ensures var r := if IsRecognised(typ, es[|es| - 1].0) then init + [es[|es| - 1]] else init;
            && |r| <= |es|
            && (|r| == 0 <==> forall i :: 0 <= i < |es| ==> !IsRecognised(typ, es[i].0))
            && (forall j :: 0 <= j < |r| ==> IsRecognised(typ, r[j].0) && r[j] in es)
            && (forall e :: e in es && IsRecognised(typ, e.0) ==> e in r)
  {
    var prefix := es[..|es| - 1];
    var last := es[|es| - 1];
    assert es == prefix + [last];
    assert forall i :: 0 <= i < |es| - 1 ==> prefix[i] == es[i];
    var r := if IsRecognised(typ, last.0) then init + [last] else init;
    forall j | 0 <= j < |r|
      ensures IsRecognised(typ, r[j].0) && r[j] in es
    {
      if j < |init| {
        assert r[j] == init[j];
      }
    }
  }

  /**
    The filters of all keys, in input order; the first error stops the
    reduction. On success there is one per recognised entry, computed from
    that entry alone.
   */
  function KeyFilters(es: Entries, typ: GqlType, custom: Option<FilterTable>): (r: Result<seq<KeyFilter>, JsError>)
    ensures r.Ok? ==> |r.value| == |RecognisedEntries(es, typ)|
    ensures r.Ok? ==> forall j :: 0 <= j < |r.value| ==>
              var e := RecognisedEntries(es, typ)[j];
              FilterForKey(typ, custom, e.0, e.1) == Ok(Some(r.value[j]))
    ensures r.Ok? ==> forall j :: 0 <= j < |r.value| ==> r.value[j].field == FieldName(RecognisedEntries(es, typ)[j].0)
    ensures |es| > 0 && typ.fields.None? ==> r == Err(TypeError)
    ensures r.Ok? <==> forall i :: 0 <= i < |es| ==> FilterForKey(typ, custom, es[i].0, es[i].1).Ok?
    ensures r.Err? ==>
              exists i :: && 0 <= i < |es|
                          && FilterForKey(typ, custom, es[i].0, es[i].1) == Err(r.error)
                          && forall j :: 0 <= j < i ==> FilterForKey(typ, custom, es[j].0, es[j].1).Ok?
    decreases |es|
  {
    if |es| == 0 then Ok([])
    else
      var init := KeyFilters(es[..|es| - 1], typ, custom);
      var last := FilterForKey(typ, custom, es[|es| - 1].0, es[|es| - 1].1);
      var r := if init.Err? then Err(init.error)
               else if last.Err? then Err(last.error)
               else Ok(if last.value.Some? then init.value + [last.value.value] else init.value);
      KeyFiltersOutcomeStep(es, typ, custom, init, r);
      if r.Ok? then KeyFiltersStep(es, typ, custom, init.value, last.value); r else r
  }

  /**
    One step of the reduction keeps its outcome in step with the keys: it
    succeeds when every key compiles, and otherwise fails with the error of
    the first key that does not.
   */
  lemma KeyFiltersOutcomeStep(es: Entries, typ: GqlType, custom: Option<FilterTable>,
                              init: Result<seq<KeyFilter>, JsError>, r: Result<seq<KeyFilter>, JsError>)
    requires |es| > 0
    requires var prefix := es[..|es| - 1];
             init.Ok? <==> forall i :: 0 <= i < |prefix| ==> FilterForKey(typ, custom, prefix[i].0, prefix[i].1).Ok?
    requires var prefix := es[..|es| - 1];
             init.Err? ==>
               exists i :: && 0 <= i < |prefix|
                           && FilterForKey(typ, custom, prefix[i].0, prefix[i].1) == Err(init.error)
                           && forall j :: 0 <= j < i ==> FilterForKey(typ, custom, prefix[j].0, prefix[j].1).Ok?
    requires init.Err? ==> r == Err(init.error)
    requires var last := FilterForKey(typ, custom, es[|es| - 1].0, es[|es| - 1].1);
             && (init.Ok? && last.Err? ==> r == Err(last.error))
             && (init.Ok? && last.Ok? ==> r.Ok?)
    ensures r.Ok? <==> forall i :: 0 <= i < |es| ==> FilterForKey(typ, custom, es[i].0, es[i].1).Ok?
    ensures r.Err? ==>
              exists i :: && 0 <= i < |es|
                          && FilterForKey(typ, custom, es[i].0, es[i].1) == Err(r.error)
                          && forall j :: 0 <= j < i ==> FilterForKey(typ, custom, es[j].0, es[j].1).Ok?
  {
    FirstFailureStep(es, (e: (string, Value)) => FilterForKey(typ, custom, e.0, e.1), init, r);
  }

  /**
    A left-to-right reduction that stops at the first failing step: one
    more step keeps its outcome equal to "every step succeeds, or the first
    failure's error".
   */
  lemma FirstFailureStep<E, T, S>(es: seq<E>, step: E -> Result<T, JsError>,
                                  init: Result<S, JsError>, r: Result<S, JsError>)
    requires |es| > 0
    requires var prefix := es[..|es| - 1];
             init.Ok? <==> forall i :: 0 <= i < |prefix| ==> step(prefix[i]).Ok?
    requires var prefix := es[..|es| - 1];
             init.Err? ==>
               exists i :: && 0 <= i < |prefix|
                           && step(prefix[i]) == Err(init.error)
                           && forall j :: 0 <= j < i ==> step(prefix[j]).Ok?
    requires init.Err? ==> r == Err(init.error)
    requires init.Ok? && step(es[|es| - 1]).Err? ==> r == Err(step(es[|es| - 1]).error)
    requires init.Ok? && step(es[|es| - 1]).Ok? ==> r.Ok?
    ensures r.Ok? <==> forall i :: 0 <= i < |es| ==> step(es[i]).Ok?
    ensures r.Err? ==>
              exists i :: && 0 <= i < |es|
                          && step(es[i]) == Err(r.error)
                          && forall j :: 0 <= j < i ==> step(es[j]).Ok?
  {
    var prefix := es[..|es| - 1];
    var n := |es| - 1;
    assert forall i :: 0 <= i < n ==> prefix[i] == es[i];
    if init.Err? {
      var i :| && 0 <= i < |prefix|
               && step(prefix[i]) == Err(init.error)
               && forall j :: 0 <= j < i ==> step(prefix[j]).Ok?;
      assert step(es[i]) == Err(r.error);
    } else if r.Err? {
      assert step(es[n]) == Err(r.error);
    }
  }

  /** One step of the reduction keeps the filters in step with the recognised entries. */
  lemma KeyFiltersStep(es: Entries, typ: GqlType, custom: Option<FilterTable>, init: seq<KeyFilter>, last: Option<KeyFilter>)
    requires |es| > 0
    requires |init| == |RecognisedEntries(es[..|es| - 1], typ)|
    requires forall j :: 0 <= j < |init| ==>
               var e := RecognisedEntries(es[..|es| - 1], typ)[j];
               FilterForKey(typ, custom, e.0, e.1) == Ok(Some(init[j]))
    requires FilterForKey(typ, custom, es[|es| - 1].0, es[|es| - 1].1) == Ok(last)
    ensures var kfs := if last.Some? then init + [last.value] else init;
            && |kfs| == |RecognisedEntries(es, typ)|
            && forall j :: 0 <= j < |kfs| ==>
                 var e := RecognisedEntries(es, typ)[j];
                 FilterForKey(typ, custom, e.0, e.1) == Ok(Some(kfs[j]))
  {
    var before := RecognisedEntries(es[..|es| - 1], typ);
    var e := es[|es| - 1];
    var after := RecognisedEntries(es, typ);
    assert last.Some? <==> IsRecognised(typ, e.0);
    assert after == if last.Some? then before + [e] else before;
    AlignStep((p: (string, Value)) => FilterForKey(typ, custom, p.0, p.1), before, after, e, init, last);
  }

  /**
    Results kept in step with a filtered sequence stay in step when one
    more element is filtered: kept with its result, or dropped with none.
   */
  lemma AlignStep<E, K>(step: E -> Result<Option<K>, JsError>, before: seq<E>, after: seq<E>,
                        e: E, init: seq<K>, last: Option<K>)
    requires |init| == |before|
    requires forall j :: 0 <= j < |init| ==> step(before[j]) == Ok(Some(init[j]))
    requires step(e) == Ok(last)
    requires after == if last.Some? then before + [e] else before
    ensures var kfs := if last.Some? then init + [last.value] else init;
            && |kfs| == |after|
            && forall j :: 0 <= j < |kfs| ==> step(after[j]) == Ok(Some(kfs[j]))
  {
    if last.Some? {
      var kfs := init + [last.value];
      forall j | 0 <= j < |kfs|
        ensures step(after[j]) == Ok(Some(kfs[j]))
      {
        if j < |init| {
          assert after[j] == before[j] && kfs[j] == init[j];
        } else {
          assert after[j] == e && kfs[j] == last.value;
        }
      }
    }
  }

  /**
    Adds a field's fragment to the accumulated filter: an existing entry
    for the field is spread together with the fragment, a new field is
    appended.
   */
  function MergeInto(m: Entries, name: string, fragment: Entries): (r: Entries)
    ensures Lookup(m, name).Some? ==> Keys(r) == Keys(m)
    ensures Lookup(m, name).None? ==> Keys(r) == Keys(m) + [name]
  {
    match Lookup(m, name)
    case Some(Obj(es)) => Put(m, name, Obj(Assign(es, fragment)))
    case _ => Put(m, name, Obj(fragment))
  }

  /** The merged per-field object of the reduction. */
  function Merged(kfs: seq<KeyFilter>): Entries {
    if |kfs| == 0 then []
    else
      var last := kfs[|kfs| - 1];
      MergeInto(Merged(kfs[..|kfs| - 1]), last.field, last.fragment)
  }

  /** The ordering hints of the reduction, in input order. */
  function OrderHints(kfs: seq<KeyFilter>): seq<string> {
    if |kfs| == 0 then []
    else
      var last := kfs[|kfs| - 1];
      OrderHints(kfs[..|kfs| - 1]) + (if last.orderBy.Some? then [last.orderBy.value] else [])
  }

  /** The result of `createFilter`: `filters` is undefined when no key was recognised. */
  datatype FilterResult = FilterResult(filters: Option<Value>, filterOrderBy: seq<string>)

  /** `createFilter(fields, type, typeToFilter)`. */
  function CreateFilter(fields: Option<Entries>, typ: GqlType, custom: Option<FilterTable>): (r: Result<FilterResult, JsError>)
    ensures fields.None? || fields == Some([]) ==> r == Ok(FilterResult(None, []))
    ensures fields.Some? && |fields.value| > 0 && typ.fields.None? ==> r == Err(TypeError)
    ensures fields.Some? ==>
              && (r.Ok? <==> KeyFilters(fields.value, typ, custom).Ok?)
              && (r.Err? ==> r.error == KeyFilters(fields.value, typ, custom).error)
    ensures r.Ok? && r.value.filters.None? ==> r.value.filterOrderBy == []
    ensures r.Ok? && r.value.filters.Some? ==>
              exists m :: && |m| > 0 && r.value.filters.value == Obj([("and", Arr([Obj(m)]))])
  {
    match fields
    case None => Ok(FilterResult(None, []))
    case Some(es) =>
      var kfs :- KeyFilters(es, typ, custom);
      var m := Merged(kfs);
      if |m| == 0 then Ok(FilterResult(None, []))
      else Ok(FilterResult(Some(Obj([("and", Arr([Obj(m)]))])), OrderHints(kfs)))
  }

  /**
    `createFilter` returns exactly when every recognised key's field type
    and filter value compile; a non-empty record needs a type with fields.
   */
  lemma CreateFilterSucceeds(es: Entries, typ: GqlType, custom: Option<FilterTable>)
    ensures CreateFilter(Some(es), typ, custom).Ok? <==>
              || |es| == 0
              || (&& typ.fields.Some?
                  && forall i :: 0 <= i < |es| && IsRecognised(typ, es[i].0) ==>
                       && FilterSubType(FieldOf(typ, es[i].0)).Ok?
                       && MapFilterType(FilterSubType(FieldOf(typ, es[i].0)).value, es[i].1,
                                        FilterParameters(es[i].0)[1..], custom).Ok?)
  {
  }

  // ---------------------------------------------------------------------
  // Properties of createFilter
  // ---------------------------------------------------------------------

  /** The fields the key filters name, in order. */
  function Fields(kfs: seq<KeyFilter>): (r: seq<string>)
    ensures |r| == |kfs|
    ensures forall j :: 0 <= j < |kfs| ==> r[j] == kfs[j].field
  {
    if |kfs| == 0 then [] else Fields(kfs[..|kfs| - 1]) + [kfs[|kfs| - 1].field]
  }

  /** The merged object has one key per field some key filter names, and no key twice. */
  lemma {:induction false} MergedKeys(kfs: seq<KeyFilter>)
    ensures DistinctKeys(Merged(kfs))
    ensures forall n :: n in Keys(Merged(kfs)) <==> n in Fields(kfs)
    ensures |Merged(kfs)| == 0 <==> |kfs| == 0
  {
    if |kfs| > 0 {
      var init := kfs[..|kfs| - 1];
      var last := kfs[|kfs| - 1];
      var m := Merged(init);
      MergedKeys(init);
      assert Fields(kfs) == Fields(init) + [last.field];
      LookupInKeys(m, last.field);
      match Lookup(m, last.field)
      case Some(Obj(es)) => PutKeepsDistinct(m, last.field, Obj(Assign(es, last.fragment)));
      case _ => PutKeepsDistinct(m, last.field, Obj(last.fragment));
    }
  }

  /** The fragments of the key filters for field `n`, spread one after another. */
  function Gathered(kfs: seq<KeyFilter>, n: string): Entries {
    if |kfs| == 0 then []
    else
      var last := kfs[|kfs| - 1];
      var init := Gathered(kfs[..|kfs| - 1], n);
      if last.field == n then Assign(init, last.fragment) else init
  }

  /** The value `MergeInto` stores for the field. */
  function MergedValue(m: Entries, name: string, fragment: Entries): Entries {
    match Lookup(m, name)
    case Some(Obj(es)) => Assign(es, fragment)
    case _ => fragment
  }

  lemma MergeIntoLookup(m: Entries, name: string, fragment: Entries, k: string)
    ensures Lookup(MergeInto(m, name, fragment), k) ==
              if k == name then Some(Obj(MergedValue(m, name, fragment))) else Lookup(m, k)
  {
    LookupPut(m, name, Obj(MergedValue(m, name, fragment)), k);
  }

  lemma {:induction false} GatheredUnnamed(kfs: seq<KeyFilter>, n: string)
    requires n !in Fields(kfs)
    ensures Gathered(kfs, n) == []
  {
    if |kfs| > 0 {
      assert Fields(kfs) == Fields(kfs[..|kfs| - 1]) + [kfs[|kfs| - 1].field];
      GatheredUnnamed(kfs[..|kfs| - 1], n);
    }
  }

  /**
    Keys naming the same field merge by shallow union: the field's entry is
    the spread of all its keys' fragments in input order, so a later
    operator replaces an earlier one.
   */
  lemma {:induction false} MergedLookup(kfs: seq<KeyFilter>, n: string)
    requires forall j :: 0 <= j < |kfs| ==> |kfs[j].fragment| == 1
    ensures n in Fields(kfs) ==> Lookup(Merged(kfs), n) == Some(Obj(Gathered(kfs, n)))
    ensures n !in Fields(kfs) ==> Lookup(Merged(kfs), n) == None
  {
    if |kfs| > 0 {
      var init := kfs[..|kfs| - 1];
      var last := kfs[|kfs| - 1];
      var m := Merged(init);
      assert Merged(kfs) == MergeInto(m, last.field, last.fragment);
      assert Fields(kfs) == Fields(init) + [last.field];
      assert forall j :: 0 <= j < |init| ==> init[j] == kfs[j];
      MergedLookup(init, n);
      MergeIntoLookup(m, last.field, last.fragment, n);
      if n == last.field {
        assert Gathered(kfs, n) == Assign(Gathered(init, n), last.fragment);
        if n !in Fields(init) {
          GatheredUnnamed(init, n);
          AssignIntoEmpty(last.fragment);
        }
      } else {
        assert Gathered(kfs, n) == Gathered(init, n);
      }
    }
  }

  /** The operator of the last key for a field wins over an earlier key with the same operator. */
  lemma LaterOperatorWins(kfs: seq<KeyFilter>, n: string, op: string, x: Value)
    requires |kfs| > 0 && kfs[|kfs| - 1].field == n && kfs[|kfs| - 1].fragment == [(op, x)]
    ensures Lookup(Gathered(kfs, n), op) == Some(x)
  {
    LookupAssign(Gathered(kfs[..|kfs| - 1], n), [(op, x)], op);
  }

  /** `filters` is undefined exactly when no key names a field of the type. */
  lemma CreateFilterUndefinedIff(es: Entries, typ: GqlType, custom: Option<FilterTable>)
    requires CreateFilter(Some(es), typ, custom).Ok?
    ensures CreateFilter(Some(es), typ, custom).value.filters.None? <==>
              forall i :: 0 <= i < |es| ==> !IsRecognised(typ, es[i].0)
  {
    MergedKeys(KeyFilters(es, typ, custom).value);
  }

  /** The fields the recognised keys name, in input order. */
  function RecognisedFields(es: Entries, typ: GqlType): (r: seq<string>)
    ensures |r| == |RecognisedEntries(es, typ)|
    ensures forall j :: 0 <= j < |r| ==> r[j] == FieldName(RecognisedEntries(es, typ)[j].0)
  {
    var re := RecognisedEntries(es, typ);
    seq(|re|, j requires 0 <= j < |re| => FieldName(re[j].0))
  }

  lemma RecognisedFieldsMember(es: Entries, typ: GqlType, n: string)
    ensures n in RecognisedFields(es, typ) <==> exists e :: e in es && IsRecognised(typ, e.0) && FieldName(e.0) == n
  {
    if exists e :: e in es && IsRecognised(typ, e.0) && FieldName(e.0) == n {
      var e :| e in es && IsRecognised(typ, e.0) && FieldName(e.0) == n;
      RecognisedFieldOf(es, typ, e);
    }
    if n in RecognisedFields(es, typ) {
      RecognisedFieldFrom(es, typ, n);
    }
  }

  lemma RecognisedFieldOf(es: Entries, typ: GqlType, e: (string, Value))
    requires e in es && IsRecognised(typ, e.0)
    ensures FieldName(e.0) in RecognisedFields(es, typ)
  {
    var re := RecognisedEntries(es, typ);
    var j :| 0 <= j < |re| && re[j] == e;
    assert RecognisedFields(es, typ)[j] == FieldName(e.0);
  }

  lemma RecognisedFieldFrom(es: Entries, typ: GqlType, n: string)
    requires n in RecognisedFields(es, typ)
    ensures exists e :: e in es && IsRecognised(typ, e.0) && FieldName(e.0) == n
  {
    var re := RecognisedEntries(es, typ);
    var fs := RecognisedFields(es, typ);
    var j :| 0 <= j < |fs| && fs[j] == n;
    assert re[j] in es && IsRecognised(typ, re[j].0) && FieldName(re[j].0) == n;
  }

  /** The key filters name exactly the fields of the recognised keys. */
  lemma KeyFiltersFields(es: Entries, typ: GqlType, custom: Option<FilterTable>)
    requires KeyFilters(es, typ, custom).Ok?
    ensures Fields(KeyFilters(es, typ, custom).value) == RecognisedFields(es, typ)
  {
  }

  /**
    The keys of the merged filter are exactly the fields the recognised
    keys name, each once.
   */
  lemma CreateFilterKeys(es: Entries, typ: GqlType, custom: Option<FilterTable>)
    requires CreateFilter(Some(es), typ, custom).Ok?
    requires CreateFilter(Some(es), typ, custom).value.filters.Some?
    ensures var m := CreateFilter(Some(es), typ, custom).value.filters.value.entries[0].1.items[0].entries;
            && DistinctKeys(m)
            && forall n :: n in Keys(m) <==> exists e :: e in es && IsRecognised(typ, e.0) && FieldName(e.0) == n
  {
    var kfs := KeyFilters(es, typ, custom).value;
    MergedKeys(kfs);
    assert CreateFilter(Some(es), typ, custom).value.filters.value.entries[0].1.items[0].entries == Merged(kfs);
    KeyFiltersFields(es, typ, custom);
    forall n
      ensures n in Keys(Merged(kfs)) <==> exists e :: e in es && IsRecognised(typ, e.0) && FieldName(e.0) == n
    {
      RecognisedFieldsMember(es, typ, n);
    }
  }

  /** The ordering hint of one input entry, computed without the reduction. */
  function HintFor(typ: GqlType, custom: Option<FilterTable>, key: string, v: Value): Option<string> {
    if IsRecognised(typ, key) && FilterSubType(FieldOf(typ, key)).Ok?
    then GetOrderBy(key, FilterSubType(FieldOf(typ, key)).value, v, custom)
    else None
  }

  /** The ordering hints of the input entries, in input order. */
  function InputHints(es: Entries, typ: GqlType, custom: Option<FilterTable>): seq<string>
    decreases |es|
  {
    if |es| == 0 then []
    else
      var h := HintFor(typ, custom, es[|es| - 1].0, es[|es| - 1].1);
      InputHints(es[..|es| - 1], typ, custom) + (if h.Some? then [h.value] else [])
  }

  lemma {:induction false} KeyFiltersHints(es: Entries, typ: GqlType, custom: Option<FilterTable>)
    requires KeyFilters(es, typ, custom).Ok?
    ensures OrderHints(KeyFilters(es, typ, custom).value) == InputHints(es, typ, custom)
    decreases |es|
  {
    if |es| > 0 {
      var init := es[..|es| - 1];
      var key := es[|es| - 1].0;
      var v := es[|es| - 1].1;
      var before := KeyFilters(init, typ, custom);
      var last := FilterForKey(typ, custom, key, v);
      assert before.Ok? && last.Ok?;
      KeyFiltersHints(init, typ, custom);
      var h := HintFor(typ, custom, key, v);
      assert InputHints(es, typ, custom) == InputHints(init, typ, custom) + (if h.Some? then [h.value] else []);
      match last.value
      case None =>
        assert KeyFilters(es, typ, custom).value == before.value;
        assert h.None?;
      case Some(kf) =>
        var kfs := before.value + [kf];
        assert KeyFilters(es, typ, custom).value == kfs;
        assert kfs[..|kfs| - 1] == before.value;
        assert kf.orderBy == h;
    }
  }

  /**
    `filterOrderBy` lists, in input key order, the sorting key
    `<KEY>_RANK_DESC` of every recognised key whose type resolves to
    `FullText`.
   */
  lemma CreateFilterOrderBy(es: Entries, typ: GqlType, custom: Option<FilterTable>)
    requires CreateFilter(Some(es), typ, custom).Ok?
    requires CreateFilter(Some(es), typ, custom).value.filters.Some?
    ensures CreateFilter(Some(es), typ, custom).value.filterOrderBy == InputHints(es, typ, custom)
  {
    var kfs := KeyFilters(es, typ, custom).value;
    assert CreateFilter(Some(es), typ, custom).value.filterOrderBy == OrderHints(kfs);
    KeyFiltersHints(es, typ, custom);
  }
}

module FilterExamples {
  import opened Wrappers
  import opened Text
  import opened Values
  import opened GqlTypes
  import opened Filters

  /** The type the source's examples filter: scalars, lists of scalars and a wrapped string. */
  function FixtureType(): GqlType {
    GqlType(None, None, Some([
      Field("i", Scalar("Int")),
      Field("ia", Scalar("Int")),
      Field("intList", Wrapper(Some("LIST"), GqlType(Some("Int"), Some("SCALAR"), None, None, None, None, None))),
      Field("intList2", Wrapper(Some("LIST"), GqlType(Some("Int"), Some("SCALAR"), None, None, None, None, None))),
      Field("s", Scalar("String")),
      Field("s2", Wrapper(None, Scalar("String")))]), None, None, None, None)
  }

  lemma FixtureFieldI(typ: GqlType)
    requires typ == FixtureType()
    ensures FieldName("i special") == "i" && FilterParameters("i special")[1..] == ["special"]
    ensures typ.fields.Some? && FindField(typ.fields.value, "i") == Some(Field("i", Scalar("Int")))
  {
    var key := "i special";
    SplitWithoutSeparator("special", ' ');
    assert key[1..] == " special" && key[1..][1..] == "special";
  }

  lemma CallerTableFragment(typ: GqlType, table: FilterTable)
    requires typ == FixtureType()
    requires table == map["Int" := map["special" := FilterOp("isTheAnswer", Constant(Num(42)))]]
    ensures FilterForKey(typ, Some(table), "i special", Num(1)) == Ok(Some(KeyFilter("i", [("isTheAnswer", Num(42))], None)))
  {
    FixtureFieldI(typ);
    CallerTableEntry(Scalar("Int"), table);
    assert FilterSubType(Field("i", Scalar("Int"))) == Ok(Scalar("Int"));
  }

  lemma CallerTableEntry(t: GqlType, table: FilterTable)
    requires t == Scalar("Int")
    requires table == map["Int" := map["special" := FilterOp("isTheAnswer", Constant(Num(42)))]]
    ensures GetOrderBy("i special", t, Num(1), Some(table)) == None
    ensures MapFilterType(t, Num(1), ["special"], Some(table)) == Ok(Obj([("isTheAnswer", Num(42))]))
  {
    assert NameKey(t, Num(1)) == "Int";
    assert ResolveTypeName(table, t, Num(1)) == "Int";
    assert EntryFor(table, t, Num(1), ["special"]) == Some(FilterOp("isTheAnswer", Constant(Num(42))));
  }

  /** `createFilter({'i special': 1}, FilterType, MyTypeToFilterMap)`: the caller's table decides. */
  lemma CallerTableExample(es: Entries, typ: GqlType, table: FilterTable)
    requires typ == FixtureType() && es == [("i special", Num(1))]
    requires table == map["Int" := map["special" := FilterOp("isTheAnswer", Constant(Num(42)))]]
    ensures CreateFilter(Some(es), typ, Some(table))
            == Ok(FilterResult(Some(Obj([("and", Arr([Obj([("i", Obj([("isTheAnswer", Num(42))]))])]))])), []))
  {
    var kf := KeyFilter("i", [("isTheAnswer", Num(42))], None);
    CallerTableFragment(typ, table);
    SingleKey(es[0], typ, Some(table));
    SingleMerge(kf);
    assert KeyFilters(es, typ, Some(table)) == Ok([kf]);
  }

  lemma SingleKey(e: (string, Value), typ: GqlType, custom: Option<FilterTable>)
    ensures KeyFilters([e], typ, custom) ==
              match FilterForKey(typ, custom, e.0, e.1)
              case Err(err) => Err(err)
              case Ok(None) => Ok([])
              case Ok(Some(kf)) => Ok([kf])
  {
    var es := [e];
    assert es[..|es| - 1] == [] && es[|es| - 1] == e;
    assert KeyFilters([], typ, custom) == Ok([]);
    var last := FilterForKey(typ, custom, e.0, e.1);
    if last.Ok? && last.value.Some? {
      assert [] + [last.value.value] == [last.value.value];
    }
  }

  lemma SingleMerge(kf: KeyFilter)
    ensures Merged([kf]) == [(kf.field, Obj(kf.fragment))]
    ensures OrderHints([kf]) == if kf.orderBy.Some? then [kf.orderBy.value] else []
  {
    assert [kf][..0] == [];
  }

  lemma FixtureLacksUnknown(typ: GqlType)
    requires typ == FixtureType()
    ensures !IsRecognised(typ, "unknown")
  {
    SplitWithoutSeparator("unknown", ' ');
    FixtureNames(typ);
    UnknownIsNoFixtureName();
    var fields := typ.fields.value;
    assert forall i :: 0 <= i < |fields| ==> fields[i].name != Some("unknown");
  }

  lemma FixtureNames(typ: GqlType)
    requires typ == FixtureType()
    ensures typ.fields.Some? && |typ.fields.value| == 6
    ensures forall i :: 0 <= i < 6 ==> typ.fields.value[i].name == Some(["i", "ia", "intList", "intList2", "s", "s2"][i])
  {
  }

  lemma UnknownIsNoFixtureName()
    ensures forall i :: 0 <= i < 6 ==> ["i", "ia", "intList", "intList2", "s", "s2"][i] != "unknown"
  {
  }

  /** `createFilter({unknown: 'value'}, FilterType)`: no key names a field, so there is no filter. */
  lemma UnknownFieldExample(es: Entries, typ: GqlType)
    requires typ == FixtureType() && es == [("unknown", Str("value"))]
    ensures CreateFilter(Some(es), typ, None) == Ok(FilterResult(None, []))
  {
    FixtureLacksUnknown(typ);
    assert es[..0] == [];
    assert KeyFilters(es, typ, None) == Ok([]);
  }
}

=== FILE: gqltype.dfy ===
/**
  Introspected GraphQL types and the helpers that walk a field's
  `type -> ofType -> ...` wrapper chain (src/gqltype.ts).
 */
module GqlTypes {
  import opened Wrappers
  import opened Values

  /**
    A node of the introspection result: a named type, a wrapper type
    (`LIST`/`NON_NULL` with `ofType`), a field (with its declared `typ`), an
    input field or a root query (with `args`). Every property is optional,
    as in the introspection JSON.
   */
  datatype GqlType = GqlType(
    name: Option<string>,
    kind: Option<string>,
    fields: Option<seq<GqlType>>,
    inputFields: Option<seq<GqlType>>,
    args: Option<seq<GqlType>>,
    typ: Option<GqlType>,
    ofType: Option<GqlType>)

  /** A name-to-type lookup table built from an introspection list. */
  type TypeMap = map<string, GqlType>

  /**
    A type's `name` or `kind` in a template literal or as a property key.
    The introspection result carries these properties on every type node,
    with JSON `null` for the name of a `LIST` or `NON_NULL` wrapper, so a
    missing one renders as `"null"`.
   */
  function TypeText(s: Option<string>): (r: string)
    ensures s.Some? ==> r == s.value
    ensures s.None? ==> r == "null"
  {
    s.GetOr("null")
  }

  /** A string property that JavaScript treats as true: present and non-empty. */
  predicate HasText(s: Option<string>) {
    s.Some? && s.value != ""
  }

  /** A field `name` of declared type `typ`. */
  function Field(name: string, typ: GqlType): GqlType {
    GqlType(Some(name), None, None, None, None, Some(typ), None)
  }

  /** A type reference that carries only a name. */
  function Scalar(name: string): GqlType {
    GqlType(Some(name), None, None, None, None, None, None)
  }

  /** An unnamed wrapper (`LIST`, `NON_NULL`) around `inner`. */
  function Wrapper(kind: Option<string>, inner: GqlType): GqlType {
    GqlType(None, kind, None, None, None, None, Some(inner))
  }

  /** A named type with the given fields. */
  function ObjectType(name: string, fields: seq<GqlType>): GqlType {
    GqlType(Some(name), Some("OBJECT"), Some(fields), None, None, None, None)
  }

  /** The wrapper chain `t, t.ofType, t.ofType.ofType, ...` starting at `t`. */
  function TypeChain(t: Option<GqlType>): (r: seq<GqlType>)
    ensures t.None? <==> |r| == 0
    ensures t.Some? ==> r[0] == t.value && r[1..] == TypeChain(t.value.ofType)
    decreases t
  {
    match t
    case None => []
    case Some(x) => [x] + TypeChain(x.ofType)
  }

  /** Some type in the chain starting at `t` has kind `kind`. */
  predicate KindInChain(kind: string, t: Option<GqlType>) {
    exists i :: 0 <= i < |TypeChain(t)| && TypeChain(t)[i].kind == Some(kind)
  }

  lemma KindInChainStep(kind: string, x: GqlType)
    ensures KindInChain(kind, Some(x)) <==> x.kind == Some(kind) || KindInChain(kind, x.ofType)
  {
    var chain := TypeChain(Some(x));
    if KindInChain(kind, Some(x)) && x.kind != Some(kind) {
      var i :| 0 <= i < |chain| && chain[i].kind == Some(kind);
      assert chain[1..][i - 1] == chain[i];
    }
    if KindInChain(kind, x.ofType) {
      var i :| 0 <= i < |TypeChain(x.ofType)| && TypeChain(x.ofType)[i].kind == Some(kind);
      assert chain[i + 1] == TypeChain(x.ofType)[i];
    }
  }

  /**
    `hasKind(kind, field)`: walks `field.type`, `field.type.ofType`, ... and
    reports whether some type on the way has kind `kind`; false when the
    field has no type.
   */
  method HasKind(kind: string, field: GqlType) returns (r: bool)
    ensures r <==> KindInChain(kind, field.typ)
  {
    var current := field.typ;
    while current.Some? && current.value.kind != Some(kind)
      invariant KindInChain(kind, field.typ) <==> KindInChain(kind, current)
      decreases current
    {
      KindInChainStep(kind, current.value);
      current := current.value.ofType;
    }
    if current.Some? {
      KindInChainStep(kind, current.value);
    }
    r := current.Some?;
  }

  /** `isObjectOrListOfObjectsType`: the field's type chain contains an `OBJECT`. */
  method IsObjectOrListOfObjectsType(field: GqlType) returns (r: bool)
    ensures r <==> KindInChain("OBJECT", field.typ)
  {
    r := HasKind("OBJECT", field);
  }

  /** `isListType`: the type itself or its immediate `ofType` is a `LIST`. */
  function IsListType(t: GqlType): (r: bool)
    ensures r <==> exists i :: 0 <= i < |TypeChain(Some(t))| && i < 2 && TypeChain(Some(t))[i].kind == Some("LIST")
    ensures r ==> KindInChain("LIST", Some(t))
  {
    var chain := TypeChain(Some(t));
    assert t.ofType.Some? ==> chain[1] == t.ofType.value;
    t.kind == Some("LIST") || (t.ofType.Some? && t.ofType.value.kind == Some("LIST"))
  }

  /** `isObjectType`: the type itself or its immediate `ofType` is an `OBJECT`. */
  function IsObjectType(t: GqlType): (r: bool)
    ensures r <==> exists i :: 0 <= i < |TypeChain(Some(t))| && i < 2 && TypeChain(Some(t))[i].kind == Some("OBJECT")
    ensures r ==> KindInChain("OBJECT", Some(t))
  {
    var chain := TypeChain(Some(t));
    assert t.ofType.Some? ==> chain[1] == t.ofType.value;
    t.kind == Some("OBJECT") || (t.ofType.Some? && t.ofType.value.kind == Some("OBJECT"))
  }

  /** No type in the chain starting at `t` carries a non-empty name. */
  predicate NoNameInChain(t: Option<GqlType>) {
    forall i :: 0 <= i < |TypeChain(t)| ==> !HasText(TypeChain(t)[i].name)
  }

  /** `chain[i]` is the first type of `chain` with a non-empty name. */
  predicate FirstNamedAt(chain: seq<GqlType>, i: int) {
    && 0 <= i < |chain|
    && HasText(chain[i].name)
    && forall j :: 0 <= j < i ==> !HasText(chain[j].name)
  }

  /** The name of the first named type in the chain starting at `t`. */
  function FirstName(t: Option<GqlType>): (r: Option<string>)
    ensures r.None? <==> NoNameInChain(t)
    ensures r.Some? ==> exists i :: FirstNamedAt(TypeChain(t), i) && TypeChain(t)[i].name == r
    decreases t
  {
    match t
    case None => None
    case Some(x) =>
      if HasText(x.name) then
        assert FirstNamedAt(TypeChain(t), 0);
        x.name
      else
        var r := FirstName(x.ofType);
        var chain := TypeChain(t);
        assert forall i :: 0 < i < |chain| ==> chain[i] == TypeChain(x.ofType)[i - 1];
        if r.Some? then
          var i :| FirstNamedAt(TypeChain(x.ofType), i) && TypeChain(x.ofType)[i].name == r;
          assert FirstNamedAt(chain, i + 1);
          r
        else
          r
  }

  /**
    `fieldTypeName`: the field's declared type name when it has one;
    otherwise the name of the first named type down the `ofType` chain.
    Null when the field has no type or its type has neither a name nor an
    `ofType`; a TypeError when the chain below runs out without a name.
   */
  function FieldTypeName(field: GqlType): (r: Result<Option<string>, JsError>)
    ensures field.typ.None? ==> r == Ok(None)
    ensures field.typ.Some? && HasText(field.typ.value.name) ==> r == Ok(field.typ.value.name)
    ensures r == Ok(None) <==>
              field.typ.None? || (!HasText(field.typ.value.name) && field.typ.value.ofType.None?)
    ensures r.Err? <==> field.typ.Some? && field.typ.value.ofType.Some? && NoNameInChain(field.typ)
    ensures r.Err? ==> r == Err(TypeError)
    ensures r.Ok? && r.value.Some? ==>
              exists i :: FirstNamedAt(TypeChain(field.typ), i) && TypeChain(field.typ)[i].name == r.value
  {
    match field.typ
    case None => Ok(None)
    case Some(t) =>
      if !HasText(t.name) && t.ofType.None? then Ok(None)
      else if HasText(t.name) then
        assert FirstNamedAt(TypeChain(field.typ), 0);
        Ok(t.name)
      else
        assert FirstName(field.typ) == FirstName(t.ofType);
        match FirstName(t.ofType)
        case Some(n) => Ok(Some(n))
        case None => Err(TypeError)
  }

  /** `fieldType`: the type-map entry for the field's type name, or null. */
  function FieldType(field: GqlType, typeMap: TypeMap): (r: Result<Option<GqlType>, JsError>)
    ensures FieldTypeName(field).Err? <==> r.Err?
    ensures r.Ok? && r.value.Some? <==>
              FieldTypeName(field).Ok? && FieldTypeName(field).value.Some? && FieldTypeName(field).value.value in typeMap
    ensures r.Ok? && r.value.Some? ==> r.value.value == typeMap[FieldTypeName(field).value.value]
  {
    var name :- FieldTypeName(field);
    match name
    case None => Ok(None)
    case Some(n) => if n in typeMap then Ok(Some(typeMap[n])) else Ok(None)
  }
}

=== FILE: resource.dfy ===
/**
  The generic resource (`BaseResource`, src/resource.ts): the names and
  flags its constructor derives from the introspection, the record
  pre- and post-processors for compound keys, the variables each
  react-admin verb sends, the verb dispatch, and the per-name resource
  cache of the provider.
 */
module Resource {
  import opened Wrappers
  import opened Text
  import opened Values
  import opened GqlTypes
  import opened Utils
  import opened Filters
  import opened Selection

  /** The introspection result with its types and root queries indexed by name. */
  datatype Introspection = Introspection(types: TypeMap, queries: TypeMap)

  /** The options of one resource that the constructor reads. */
  datatype ResourceOptions = ResourceOptions(
    pluralizedName: Option<string>,
    queryFieldHandlers: Option<Handlers>,
    querySettings: Setting)

  /**
    A constructed resource. `valueToQueryVariablesMap` maps a field type name
    to the name of a caller's value mapper; `typeToFilterMap` is a caller's
    filter table. Both start out null.
   */
  datatype Resource = Resource(
    resourceName: string,
    typeName: string,
    queryTypeName: string,
    pluralizedName: string,
    pluralizedQueryTypeName: string,
    pluralizedTypeName: string,
    types: TypeMap,
    queries: TypeMap,
    typ: GqlType,
    inputType: Option<GqlType>,
    patchType: Option<GqlType>,
    query: GqlType,
    hasCompoundKey: bool,
    getOneResourceName: string,
    getOneIdType: string,
    getOneParams: string,
    getManyFilter: string,
    updateResourceName: string,
    updateResourceInputName: string,
    deleteResourceName: string,
    deleteResourceInputName: string,
    queryFieldHandlers: Handlers,
    querySettings: Setting,
    valueToQueryVariablesMap: Option<map<string, string>>,
    typeToFilterMap: Option<FilterTable>)

  // ---------------------------------------------------------------------
  // Construction
  // ---------------------------------------------------------------------

  function TypeNotFoundMessage(typeName: string): string {
    "Type \"" + typeName + "\" not found in introspection"
  }

  function QueryNotFoundMessage(queryTypeName: string, typeName: string): string {
    "Query \"" + queryTypeName + "\" for type \"" + typeName + "\" not found in introspection"
  }

  function NoArgsMessage(queryTypeName: string, typeName: string): string {
    "Query \"" + queryTypeName + "\" for type \"" + typeName + "\" has no args"
  }

  /** The plural: the configured one when it is a non-empty string, else `<queryTypeName>s`. */
  function PluralOf(queryTypeName: string, options: ResourceOptions): (r: string)
    ensures |r| > 0
    ensures HasText(options.pluralizedName) ==> r == options.pluralizedName.value
    ensures !HasText(options.pluralizedName) ==> r == queryTypeName + "s"
  {
    if HasText(options.pluralizedName) then options.pluralizedName.value else queryTypeName + "s"
  }

  /** `nodeId` for a compound key, the single key argument's name otherwise. */
  function KeySuffix(hasCompoundKey: bool): string {
    if hasCompoundKey then "ByNodeId" else ""
  }

  /** The key's argument name and id type: `nodeId`/`ID` for a compound key. */
  function PrimaryKey(primaryKeys: seq<GqlType>): (r: Result<(string, string), JsError>)
    requires |primaryKeys| > 0
    ensures |primaryKeys| > 1 ==> r == Ok(("nodeId", "ID"))
    ensures r.Err? ==> r == Err(TypeError)
    ensures |primaryKeys| == 1 ==>
              var key := primaryKeys[0];
              && (key.typ.None? || key.typ.value.ofType.None? <==> r.Err?)
              && (r.Ok? ==> r.value == (JsStr(key.name), TypeText(key.typ.value.ofType.value.name)))
  {
    if |primaryKeys| > 1 then Ok(("nodeId", "ID"))
    else
      var key := primaryKeys[0];
      if key.typ.None? || key.typ.value.ofType.None? then Err(TypeError)
      else Ok((JsStr(key.name), TypeText(key.typ.value.ofType.value.name)))
  }

  /** The fields the constructor derives once the type, query and key are known. */
  function Build(intro: Introspection, resourceName: string, options: ResourceOptions,
                 query: GqlType, hasCompoundKey: bool, keyName: string, idType: string): (r: Resource)
    requires resourceName != ""
    requires Capitalize(resourceName) in intro.types
    ensures r.typeName == Capitalize(resourceName) && r.queryTypeName == Lowercase(resourceName)
    ensures r.resourceName == resourceName && r.typ == intro.types[r.typeName] && r.query == query
    ensures r.types == intro.types && r.queries == intro.queries
    ensures r.inputType.Some? <==> r.typeName + "Input" in intro.types
    ensures r.inputType.Some? ==> r.inputType.value == intro.types[r.typeName + "Input"]
    ensures r.patchType.Some? <==> r.typeName + "Patch" in intro.types
    ensures r.patchType.Some? ==> r.patchType.value == intro.types[r.typeName + "Patch"]
    ensures r.pluralizedName == PluralOf(r.queryTypeName, options)
    ensures r.pluralizedQueryTypeName == Lowercase(r.pluralizedName)
    ensures r.pluralizedTypeName == Capitalize(r.pluralizedQueryTypeName)
    ensures r.hasCompoundKey == hasCompoundKey
    ensures r.getOneResourceName == r.queryTypeName + KeySuffix(hasCompoundKey)
    ensures r.getOneIdType == idType
    ensures r.getOneParams == keyName + ": $id"
    ensures r.getManyFilter == "{ " + keyName + ": { in: $ids }}"
    ensures r.updateResourceName == "update" + r.typeName + KeySuffix(hasCompoundKey)
    ensures r.deleteResourceName == "delete" + r.typeName + KeySuffix(hasCompoundKey)
    ensures r.updateResourceInputName == Capitalize(r.updateResourceName + "Input")
    ensures r.deleteResourceInputName == Capitalize(r.deleteResourceName + "Input")
    ensures r.queryFieldHandlers == options.queryFieldHandlers.GetOr(SimpleHandlers)
    ensures r.querySettings == options.querySettings
    ensures r.valueToQueryVariablesMap.None? && r.typeToFilterMap.None?
  {
    var typeName := Capitalize(resourceName);
    var queryTypeName := Lowercase(resourceName);
    var pluralizedName := PluralOf(queryTypeName, options);
    var pluralizedQueryTypeName := Lowercase(pluralizedName);
    var updateResourceName := "update" + typeName + KeySuffix(hasCompoundKey);
    var deleteResourceName := "delete" + typeName + KeySuffix(hasCompoundKey);
    Resource(
      resourceName, typeName, queryTypeName,
      pluralizedName, pluralizedQueryTypeName, Capitalize(pluralizedQueryTypeName),
      intro.types, intro.queries, intro.types[typeName],
      if typeName + "Input" in intro.types then Some(intro.types[typeName + "Input"]) else None,
      if typeName + "Patch" in intro.types then Some(intro.types[typeName + "Patch"]) else None,
      query, hasCompoundKey,
      queryTypeName + KeySuffix(hasCompoundKey),
      idType,
      keyName + ": $id",
      "{ " + keyName + ": { in: $ids }}",
      updateResourceName, Capitalize(updateResourceName + "Input"),
      deleteResourceName, Capitalize(deleteResourceName + "Input"),
      options.queryFieldHandlers.GetOr(SimpleHandlers),
      options.querySettings,
      None, None)
  }

  /**
    `new BaseResource(introspection, resourceName, options)`. An empty name
    throws in `capitalize`; then the type, the root query and its arguments
    are required in that order; a single key argument must be a wrapped
    type (`args[0].type.ofType`).
   */
  function NewResource(intro: Introspection, resourceName: string, options: ResourceOptions): (r: Result<Resource, JsError>)
    ensures resourceName == "" ==> r == Err(TypeError)
    ensures resourceName != "" && Capitalize(resourceName) !in intro.types ==>
              r == Err(Error(TypeNotFoundMessage(Capitalize(resourceName))))
    ensures resourceName != "" && Capitalize(resourceName) in intro.types && Lowercase(resourceName) !in intro.queries ==>
              r == Err(Error(QueryNotFoundMessage(Lowercase(resourceName), Capitalize(resourceName))))
    ensures resourceName != "" && Capitalize(resourceName) in intro.types && Lowercase(resourceName) in intro.queries ==>
              var args := intro.queries[Lowercase(resourceName)].args;
              (args.None? || |args.value| == 0) ==>
                r == Err(Error(NoArgsMessage(Lowercase(resourceName), Capitalize(resourceName))))
    ensures resourceName != "" && Capitalize(resourceName) in intro.types && Lowercase(resourceName) in intro.queries ==>
              var args := intro.queries[Lowercase(resourceName)].args;
              args.Some? && |args.value| > 0 ==>
                && (r.Ok? <==> PrimaryKey(args.value).Ok?)
                && (r.Err? ==> r == Err(TypeError))
    ensures r.Ok? ==>
              && resourceName != ""
              && Capitalize(resourceName) in intro.types
              && r.value.query == intro.queries[Lowercase(resourceName)]
              && r.value.query.args.Some? && |r.value.query.args.value| > 0
              && PrimaryKey(r.value.query.args.value).Ok?
              && (r.value.hasCompoundKey <==> |r.value.query.args.value| > 1)
              && r.value == Build(intro, resourceName, options, r.value.query, r.value.hasCompoundKey,
                                  PrimaryKey(r.value.query.args.value).value.0, PrimaryKey(r.value.query.args.value).value.1)
  {
    if resourceName == "" then Err(TypeError)
    else
      var typeName := Capitalize(resourceName);
      var queryTypeName := Lowercase(resourceName);
      if typeName !in intro.types then Err(Error(TypeNotFoundMessage(typeName)))
      else if queryTypeName !in intro.queries then Err(Error(QueryNotFoundMessage(queryTypeName, typeName)))
      else
        var query := intro.queries[queryTypeName];
        if query.args.None? || |query.args.value| == 0 then Err(Error(NoArgsMessage(queryTypeName, typeName)))
        else
          var key :- PrimaryKey(query.args.value);
          Ok(Build(intro, resourceName, options, query, |query.args.value| > 1, key.0, key.1))
  }

  /**
    The derived names agree with each other: the type and query forms are
    the same name with the first letter's case switched, and without a
    configured plural both plurals are the singular forms plus `s`.
   */
  lemma NamesAgree(intro: Introspection, resourceName: string, options: ResourceOptions)
    requires NewResource(intro, resourceName, options).Ok?
    ensures var r := NewResource(intro, resourceName, options).value;
            && |r.typeName| > 0 && |r.queryTypeName| > 0
            && Capitalize(r.queryTypeName) == r.typeName
            && Lowercase(r.typeName) == r.queryTypeName
            && |r.pluralizedTypeName| > 0
            && Lowercase(r.pluralizedTypeName) == r.pluralizedQueryTypeName
            && (!HasText(options.pluralizedName) ==>
                  r.pluralizedQueryTypeName == r.queryTypeName + "s" && r.pluralizedTypeName == r.typeName + "s")
  {
    var r := NewResource(intro, resourceName, options).value;
    CaseChangesIdempotent(resourceName);
    CaseChangesIdempotent(r.pluralizedName);
    CaseChangesIdempotent(r.pluralizedQueryTypeName);
    if !HasText(options.pluralizedName) {
      var q := r.queryTypeName;
      assert Lowercase(q + "s") == [ToLowerChar(q[0])] + (q + "s")[1..];
      assert (q + "s")[1..] == q[1..] + "s";
      assert Lowercase(q + "s") == q + "s";
      var t := r.typeName;
      assert Capitalize(q + "s") == [ToUpperChar(q[0])] + q[1..] + "s";
      assert t == [ToUpperChar(resourceName[0])] + resourceName[1..];
      assert q == [ToLowerChar(resourceName[0])] + resourceName[1..];
    }
  }

  /**
    The mutation input types are `Update<Type>Input` / `Delete<Type>Input`,
    with `ByNodeId` before `Input` for a compound key.
   */
  lemma MutationInputNames(intro: Introspection, resourceName: string, options: ResourceOptions)
    requires NewResource(intro, resourceName, options).Ok?
    ensures var r := NewResource(intro, resourceName, options).value;
            && r.updateResourceInputName == "Update" + r.typeName + KeySuffix(r.hasCompoundKey) + "Input"
            && r.deleteResourceInputName == "Delete" + r.typeName + KeySuffix(r.hasCompoundKey) + "Input"
  {
    InputNamesOfResource(NewResource(intro, resourceName, options).value);
  }

  /** The input names derived from the mutation names. */
  lemma InputNamesOfResource(r: Resource)
    requires r.updateResourceName == "update" + r.typeName + KeySuffix(r.hasCompoundKey)
    requires r.deleteResourceName == "delete" + r.typeName + KeySuffix(r.hasCompoundKey)
    requires r.updateResourceInputName == Capitalize(r.updateResourceName + "Input")
    requires r.deleteResourceInputName == Capitalize(r.deleteResourceName + "Input")
    ensures r.updateResourceInputName == "Update" + r.typeName + KeySuffix(r.hasCompoundKey) + "Input"
    ensures r.deleteResourceInputName == "Delete" + r.typeName + KeySuffix(r.hasCompoundKey) + "Input"
  {
    CapitalizeWord("update", r.typeName, KeySuffix(r.hasCompoundKey), "Input");
    CapitalizeWord("delete", r.typeName, KeySuffix(r.hasCompoundKey), "Input");
    assert Capitalize("update") == "Update" && Capitalize("delete") == "Delete";
  }

  /** Capitalising a string of four parts only touches the first one. */
  lemma CapitalizeWord(w: string, a: string, b: string, c: string)
    requires |w| > 0
    ensures Capitalize(w + a + b + c) == Capitalize(w) + a + b + c
  {
    assert w + a + b + c == w + (a + b + c);
    CapitalizeAppend(w, a + b + c);
    assert Capitalize(w) + (a + b + c) == Capitalize(w) + a + b + c;
  }

  /** Capitalising a longer string only touches its first word's first letter. */
  lemma CapitalizeAppend(w: string, x: string)
    requires |w| > 0
    ensures Capitalize(w + x) == Capitalize(w) + x
  {
    assert (w + x)[1..] == w[1..] + x;
  }

  // ---------------------------------------------------------------------
  // Records in and out of react-admin
  // ---------------------------------------------------------------------

  /**
    `prepareForReactAdmin`: for a compound key the record's `id` is kept as
    `__rawId` and its `nodeId` becomes the `id` react-admin sees; simple
    keys pass records through. Reading `id` off null or undefined throws; a
    number or boolean spreads no keys; what spreading a string or an array
    gives is left uncomputed.
   */
  function PrepareForReactAdmin(hasCompoundKey: bool, data: Value): (r: Result<Value, JsError>)
    ensures !hasCompoundKey ==> r == Ok(data)
    ensures hasCompoundKey && (data.Undefined? || data.Null?) ==> r == Err(TypeError)
    ensures hasCompoundKey && data.Obj? ==>
              && r.Ok? && r.value.Obj?
              && forall k :: Lookup(r.value.entries, k) ==
                   if k == "id" then Some(Prop(data.entries, "nodeId"))
                   else if k == "__rawId" then Some(Prop(data.entries, "id"))
                   else Lookup(data.entries, k)
  {
    if !hasCompoundKey then Ok(data)
    else
      match data
      case Undefined => Err(TypeError)
      case Null => Err(TypeError)
      case Obj(es) =>
        var withRaw := Put(es, "__rawId", Prop(es, "id"));
        var r := Put(withRaw, "id", Prop(es, "nodeId"));
        assert forall k :: Lookup(r, k) == if k == "id" then Some(Prop(es, "nodeId"))
                                          else if k == "__rawId" then Some(Prop(es, "id"))
                                          else Lookup(es, k) by {
          forall k ensures Lookup(r, k) == if k == "id" then Some(Prop(es, "nodeId"))
                                           else if k == "__rawId" then Some(Prop(es, "id"))
                                           else Lookup(es, k) {
            LookupPut(withRaw, "id", Prop(es, "nodeId"), k);
            LookupPut(es, "__rawId", Prop(es, "id"), k);
          }
        }
        Ok(Obj(r))
      case Bool(_) => Ok(Obj([("__rawId", Undefined), ("id", Undefined)]))
      case Num(_) => Ok(Obj([("__rawId", Undefined), ("id", Undefined)]))
      case _ => Ok(Foreign("prepareForReactAdmin", data))
  }

  /**
    `prepareDataForUpdate`: for a compound key `nodeId` takes the `id`
    react-admin sent and `id` takes `__rawId` back; simple keys pass through.
   */
  function PrepareDataForUpdate(hasCompoundKey: bool, data: Value): (r: Result<Value, JsError>)
    ensures !hasCompoundKey ==> r == Ok(data)
    ensures hasCompoundKey && (data.Undefined? || data.Null?) ==> r == Err(TypeError)
    ensures hasCompoundKey && data.Obj? ==>
              && r.Ok? && r.value.Obj?
              && forall k :: Lookup(r.value.entries, k) ==
                   if k == "nodeId" then Some(Prop(data.entries, "id"))
                   else if k == "id" then Some(Prop(data.entries, "__rawId"))
                   else Lookup(data.entries, k)
  {
    if !hasCompoundKey then Ok(data)
    else
      match data
      case Undefined => Err(TypeError)
      case Null => Err(TypeError)
      case Obj(es) =>
        var withNode := Put(es, "nodeId", Prop(es, "id"));
        var r := Put(withNode, "id", Prop(es, "__rawId"));
        assert forall k :: Lookup(r, k) == if k == "nodeId" then Some(Prop(es, "id"))
                                          else if k == "id" then Some(Prop(es, "__rawId"))
                                          else Lookup(es, k) by {
          forall k ensures Lookup(r, k) == if k == "nodeId" then Some(Prop(es, "id"))
                                           else if k == "id" then Some(Prop(es, "__rawId"))
                                           else Lookup(es, k) {
            LookupPut(withNode, "id", Prop(es, "__rawId"), k);
            LookupPut(es, "nodeId", Prop(es, "id"), k);
          }
        }
        Ok(Obj(r))
      case Bool(_) => Ok(Obj([("nodeId", Undefined), ("id", Undefined)]))
      case Num(_) => Ok(Obj([("nodeId", Undefined), ("id", Undefined)]))
      case _ => Ok(Foreign("prepareDataForUpdate", data))
  }

  /** The record react-admin sees for a compound key, as entries. */
  function Shown(es: Entries): Entries {
    Put(Put(es, "__rawId", Prop(es, "id")), "id", Prop(es, "nodeId"))
  }

  /** The record sent for update after `Shown`, as entries. */
  function Back(es: Entries): Entries {
    var shown := Shown(es);
    Put(Put(shown, "nodeId", Prop(shown, "id")), "id", Prop(shown, "__rawId"))
  }

  lemma ProcessorsAsEntries(es: Entries)
    ensures PrepareForReactAdmin(true, Obj(es)) == Ok(Obj(Shown(es)))
    ensures PrepareDataForUpdate(true, Obj(Shown(es))) == Ok(Obj(Back(es)))
  {
    ShownIsPrepared(es);
    BackIsPrepared(Shown(es));
  }

  lemma ShownIsPrepared(es: Entries)
    ensures PrepareForReactAdmin(true, Obj(es)) == Ok(Obj(Shown(es)))
  {
  }

  lemma BackIsPrepared(shown: Entries)
    ensures PrepareDataForUpdate(true, Obj(shown)) ==
              Ok(Obj(Put(Put(shown, "nodeId", Prop(shown, "id")), "id", Prop(shown, "__rawId"))))
  {
  }

  lemma RoundTripKeys(es: Entries)
    requires "id" in Keys(es) && "nodeId" in Keys(es) && "__rawId" !in Keys(es)
    ensures Keys(Back(es)) == Keys(es) + ["__rawId"]
  {
    LookupInKeys(es, "id");
    LookupInKeys(es, "nodeId");
    LookupInKeys(es, "__rawId");
    var a := Put(es, "__rawId", Prop(es, "id"));
    assert Keys(a) == Keys(es) + ["__rawId"];
    LookupPut(es, "__rawId", Prop(es, "id"), "id");
    LookupPut(es, "__rawId", Prop(es, "id"), "nodeId");
    var shown := Put(a, "id", Prop(es, "nodeId"));
    assert Keys(shown) == Keys(a);
    LookupPut(a, "id", Prop(es, "nodeId"), "nodeId");
    var b := Put(shown, "nodeId", Prop(shown, "id"));
    assert Keys(b) == Keys(shown);
    LookupPut(shown, "nodeId", Prop(shown, "id"), "id");
    assert Keys(Put(b, "id", Prop(shown, "__rawId"))) == Keys(b);
  }

  lemma RoundTripLookup(es: Entries, k: string)
    requires "id" in Keys(es) && "nodeId" in Keys(es) && "__rawId" !in Keys(es)
    ensures Lookup(Back(es), k) == Lookup(es + [("__rawId", Prop(es, "id"))], k)
  {
    LookupInKeys(es, "id");
    LookupInKeys(es, "nodeId");
    var shown := Shown(es);
    LookupPut(Put(shown, "nodeId", Prop(shown, "id")), "id", Prop(shown, "__rawId"), k);
    LookupPut(shown, "nodeId", Prop(shown, "id"), k);
    LookupPut(Put(es, "__rawId", Prop(es, "id")), "id", Prop(es, "nodeId"), k);
    LookupPut(es, "__rawId", Prop(es, "id"), k);
    LookupAppend(es, "__rawId", Prop(es, "id"), k);
    LookupPut(Put(es, "__rawId", Prop(es, "id")), "id", Prop(es, "nodeId"), "id");
    LookupPut(Put(es, "__rawId", Prop(es, "id")), "id", Prop(es, "nodeId"), "__rawId");
    LookupPut(es, "__rawId", Prop(es, "id"), "__rawId");
  }

  /**
    A compound-key record that react-admin sends back unchanged for update
    regains its own `id` and `nodeId`; the only trace left is the extra
    `__rawId` key at the end.
   */
  lemma RecordRoundTrip(es: Entries)
    requires DistinctKeys(es)
    requires "id" in Keys(es) && "nodeId" in Keys(es) && "__rawId" !in Keys(es)
    ensures PrepareForReactAdmin(true, Obj(es)).Ok?
    ensures PrepareDataForUpdate(true, PrepareForReactAdmin(true, Obj(es)).value) ==
              Ok(Obj(es + [("__rawId", Prop(es, "id"))]))
  {
    ProcessorsAsEntries(es);
    var expected := es + [("__rawId", Prop(es, "id"))];
    RoundTripKeys(es);
    AppendKeepsDistinct(es, "__rawId", Prop(es, "id"));
    KeysAppend(es, "__rawId", Prop(es, "id"));
    forall k ensures Lookup(expected, k) == Lookup(Back(es), k) {
      RoundTripLookup(es, k);
    }
    EntriesEqual(expected, Back(es));
  }

  // ---------------------------------------------------------------------
  // Id conversion and list variables
  // ---------------------------------------------------------------------

  /** `gqlTypeConverter(idType)`: `Number` for `Int` ids, the identity for any other id type. */
  function ConvertId(idType: string, v: Value): (r: Value)
    ensures idType == "Int" ==> r == ToNumber(v)
    ensures idType != "Int" ==> r == v
  {
    if idType == "Int" then ToNumber(v) else v
  }

  /** An id that survives being sent as text and converted back. */
  predicate TextSafe(idType: string, v: Value) {
    v.Str? || (v.Num? && idType == "Int")
  }

  /** Converting an id's text gives the id's own conversion, for text-safe ids. */
  lemma ConvertIdOfText(idType: string, v: Value)
    requires TextSafe(idType, v)
    ensures ConvertId(idType, Str(Stringify(v))) == ConvertId(idType, v)
  {
    if v.Num? {
      NumberOfStringOfInt(v.n);
    }
  }

  /** react-admin's `sort` parameter. */
  datatype Sort = Sort(field: Option<string>, order: Option<string>)

  /** react-admin's `pagination` parameter. */
  datatype Pagination = Pagination(page: int, perPage: int)

  /** `NATURAL_SORTING`. */
  const NaturalSorting: string := "NATURAL"

  /** `orderBy`: one sorting key for a sort, `NATURAL` without one; sorting on an undefined field throws in `snake`. */
  function OrderBy(sort: Option<Sort>): (r: Result<seq<string>, JsError>)
    ensures sort.None? <==> r == Ok([NaturalSorting])
    ensures sort.Some? && sort.value.field.None? ==> r == Err(TypeError)
    ensures sort.Some? && sort.value.field.Some? ==>
              r == Ok([CreateSortingKey(sort.value.field.value, JsStr(sort.value.order))])
  {
    match sort
    case None => Ok([NaturalSorting])
    case Some(Sort(field, order)) =>
      match field
      case None => Err(TypeError)
      case Some(f) =>
        var key := CreateSortingKey(f, JsStr(order));
        assert key != NaturalSorting by {
          assert key[|key| - |JsStr(order)| - 1] == '_';
          assert '_' !in NaturalSorting;
        }
        Ok([key])
  }

  /** The `{filters, filterOrderBy}` object `createFilter` returns. */
  function FilterResultValue(fr: FilterResult): Value {
    Obj([("filters", fr.filters.GetOr(Undefined)),
         ("filterOrderBy", Arr(seq(|fr.filterOrderBy|, i requires 0 <= i < |fr.filterOrderBy| => Str(fr.filterOrderBy[i]))))])
  }

  /** The number of rows before the requested page. */
  function Offset(p: Pagination): int {
    (p.page - 1) * p.perPage
  }

  /** The `orderBy` variable: the sort keys as an array of strings. */
  function SortKeysValue(keys: seq<string>): (r: Value)
    ensures r.Arr? && |r.items| == |keys|
    ensures forall i :: 0 <= i < |keys| ==> r.items[i] == Str(keys[i])
  {
    Arr(seq(|keys|, i requires 0 <= i < |keys| => Str(keys[i])))
  }

  /** Reading the four keys of a list-variables object. */
  lemma ListPropsHelper(es: Entries)
    requires |es| == 4 && es[0].0 == "offset" && es[1].0 == "first" && es[2].0 == "filter" && es[3].0 == "orderBy"
    ensures Keys(es) == ["offset", "first", "filter", "orderBy"]
    ensures Prop(es, "offset") == es[0].1 && Prop(es, "first") == es[1].1
    ensures Prop(es, "filter") == es[2].1 && Prop(es, "orderBy") == es[3].1
  {
    ListKeysDistinct();
    assert DistinctKeys(es);
    LookupAt(es, 0);
    LookupAt(es, 1);
    LookupAt(es, 2);
    LookupAt(es, 3);
    assert Keys(es) == [es[0].0, es[1].0, es[2].0, es[3].0];
  }

  lemma ListKeysDistinct()
    ensures "offset" != "first" && "offset" != "filter" && "offset" != "orderBy"
    ensures "first" != "filter" && "first" != "orderBy" && "filter" != "orderBy"
  {
  }

  /**
    `createGetListVariables`: the window `offset`/`first`, the whole
    `createFilter` result under `filter`, and `orderBy`. The sort is
    evaluated first, then the filter, then the pagination.
   */
  function ListVariables(r: Resource, filter: Option<Entries>, sort: Option<Sort>, pagination: Option<Pagination>): (res: Result<Value, JsError>)
    ensures OrderBy(sort).Err? ==> res == Err(OrderBy(sort).error)
    ensures OrderBy(sort).Ok? && CreateFilter(filter, r.typ, r.typeToFilterMap).Err? ==>
              res == Err(CreateFilter(filter, r.typ, r.typeToFilterMap).error)
    ensures OrderBy(sort).Ok? && CreateFilter(filter, r.typ, r.typeToFilterMap).Ok? && pagination.None? ==>
              res == Err(TypeError)
    ensures res.Ok? <==> OrderBy(sort).Ok? && CreateFilter(filter, r.typ, r.typeToFilterMap).Ok? && pagination.Some?
    ensures res.Ok? ==>
              && res.value.Obj?
              && Keys(res.value.entries) == ["offset", "first", "filter", "orderBy"]
              && Prop(res.value.entries, "offset") == Num(Offset(pagination.value))
              && Prop(res.value.entries, "first") == Num(pagination.value.perPage)
              && Prop(res.value.entries, "filter") == FilterResultValue(CreateFilter(filter, r.typ, r.typeToFilterMap).value)
    ensures res.Ok? ==>
              var keys := OrderBy(sort).value;
              && Prop(res.value.entries, "orderBy").Arr?
              && |Prop(res.value.entries, "orderBy").items| == |keys|
              && forall i :: 0 <= i < |keys| ==> Prop(res.value.entries, "orderBy").items[i] == Str(keys[i])
  {
    var orderBy :- OrderBy(sort);
    var filters :- CreateFilter(filter, r.typ, r.typeToFilterMap);
    match pagination
    case None => Err(TypeError)
    case Some(p) =>
      var es := [("offset", Num(Offset(p))),
                 ("first", Num(p.perPage)),
                 ("filter", FilterResultValue(filters)),
                 ("orderBy", SortKeysValue(orderBy))];
      ListPropsHelper(es);
      Ok(Obj(es))
  }

  /**
    Consecutive pages tile the list: page 1 starts at offset 0 and each page
    starts where the previous one's `first` rows end.
   */
  lemma PagesTile(r: Resource, filter: Option<Entries>, sort: Option<Sort>, page: int, perPage: int)
    requires ListVariables(r, filter, sort, Some(Pagination(page, perPage))).Ok?
    ensures var here := ListVariables(r, filter, sort, Some(Pagination(page, perPage))).value.entries;
            var next := ListVariables(r, filter, sort, Some(Pagination(page + 1, perPage))).value.entries;
            && ListVariables(r, filter, sort, Some(Pagination(page + 1, perPage))).Ok?
            && Prop(here, "offset").Num? && Prop(next, "offset").Num? && Prop(here, "first").Num?
            && Prop(next, "offset").n == Prop(here, "offset").n + Prop(here, "first").n
            && (page == 1 ==> Prop(here, "offset") == Num(0))
  {
    NextOffset(page, perPage);
  }

  lemma NextOffset(page: int, perPage: int)
    ensures Offset(Pagination(page + 1, perPage)) == Offset(Pagination(page, perPage)) + perPage
    ensures page == 1 ==> Offset(Pagination(page, perPage)) == 0
  {
  }

  /** A requested sort never falls back to the natural order. */
  lemma SortedIsNotNatural(sort: Option<Sort>)
    requires sort.Some? && OrderBy(sort).Ok?
    ensures OrderBy(sort).value != [NaturalSorting]
  {
  }

  /** The filter of GET_MANY_REFERENCE: the caller's filter with `target` set to `id`. */
  function ReferenceFilter(filter: Option<Entries>, target: Option<string>, id: Value): (r: Entries)
    ensures Lookup(r, JsStr(target)) == Some(id)
    ensures forall k :: k != JsStr(target) ==> Lookup(r, k) == Lookup(filter.GetOr([]), k)
  {
    var es := filter.GetOr([]);
    var r := Put(es, JsStr(target), id);
    assert forall k :: k != JsStr(target) ==> Lookup(r, k) == Lookup(es, k) by {
      forall k | k != JsStr(target) ensures Lookup(r, k) == Lookup(es, k) {
        LookupPut(es, JsStr(target), id, k);
      }
    }
    r
  }

  /** The target of GET_MANY_REFERENCE, when it names a field of the type, is a key of the merged filter. */
  lemma ReferenceTargetFiltered(r: Resource, filter: Option<Entries>, target: string, id: Value)
    requires IsRecognised(r.typ, target) && FieldName(target) == target
    requires CreateFilter(Some(ReferenceFilter(filter, Some(target), id)), r.typ, r.typeToFilterMap).Ok?
    ensures var fr := CreateFilter(Some(ReferenceFilter(filter, Some(target), id)), r.typ, r.typeToFilterMap).value;
            && fr.filters.Some?
            && target in Keys(fr.filters.value.entries[0].1.items[0].entries)
  {
    var es := ReferenceFilter(filter, Some(target), id);
    var kfs := KeyFilters(es, r.typ, r.typeToFilterMap).value;
    var i :| 0 <= i < |es| && es[i] == (target, id);
    assert es[i] in es;
    RecognisedFieldsMember(es, r.typ, target);
    KeyFiltersFields(es, r.typ, r.typeToFilterMap);
    MergedKeys(kfs);
    assert target in Fields(kfs);
    var fr := CreateFilter(Some(es), r.typ, r.typeToFilterMap).value;
    assert fr.filters.Some?;
    CreateFilterKeys(es, r.typ, r.typeToFilterMap);
  }

  // ---------------------------------------------------------------------
  // recordToVariables
  // ---------------------------------------------------------------------

  /** The first field called `name` (names compared as optional strings, like `===`). */
  function FieldCalled(fields: seq<GqlType>, name: Option<string>): (r: Option<GqlType>)
    ensures r.Some? ==> r.value in fields && r.value.name == name
    ensures r.None? ==> forall i :: 0 <= i < |fields| ==> fields[i].name != name
  {
    if |fields| == 0 then None
    else if fields[0].name == name then Some(fields[0])
    else FieldCalled(fields[1..], name)
  }

  /** `get(f, 'type.ofType.name') || get(f, 'type.name')`, when it is a non-empty string. */
  function MapperTypeName(f: GqlType): (r: Option<string>)
    ensures r.Some? ==> r.value != "" && f.typ.Some?
    ensures f.typ.Some? && f.typ.value.ofType.Some? && HasText(f.typ.value.ofType.value.name) ==>
              r == f.typ.value.ofType.value.name
    ensures !(f.typ.Some? && f.typ.value.ofType.Some? && HasText(f.typ.value.ofType.value.name)) ==>
              r == if f.typ.Some? && HasText(f.typ.value.name) then f.typ.value.name else None
  {
    var inner := if f.typ.Some? && f.typ.value.ofType.Some? then f.typ.value.ofType.value.name else None;
    if HasText(inner) then inner
    else if f.typ.Some? && HasText(f.typ.value.name) then f.typ.value.name
    else None
  }

  /**
    The value stored for input field `name`: copied, unless a value mapper
    is configured for the type of the resource field of that name; a mapper
    runs on each element of a `LIST` field (a falsy list is kept as it is,
    a truthy non-array throws) and on the whole value otherwise.
   */
  function MapInputValue(r: Resource, name: Option<string>, value: Value): (res: Result<Value, JsError>)
    ensures r.valueToQueryVariablesMap.None? ==> res == Ok(value)
    ensures r.valueToQueryVariablesMap.Some? && r.typ.fields.None? ==> res == Err(TypeError)
    ensures r.valueToQueryVariablesMap.Some? && r.typ.fields.Some? ==>
              var f := FieldCalled(r.typ.fields.value, name);
              var mappers := r.valueToQueryVariablesMap.value;
              && (f.None? || MapperTypeName(f.value).None? || MapperTypeName(f.value).value !in mappers ==> res == Ok(value))
              && (f.Some? && MapperTypeName(f.value).Some? && MapperTypeName(f.value).value in mappers ==>
                    var fn := mappers[MapperTypeName(f.value).value];
                    && (f.value.typ.value.kind != Some("LIST") ==> res == Ok(Foreign(fn, value)))
                    && (f.value.typ.value.kind == Some("LIST") && value.Arr? ==>
                          res.Ok? && res.value.Arr? && |res.value.items| == |value.items|
                          && forall i :: 0 <= i < |value.items| ==> res.value.items[i] == Foreign(fn, value.items[i])))
  {
    match r.valueToQueryVariablesMap
    case None => Ok(value)
    case Some(mappers) =>
      match r.typ.fields
      case None => Err(TypeError)
      case Some(fields) =>
        match FieldCalled(fields, name)
        case None => Ok(value)
        case Some(f) =>
          match MapperTypeName(f)
          case None => Ok(value)
          case Some(typeName) =>
            if typeName !in mappers then Ok(value)
            else
              var fn := mappers[typeName];
              if f.typ.value.kind != Some("LIST") then Ok(Foreign(fn, value))
              else if !Truthy(value) then Ok(value)
              else
                match value
                case Arr(items) => Ok(Arr(MapItems(fn, items)))
                case Foreign(_, _) => Ok(Foreign("map", value))
                case _ => Err(TypeError)
  }

  /** `items.map(fn)`. */
  function MapItems(fn: string, items: seq<Value>): (r: seq<Value>)
    ensures |r| == |items|
    ensures forall i :: 0 <= i < |items| ==> r[i] == Foreign(fn, items[i])
  {
    if |items| == 0 then [] else [Foreign(fn, items[0])] + MapItems(fn, items[1..])
  }

  /** The names of the input fields, as the property keys they read. */
  function InputNames(fields: seq<GqlType>): (r: seq<string>)
    ensures |r| == |fields|
    ensures forall i :: 0 <= i < |fields| ==> r[i] == JsStr(fields[i].name)
  {
    seq(|fields|, i requires 0 <= i < |fields| => JsStr(fields[i].name))
  }

  /** The names of a longer field list extend those of its prefix. */
  lemma InputNamesSnoc(fields: seq<GqlType>)
    requires |fields| > 0
    ensures InputNames(fields) == InputNames(fields[..|fields| - 1]) + [JsStr(fields[|fields| - 1].name)]
  {
    var prefix := fields[..|fields| - 1];
    var a, b := InputNames(fields), InputNames(prefix) + [JsStr(fields[|fields| - 1].name)];
    forall i | 0 <= i < |a| ensures a[i] == b[i] {
      if i < |prefix| {
        assert prefix[i] == fields[i];
      }
    }
  }

  /** The reduction over the input fields, in their declared order. */
  function InputEntries(r: Resource, input: Value, fields: seq<GqlType>): (res: Result<Entries, JsError>)
    ensures (input.Undefined? || input.Null?) && |fields| > 0 ==> res.Err?
    ensures res.Ok? ==> DistinctKeys(res.value)
    ensures res.Ok? ==> forall k :: k in Keys(res.value) ==> k in InputNames(fields)
    decreases |fields|
  {
    if |fields| == 0 then Ok([])
    else
      var current :- InputEntries(r, input, fields[..|fields| - 1]);
      var next := fields[|fields| - 1];
      var name := JsStr(next.name);
      var value :- GetProp(input, name);
      InputNamesSnoc(fields);
      if value.Undefined? then
        Ok(current)
      else
        var mapped :- MapInputValue(r, next.name, value);
        var out := Put(current, name, mapped);
        PutKeepsDistinct(current, name, mapped);
        assert forall k :: k in Keys(out) ==> k in InputNames(fields) by {
          forall k | k in Keys(out) ensures k in InputNames(fields) {
            if k != name {
              LookupInKeys(out, k);
              LookupInKeys(current, k);
              LookupPut(current, name, mapped, k);
            }
          }
        }
        Ok(out)
  }

  /**
    `recordToVariables(input, inputType)`: null when the type has no
    `inputFields`, otherwise an object built from the input fields; a
    missing type throws when it is destructured.
   */
  function RecordToVariables(r: Resource, input: Value, inputType: Option<GqlType>): (res: Result<Value, JsError>)
    ensures inputType.None? ==> res == Err(TypeError)
    ensures inputType.Some? && inputType.value.inputFields.None? ==> res == Ok(Null)
    ensures inputType.Some? && inputType.value.inputFields.Some? ==>
              var es := InputEntries(r, input, inputType.value.inputFields.value);
              && (res.Ok? <==> es.Ok?)
              && (res.Ok? ==> res.value == Obj(es.value))
  {
    match inputType
    case None => Err(TypeError)
    case Some(t) =>
      match t.inputFields
      case None => Ok(Null)
      case Some(fields) =>
        var es :- InputEntries(r, input, fields);
        Ok(Obj(es))
  }

  /** The value an input object holds for an input field, as the reduction reads it. */
  function FieldInput(es: Entries, f: GqlType): Value {
    Prop(es, JsStr(f.name))
  }

  /** The names of the input fields the input defines, in declared order: the reference for the keys sent. */
  function DefinedNames(es: Entries, fields: seq<GqlType>): seq<string>
    decreases |fields|
  {
    if |fields| == 0 then []
    else
      var prior := DefinedNames(es, fields[..|fields| - 1]);
      var f := fields[|fields| - 1];
      if FieldInput(es, f).Undefined? then prior else prior + [JsStr(f.name)]
  }

  /** The reduction fails exactly when the mapping of some defined input value fails. */
  lemma {:induction false} InputEntriesOk(r: Resource, es: Entries, fields: seq<GqlType>)
    ensures InputEntries(r, Obj(es), fields).Ok? <==>
              forall i :: 0 <= i < |fields| && !FieldInput(es, fields[i]).Undefined? ==>
                MapInputValue(r, fields[i].name, FieldInput(es, fields[i])).Ok?
    decreases |fields|
  {
    if |fields| > 0 {
      var prefix := fields[..|fields| - 1];
      InputEntriesOk(r, es, prefix);
      assert forall i :: 0 <= i < |prefix| ==> prefix[i] == fields[i];
    }
  }

  /** One step of the reduction over the input fields. */
  lemma InputEntriesStep(r: Resource, es: Entries, fields: seq<GqlType>)
    requires |fields| > 0
    ensures var prior := InputEntries(r, Obj(es), fields[..|fields| - 1]);
            var last := fields[|fields| - 1];
            var value := FieldInput(es, last);
            InputEntries(r, Obj(es), fields) ==
              if prior.Err? then prior
              else if value.Undefined? then prior
              else if MapInputValue(r, last.name, value).Err? then Err(MapInputValue(r, last.name, value).error)
              else Ok(Put(prior.value, JsStr(last.name), MapInputValue(r, last.name, value).value))
  {
  }

  /** What the reduction sends without value mappers: the defined values of the named fields. */
  ghost predicate CopiesInput(out: Entries, es: Entries, fields: seq<GqlType>) {
    forall k :: Lookup(out, k) == if k in InputNames(fields) && !Prop(es, k).Undefined? then Some(Prop(es, k)) else None
  }

  /** One step of `InputEntriesCopy`: the last field keeps the copy exact. */
  lemma InputEntriesCopyStep(r: Resource, es: Entries, fields: seq<GqlType>)
    requires r.valueToQueryVariablesMap.None? && |fields| > 0
    requires InputEntries(r, Obj(es), fields[..|fields| - 1]).Ok?
    requires CopiesInput(InputEntries(r, Obj(es), fields[..|fields| - 1]).value, es, fields[..|fields| - 1])
    ensures InputEntries(r, Obj(es), fields).Ok?
    ensures CopiesInput(InputEntries(r, Obj(es), fields).value, es, fields)
  {
    var prefix := fields[..|fields| - 1];
    InputEntriesStep(r, es, fields);
    var current := InputEntries(r, Obj(es), prefix).value;
    var name := JsStr(fields[|fields| - 1].name);
    InputNamesSnoc(fields);
    var out := InputEntries(r, Obj(es), fields).value;
    if Prop(es, name).Undefined? {
      assert out == current;
    } else {
      assert out == Put(current, name, Prop(es, name));
      forall k ensures Lookup(out, k) == if k in InputNames(fields) && !Prop(es, k).Undefined? then Some(Prop(es, k)) else None {
        LookupPut(current, name, Prop(es, name), k);
      }
    }
  }

  /**
    Without value mappers the variables are the input restricted to the
    declared input fields: a field's value is copied when it is defined
    and nothing else is sent.
   */
  lemma {:induction false} InputEntriesCopy(r: Resource, es: Entries, fields: seq<GqlType>)
    requires r.valueToQueryVariablesMap.None?
    ensures InputEntries(r, Obj(es), fields).Ok?
    ensures forall k :: Lookup(InputEntries(r, Obj(es), fields).value, k) ==
              if k in InputNames(fields) && !Prop(es, k).Undefined? then Some(Prop(es, k)) else None
    decreases |fields|
  {
    if |fields| > 0 {
      InputEntriesCopy(r, es, fields[..|fields| - 1]);
      InputEntriesCopyStep(r, es, fields);
    }
  }

  /** What the reduction sends with distinct names: the defined names in order, each with its mapped value. */
  ghost predicate SendsMapped(r: Resource, out: Entries, es: Entries, fields: seq<GqlType>) {
    && Keys(out) == DefinedNames(es, fields)
    && forall i :: 0 <= i < |fields| && !FieldInput(es, fields[i]).Undefined? ==>
         && MapInputValue(r, fields[i].name, FieldInput(es, fields[i])).Ok?
         && Lookup(out, JsStr(fields[i].name)) == Some(MapInputValue(r, fields[i].name, FieldInput(es, fields[i])).value)
  }

  /** Names distinct in a list are distinct in its prefix. */
  lemma DistinctPrefix(fields: seq<GqlType>)
    requires |fields| > 0 && Distinct(InputNames(fields))
    ensures Distinct(InputNames(fields[..|fields| - 1]))
  {
    var names, shorter := InputNames(fields), InputNames(fields[..|fields| - 1]);
    InputNamesSnoc(fields);
    forall i, j | 0 <= i < j < |shorter| ensures shorter[i] != shorter[j] {
      assert shorter[i] == names[i] && shorter[j] == names[j];
    }
  }

  /** One step of `InputEntriesOrder`: the last field is appended with its mapped value. */
  lemma InputEntriesOrderStep(r: Resource, es: Entries, fields: seq<GqlType>)
    requires |fields| > 0 && Distinct(InputNames(fields))
    requires InputEntries(r, Obj(es), fields).Ok?
    requires InputEntries(r, Obj(es), fields[..|fields| - 1]).Ok?
    requires SendsMapped(r, InputEntries(r, Obj(es), fields[..|fields| - 1]).value, es, fields[..|fields| - 1])
    ensures SendsMapped(r, InputEntries(r, Obj(es), fields).value, es, fields)
  {
    InputEntriesOk(r, es, fields);
    InputEntriesStep(r, es, fields);
    InputNamesSnoc(fields);
    var prefix := fields[..|fields| - 1];
    var last := fields[|fields| - 1];
    var name := JsStr(last.name);
    var names := InputNames(fields);
    var current := InputEntries(r, Obj(es), prefix).value;
    var out := InputEntries(r, Obj(es), fields).value;
    assert name !in Keys(current);
    LookupInKeys(current, name);
    if !FieldInput(es, last).Undefined? {
      var mapped := MapInputValue(r, last.name, FieldInput(es, last)).value;
      assert out == Put(current, name, mapped);
      forall i | 0 <= i < |fields| && !FieldInput(es, fields[i]).Undefined?
        ensures Lookup(out, JsStr(fields[i].name)) == Some(MapInputValue(r, fields[i].name, FieldInput(es, fields[i])).value)
      {
        LookupPut(current, name, mapped, JsStr(fields[i].name));
        if i < |fields| - 1 {
          assert prefix[i] == fields[i];
          assert names[i] != names[|fields| - 1];
        }
      }
    } else {
      assert out == current;
      forall i | 0 <= i < |fields| - 1 && !FieldInput(es, fields[i]).Undefined?
        ensures Lookup(out, JsStr(fields[i].name)) == Some(MapInputValue(r, fields[i].name, FieldInput(es, fields[i])).value)
      {
        assert prefix[i] == fields[i];
      }
    }
  }

  /**
    With distinct input field names the keys sent are the defined names in
    declared order, and each holds its field's mapped value.
   */
  lemma {:induction false} InputEntriesOrder(r: Resource, es: Entries, fields: seq<GqlType>)
    requires Distinct(InputNames(fields))
    requires InputEntries(r, Obj(es), fields).Ok?
    ensures Keys(InputEntries(r, Obj(es), fields).value) == DefinedNames(es, fields)
    ensures forall i :: 0 <= i < |fields| && !FieldInput(es, fields[i]).Undefined? ==>
              && MapInputValue(r, fields[i].name, FieldInput(es, fields[i])).Ok?
              && Lookup(InputEntries(r, Obj(es), fields).value, JsStr(fields[i].name)) ==
                   Some(MapInputValue(r, fields[i].name, FieldInput(es, fields[i])).value)
    decreases |fields|
  {
    if |fields| > 0 {
      DistinctPrefix(fields);
      InputEntriesStep(r, es, fields);
      InputEntriesOrder(r, es, fields[..|fields| - 1]);
      InputEntriesOrderStep(r, es, fields);
    }
  }

  // ---------------------------------------------------------------------
  // The variables of the single-record verbs
  // ---------------------------------------------------------------------

  /** The number of truthy values. */
  function CountTruthy(vs: seq<Value>): (n: nat)
    ensures n <= |vs|
  {
    if |vs| == 0 then 0 else CountTruthy(vs[..|vs| - 1]) + (if Truthy(vs[|vs| - 1]) then 1 else 0)
  }

  /** `ids.filter(v => Boolean(v)).map(idConverter)`. */
  function TruthyIds(idType: string, ids: seq<Value>): (r: seq<Value>)
    ensures |r| == CountTruthy(ids)
    ensures forall j :: 0 <= j < |ids| && Truthy(ids[j]) ==> ConvertId(idType, ids[j]) in r
    decreases |ids|
  {
    if |ids| == 0 then []
    else
      var prior := TruthyIds(idType, ids[..|ids| - 1]);
      var last := ids[|ids| - 1];
      assert forall j :: 0 <= j < |ids| - 1 ==> ids[..|ids| - 1][j] == ids[j];
      if Truthy(last) then prior + [ConvertId(idType, last)] else prior
  }

  /** When every id is truthy, all of them are sent, converted, in order. */
  lemma {:induction false} AllTruthyIdsKept(idType: string, ids: seq<Value>)
    requires forall j :: 0 <= j < |ids| ==> Truthy(ids[j])
    ensures |TruthyIds(idType, ids)| == |ids|
    ensures forall j :: 0 <= j < |ids| ==> TruthyIds(idType, ids)[j] == ConvertId(idType, ids[j])
    decreases |ids|
  {
    if |ids| > 0 {
      var prefix := ids[..|ids| - 1];
      assert forall j :: 0 <= j < |prefix| ==> prefix[j] == ids[j];
      AllTruthyIdsKept(idType, prefix);
      AllTruthyIdsStep(idType, ids);
    }
  }

  lemma AllTruthyIdsStep(idType: string, ids: seq<Value>)
    requires |ids| > 0 && Truthy(ids[|ids| - 1])
    requires var t := TruthyIds(idType, ids[..|ids| - 1]);
             && |t| == |ids| - 1
             && forall j :: 0 <= j < |ids| - 1 ==> t[j] == ConvertId(idType, ids[j])
    ensures |TruthyIds(idType, ids)| == |ids|
    ensures forall j :: 0 <= j < |ids| ==> TruthyIds(idType, ids)[j] == ConvertId(idType, ids[j])
  {
    var prior := TruthyIds(idType, ids[..|ids| - 1]);
    var t := TruthyIds(idType, ids);
    assert t == prior + [ConvertId(idType, ids[|ids| - 1])];
    forall j | 0 <= j < |ids|
      ensures t[j] == ConvertId(idType, ids[j])
    {
      if j < |ids| - 1 {
        assert t[j] == prior[j];
      }
    }
  }

  /** A one-key object `{k: v}`. */
  function Single(k: string, v: Value): (r: Value)
    ensures r.Obj? && Keys(r.entries) == [k] && Prop(r.entries, k) == v
  {
    Obj([(k, v)])
  }

  /** GET_MANY's variables: `{ids}` with the truthy ids converted; missing ids throw. */
  function GetManyVariables(r: Resource, ids: Option<seq<Value>>): (res: Result<Value, JsError>)
    ensures ids.None? <==> res.Err?
    ensures res.Ok? ==> res.value == Single("ids", Arr(TruthyIds(r.getOneIdType, ids.value)))
  {
    match ids
    case None => Err(TypeError)
    case Some(vs) => Ok(Single("ids", Arr(TruthyIds(r.getOneIdType, vs))))
  }

  /** CREATE's variables: `{input: {[queryTypeName]: recordToVariables(data, inputType)}}`. */
  function CreateVariables(r: Resource, data: Value): (res: Result<Value, JsError>)
    ensures res.Ok? <==> RecordToVariables(r, data, r.inputType).Ok?
    ensures res.Ok? ==> res.value == Single("input", Single(r.queryTypeName, RecordToVariables(r, data, r.inputType).value))
  {
    var record :- RecordToVariables(r, data, r.inputType);
    Ok(Single("input", Single(r.queryTypeName, record)))
  }

  /** UPDATE's variables: the converted id and the patch built from the data prepared for update. */
  function UpdateVariables(r: Resource, id: Value, prepared: Value): (res: Result<Value, JsError>)
    ensures res.Ok? <==> RecordToVariables(r, prepared, r.patchType).Ok?
    ensures res.Ok? ==>
              res.value == Single("input", Obj([("id", ConvertId(r.getOneIdType, id)),
                                                 ("patch", RecordToVariables(r, prepared, r.patchType).value)]))
  {
    var patch :- RecordToVariables(r, prepared, r.patchType);
    Ok(Single("input", Obj([("id", ConvertId(r.getOneIdType, id)), ("patch", patch)])))
  }

  // ---------------------------------------------------------------------
  // UPDATE_MANY
  // ---------------------------------------------------------------------

  /** One element of the `inputs` of `updateMany`. */
  datatype UpdateInput = UpdateInput(id: Value, clientMutationId: string, patch: Value)

  /** The input as the object sent. */
  function InputObject(u: UpdateInput): Value {
    Obj([("id", u.id), ("clientMutationId", Str(u.clientMutationId)), ("patch", u.patch)])
  }

  /** The variable name `arg<id>` of an input, after id conversion. */
  function ArgName(u: UpdateInput): string {
    "arg" + Stringify(u.id)
  }

  /** The inputs for `ids`, all sharing one patch. */
  function InputsFor(idType: string, ids: seq<Value>, patch: Value): (r: seq<UpdateInput>)
    ensures |r| == |ids|
    ensures forall i :: 0 <= i < |ids| ==> r[i] == UpdateInput(ConvertId(idType, ids[i]), Stringify(ids[i]), patch)
  {
    if |ids| == 0 then [] else [UpdateInput(ConvertId(idType, ids[0]), Stringify(ids[0]), patch)] + InputsFor(idType, ids[1..], patch)
  }

  /**
    `ids.map(id => ({id, clientMutationId: String(id), patch}))`: the patch
    is built once per id from the same data, so it fails for all or none;
    missing ids throw.
   */
  function UpdateManyInputs(r: Resource, ids: Option<seq<Value>>, data: Value): (res: Result<seq<UpdateInput>, JsError>)
    ensures ids.None? ==> res == Err(TypeError)
    ensures ids.Some? && |ids.value| == 0 ==> res == Ok([])
    ensures ids.Some? && |ids.value| > 0 ==> (res.Ok? <==> RecordToVariables(r, data, r.patchType).Ok?)
    ensures res.Ok? ==>
              && |res.value| == |ids.value|
              && forall i :: 0 <= i < |ids.value| ==>
                   && res.value[i].id == ConvertId(r.getOneIdType, ids.value[i])
                   && res.value[i].clientMutationId == Stringify(ids.value[i])
                   && res.value[i].patch == RecordToVariables(r, data, r.patchType).value
  {
    match ids
    case None => Err(TypeError)
    case Some(vs) =>
      if |vs| == 0 then Ok([])
      else
        var patch :- RecordToVariables(r, data, r.patchType);
        Ok(InputsFor(r.getOneIdType, vs, patch))
  }

  /** `inputs.reduce((next, input) => ({[`arg${input.id}`]: input, ...next}), {})`. */
  function UpdateManyVariables(inputs: seq<UpdateInput>): (r: Entries)
    ensures DistinctKeys(r)
    decreases |inputs|
  {
    if |inputs| == 0 then []
    else
      var last := inputs[|inputs| - 1];
      var prior := UpdateManyVariables(inputs[..|inputs| - 1]);
      AssignKeepsDistinct([(ArgName(last), InputObject(last))], prior);
      Assign([(ArgName(last), InputObject(last))], prior)
  }

  /** No earlier input has the same variable name. */
  predicate FirstWithArg(inputs: seq<UpdateInput>, i: int)
    requires 0 <= i < |inputs|
  {
    forall j :: 0 <= j < i ==> ArgName(inputs[j]) != ArgName(inputs[i])
  }

  /** One step of `UpdateManyVariablesLookup`: the last input is spread under the earlier ones. */
  lemma UpdateManyVariablesStep(inputs: seq<UpdateInput>, k: string)
    requires |inputs| > 0
    requires var prefix := inputs[..|inputs| - 1];
             && (Lookup(UpdateManyVariables(prefix), k).Some? <==> exists i :: 0 <= i < |prefix| && ArgName(prefix[i]) == k)
             && forall i :: 0 <= i < |prefix| && ArgName(prefix[i]) == k && FirstWithArg(prefix, i) ==>
                  Lookup(UpdateManyVariables(prefix), k) == Some(InputObject(prefix[i]))
    ensures Lookup(UpdateManyVariables(inputs), k).Some? <==> exists i :: 0 <= i < |inputs| && ArgName(inputs[i]) == k
    ensures forall i :: 0 <= i < |inputs| && ArgName(inputs[i]) == k && FirstWithArg(inputs, i) ==>
              Lookup(UpdateManyVariables(inputs), k) == Some(InputObject(inputs[i]))
  {
    var prefix := inputs[..|inputs| - 1];
    var last := inputs[|inputs| - 1];
    var prior := UpdateManyVariables(prefix);
    assert UpdateManyVariables(inputs) == Assign([(ArgName(last), InputObject(last))], prior);
    LookupAssign([(ArgName(last), InputObject(last))], prior, k);
    assert forall i :: 0 <= i < |prefix| ==> prefix[i] == inputs[i];
    if Lookup(prior, k).None? && ArgName(last) == k {
      assert ArgName(inputs[|inputs| - 1]) == k;
    }
    forall i | 0 <= i < |inputs| && ArgName(inputs[i]) == k && FirstWithArg(inputs, i)
      ensures Lookup(UpdateManyVariables(inputs), k) == Some(InputObject(inputs[i]))
    {
      if i < |inputs| - 1 {
        assert FirstWithArg(prefix, i);
      }
    }
  }

  /**
    Every input has a variable, and when two inputs share a variable name
    the earlier one is sent: later inputs are spread under the earlier ones.
   */
  lemma {:induction false} UpdateManyVariablesLookup(inputs: seq<UpdateInput>, k: string)
    ensures Lookup(UpdateManyVariables(inputs), k).Some? <==> exists i :: 0 <= i < |inputs| && ArgName(inputs[i]) == k
    ensures forall i :: 0 <= i < |inputs| && ArgName(inputs[i]) == k && FirstWithArg(inputs, i) ==>
              Lookup(UpdateManyVariables(inputs), k) == Some(InputObject(inputs[i]))
    decreases |inputs|
  {
    if |inputs| > 0 {
      UpdateManyVariablesLookup(inputs[..|inputs| - 1], k);
      UpdateManyVariablesStep(inputs, k);
    }
  }

  /** One element of `parseResponse`: `idConverter(response.data[`update${id}`].clientMutationId)`. */
  function ParseUpdated(r: Resource, id: Value, response: Value): Result<Value, JsError> {
    var data :- GetProp(response, "data");
    var node :- GetProp(data, "update" + Stringify(id));
    var clientMutationId :- GetProp(node, "clientMutationId");
    Ok(ConvertId(r.getOneIdType, clientMutationId))
  }

  /** UPDATE_MANY's `parseResponse`: the ids the server echoed, in request order; the first failing read throws. */
  function ParseUpdateMany(r: Resource, ids: seq<Value>, response: Value): (res: Result<seq<Value>, JsError>)
    ensures res.Ok? <==> forall i :: 0 <= i < |ids| ==> ParseUpdated(r, ids[i], response).Ok?
    ensures res.Ok? ==> |res.value| == |ids| && forall i :: 0 <= i < |ids| ==> res.value[i] == ParseUpdated(r, ids[i], response).value
    decreases |ids|
  {
    if |ids| == 0 then Ok([])
    else
      var prior :- ParseUpdateMany(r, ids[..|ids| - 1], response);
      var last :- ParseUpdated(r, ids[|ids| - 1], response);
      assert forall i :: 0 <= i < |ids| - 1 ==> ids[..|ids| - 1][i] == ids[i];
      Ok(prior + [last])
  }

  /** The alias under which the server answers an input: `update<id>`. */
  function Alias(u: UpdateInput): string {
    "update" + Stringify(u.id)
  }

  /** What the server returns under each alias: the input's `clientMutationId`. */
  function EchoEntries(inputs: seq<UpdateInput>): Entries
    decreases |inputs|
  {
    if |inputs| == 0 then []
    else
      var last := inputs[|inputs| - 1];
      Put(EchoEntries(inputs[..|inputs| - 1]), Alias(last), Single("clientMutationId", Str(last.clientMutationId)))
  }

  /** A server response that echoes every mutation's `clientMutationId`. */
  function EchoResponse(inputs: seq<UpdateInput>): Value {
    Single("data", Obj(EchoEntries(inputs)))
  }

  /** Inputs whose alias determines their `clientMutationId`. */
  predicate AliasesAgree(inputs: seq<UpdateInput>) {
    forall i, j :: 0 <= i < |inputs| && 0 <= j < |inputs| && Alias(inputs[i]) == Alias(inputs[j]) ==>
      inputs[i].clientMutationId == inputs[j].clientMutationId
  }

  lemma AliasesAgreePrefix(inputs: seq<UpdateInput>)
    requires AliasesAgree(inputs) && |inputs| > 0
    ensures AliasesAgree(inputs[..|inputs| - 1])
  {
    var prefix := inputs[..|inputs| - 1];
    forall a, b | 0 <= a < |prefix| && 0 <= b < |prefix| && Alias(prefix[a]) == Alias(prefix[b])
      ensures prefix[a].clientMutationId == prefix[b].clientMutationId
    {
      assert prefix[a] == inputs[a] && prefix[b] == inputs[b];
    }
  }

  /** Every input's alias holds its echo. */
  lemma {:induction false} EchoLookup(inputs: seq<UpdateInput>, i: int)
    requires AliasesAgree(inputs) && 0 <= i < |inputs|
    ensures Lookup(EchoEntries(inputs), Alias(inputs[i])) == Some(Single("clientMutationId", Str(inputs[i].clientMutationId)))
    decreases |inputs|
  {
    var prefix := inputs[..|inputs| - 1];
    var last := inputs[|inputs| - 1];
    var echo := Single("clientMutationId", Str(last.clientMutationId));
    assert EchoEntries(inputs) == Put(EchoEntries(prefix), Alias(last), echo);
    LookupPut(EchoEntries(prefix), Alias(last), echo, Alias(inputs[i]));
    if Alias(inputs[i]) != Alias(last) {
      assert i < |inputs| - 1 && prefix[i] == inputs[i];
      AliasesAgreePrefix(inputs);
      EchoLookup(prefix, i);
    } else {
      assert inputs[i].clientMutationId == last.clientMutationId;
    }
  }

  /** An id whose text is kept by conversion, so that the alias sent and the alias read agree. */
  predicate Echoable(idType: string, id: Value) {
    TextSafe(idType, id) && Stringify(ConvertId(idType, id)) == Stringify(id)
  }

  lemma AliasPrefix(a: string, b: string)
    requires "update" + a == "update" + b
    ensures a == b
  {
    assert a == ("update" + a)[6..];
    assert b == ("update" + b)[6..];
  }

  /**
    When the server echoes each mutation's `clientMutationId`, UPDATE_MANY
    reports back exactly the ids it was asked to update, converted as GET_ONE
    converts them.
   */
  lemma UpdateManyRoundTrip(r: Resource, ids: seq<Value>, data: Value)
    requires UpdateManyInputs(r, Some(ids), data).Ok?
    requires forall i :: 0 <= i < |ids| ==> Echoable(r.getOneIdType, ids[i])
    ensures var inputs := UpdateManyInputs(r, Some(ids), data).value;
            var parsed := ParseUpdateMany(r, ids, EchoResponse(inputs));
            && parsed.Ok? && |parsed.value| == |ids|
            && forall i :: 0 <= i < |ids| ==> parsed.value[i] == ConvertId(r.getOneIdType, ids[i])
  {
    var inputs := UpdateManyInputs(r, Some(ids), data).value;
    assert AliasesAgree(inputs) by {
      forall i, j | 0 <= i < |inputs| && 0 <= j < |inputs| && Alias(inputs[i]) == Alias(inputs[j])
        ensures inputs[i].clientMutationId == inputs[j].clientMutationId
      {
        AliasPrefix(Stringify(inputs[i].id), Stringify(inputs[j].id));
      }
    }
    forall i | 0 <= i < |ids|
      ensures ParseUpdated(r, ids[i], EchoResponse(inputs)) == Ok(ConvertId(r.getOneIdType, ids[i]))
    {
      EchoLookup(inputs, i);
      assert Alias(inputs[i]) == "update" + Stringify(ids[i]);
      ConvertIdOfText(r.getOneIdType, ids[i]);
    }
  }

  // ---------------------------------------------------------------------
  // Dispatch
  // ---------------------------------------------------------------------

  /** The react-admin verbs a resource serves. */
  datatype Verb = GetOne | GetMany | GetManyReference | GetList | Create | Update | UpdateMany | DeleteOne

  /** The fetch type string react-admin passes for each verb. */
  function VerbName(v: Verb): string {
    match v
    case GetOne => "GET_ONE"
    case GetMany => "GET_MANY"
    case GetManyReference => "GET_MANY_REFERENCE"
    case GetList => "GET_LIST"
    case Create => "CREATE"
    case Update => "UPDATE"
    case UpdateMany => "UPDATE_MANY"
    case DeleteOne => "DELETE"
  }

  /** The `switch` over the fetch type. */
  function ParseVerb(fetchType: string): (r: Option<Verb>)
    ensures r.Some? ==> VerbName(r.value) == fetchType
  {
    if fetchType == "GET_ONE" then Some(GetOne)
    else if fetchType == "GET_MANY" then Some(GetMany)
    else if fetchType == "GET_MANY_REFERENCE" then Some(GetManyReference)
    else if fetchType == "GET_LIST" then Some(GetList)
    else if fetchType == "CREATE" then Some(Create)
    else if fetchType == "UPDATE" then Some(Update)
    else if fetchType == "UPDATE_MANY" then Some(UpdateMany)
    else if fetchType == "DELETE" then Some(DeleteOne)
    else None
  }

  /** Each verb's name is recognised as that verb, and no other string is. */
  lemma VerbNamesParse(v: Verb, fetchType: string)
    ensures ParseVerb(VerbName(v)) == Some(v)
    ensures ParseVerb(fetchType).None? <==> forall w: Verb :: VerbName(w) != fetchType
  {
    if ParseVerb(fetchType).None? {
      forall w: Verb ensures VerbName(w) != fetchType {
        assert ParseVerb(VerbName(w)) == Some(w);
      }
    }
  }

  function NotImplementedMessage(fetchType: string, resourceName: string): string {
    fetchType + " is not implemented for type \"" + resourceName + "\""
  }

  /** `hasQuery(name)`: the root field exists. */
  predicate HasQuery(r: Resource, name: string) {
    name in r.queries
  }

  /** The root field whose presence a mutation verb checks; reads are always served. */
  function Gate(r: Resource, v: Verb): Option<string> {
    match v
    case Create => Some("create" + r.typeName)
    case Update => Some(r.updateResourceName)
    case UpdateMany => Some(r.updateResourceName)
    case DeleteOne => Some("delete" + r.typeName)
    case _ => None
  }

  /**
    `fetch`'s switch: an unknown fetch type, or a mutation whose root field
    the schema lacks, throws the not-implemented error.
   */
  function Dispatch(r: Resource, fetchType: string): (res: Result<Verb, JsError>)
    ensures res.Ok? ==> VerbName(res.value) == fetchType
    ensures res.Err? ==> res.error == Error(NotImplementedMessage(fetchType, r.resourceName))
    ensures ParseVerb(fetchType).None? ==> res.Err?
  {
    match ParseVerb(fetchType)
    case None => Err(Error(NotImplementedMessage(fetchType, r.resourceName)))
    case Some(v) =>
      if Gate(r, v).Some? && !HasQuery(r, Gate(r, v).value) then Err(Error(NotImplementedMessage(fetchType, r.resourceName)))
      else Ok(v)
  }

  /**
    The read verbs are always served; CREATE needs `create<Type>`, UPDATE and
    UPDATE_MANY need the update mutation, DELETE needs `delete<Type>` (without
    the `ByNodeId` suffix even for a compound key).
   */
  lemma DispatchServes(r: Resource, v: Verb)
    ensures v in {GetOne, GetMany, GetManyReference, GetList} ==> Dispatch(r, VerbName(v)) == Ok(v)
    ensures v == Create ==> (Dispatch(r, VerbName(v)).Ok? <==> "create" + r.typeName in r.queries)
    ensures v == Update || v == UpdateMany ==> (Dispatch(r, VerbName(v)).Ok? <==> r.updateResourceName in r.queries)
    ensures v == DeleteOne ==> (Dispatch(r, VerbName(v)).Ok? <==> "delete" + r.typeName in r.queries)
    ensures Dispatch(r, VerbName(v)).Ok? ==> Dispatch(r, VerbName(v)).value == v
  {
    VerbNamesParse(v, VerbName(v));
  }

  // ---------------------------------------------------------------------
  // Fetch
  // ---------------------------------------------------------------------

  /** The parameters react-admin passes, as far as the verbs read them. */
  datatype Params = Params(
    id: Value,
    ids: Option<seq<Value>>,
    data: Value,
    filter: Option<Entries>,
    sort: Option<Sort>,
    pagination: Option<Pagination>,
    target: Option<string>)

  /**
    What a verb sends: the root field of the operation, the selection set
    compiled for it, and the variables. The GraphQL document text around
    them and the response parser are not modelled here.
   */
  datatype Request = Request(field: string, selection: string, variables: Value)

  /** `createQueryFromType(forQuery)` with the resource's types, handlers and settings. */
  function QuerySelection(r: Resource, forQuery: string): Result<string, JsError> {
    CreateQueryFromType(r.types, r.queryFieldHandlers, r.typeName, SettingOf(r.querySettings, forQuery))
  }

  /** The query-settings key whose selection a verb uses; UPDATE_MANY selects only `clientMutationId`. */
  function SelectionKey(v: Verb): Option<string> {
    match v
    case GetOne => Some("GET_ONE")
    case GetMany => Some("GET_ONE")
    case GetManyReference => Some("GET_LIST")
    case GetList => Some("GET_LIST")
    case Create => Some("CREATE")
    case Update => Some("UPDATE")
    case UpdateMany => None
    case DeleteOne => Some("DELETE")
  }

  /** The root field each verb queries or mutates. */
  function RootField(r: Resource, v: Verb): string {
    match v
    case GetOne => r.getOneResourceName
    case GetMany => r.pluralizedQueryTypeName
    case GetManyReference => r.pluralizedQueryTypeName
    case GetList => r.pluralizedQueryTypeName
    case Create => "create" + r.typeName
    case Update => r.updateResourceName
    case UpdateMany => r.updateResourceName
    case DeleteOne => r.deleteResourceName
  }

  /**
    A request whose selection set is compiled before its variables are
    built: the selection's error is the one thrown when both fail.
   */
  function Compose(field: string, selection: Result<string, JsError>, variables: Result<Value, JsError>): (res: Result<Request, JsError>)
    ensures selection.Err? ==> res == Err(selection.error)
    ensures selection.Ok? && variables.Err? ==> res == Err(variables.error)
    ensures res.Ok? <==> selection.Ok? && variables.Ok?
    ensures res.Ok? ==> res.value == Request(field, selection.value, variables.value)
  {
    var s :- selection;
    var vars :- variables;
    Ok(Request(field, s, vars))
  }

  /**
    The variables each verb sends: the converted id for GET_ONE, `{input:
    {id}}` for DELETE, the list variables (narrowed to `target = id` for
    GET_MANY_REFERENCE), and the prepared record for the mutations.
   */
  function VerbVariables(r: Resource, v: Verb, p: Params): (res: Result<Value, JsError>)
    ensures v == GetOne ==> res == Ok(Obj([("id", ConvertId(r.getOneIdType, p.id))]))
    ensures v == GetMany ==> res == GetManyVariables(r, p.ids)
    ensures v == GetList ==> res == ListVariables(r, p.filter, p.sort, p.pagination)
    ensures v == GetManyReference ==>
              res == ListVariables(r, Some(ReferenceFilter(p.filter, p.target, p.id)), p.sort, p.pagination)
    ensures v == Create ==> res == CreateVariables(r, p.data)
    ensures v == Update ==>
              var prepared := PrepareDataForUpdate(r.hasCompoundKey, p.data);
              && (prepared.Err? ==> res == Err(prepared.error))
              && (prepared.Ok? ==> res == UpdateVariables(r, p.id, prepared.value))
    ensures v == UpdateMany ==>
              var inputs := UpdateManyInputs(r, p.ids, p.data);
              && (res.Ok? <==> inputs.Ok?)
              && (res.Ok? ==> res.value == Obj(UpdateManyVariables(inputs.value)))
    ensures v == DeleteOne ==> res == Ok(Obj([("input", Obj([("id", ConvertId(r.getOneIdType, p.id))]))]))
  {
    match v
    case GetOne => Ok(Single("id", ConvertId(r.getOneIdType, p.id)))
    case GetMany => GetManyVariables(r, p.ids)
    case GetManyReference => ListVariables(r, Some(ReferenceFilter(p.filter, p.target, p.id)), p.sort, p.pagination)
    case GetList => ListVariables(r, p.filter, p.sort, p.pagination)
    case Create => CreateVariables(r, p.data)
    case Update =>
      var prepared :- PrepareDataForUpdate(r.hasCompoundKey, p.data);
      UpdateVariables(r, p.id, prepared)
    case UpdateMany =>
      var inputs :- UpdateManyInputs(r, p.ids, p.data);
      Ok(Obj(UpdateManyVariables(inputs)))
    case DeleteOne => Ok(Single("input", Single("id", ConvertId(r.getOneIdType, p.id))))
  }

  /**
    The request of one verb. The selection set is compiled before the
    variables are built, except that UPDATE prepares its data first and
    UPDATE_MANY compiles no selection.
   */
  function FetchVerb(r: Resource, v: Verb, p: Params): (res: Result<Request, JsError>)
    ensures res.Ok? <==>
              && VerbVariables(r, v, p).Ok?
              && (SelectionKey(v).Some? ==> QuerySelection(r, SelectionKey(v).value).Ok?)
    ensures res.Ok? ==>
              && res.value.field == RootField(r, v)
              && res.value.variables == VerbVariables(r, v, p).value
    ensures res.Ok? && SelectionKey(v).Some? ==> QuerySelection(r, SelectionKey(v).value) == Ok(res.value.selection)
    ensures res.Ok? && v == UpdateMany ==> res.value.selection == "clientMutationId"
    ensures v == Update && PrepareDataForUpdate(r.hasCompoundKey, p.data).Err? ==> res == Err(TypeError)
    ensures SelectionKey(v).Some? && QuerySelection(r, SelectionKey(v).value).Err?
            && !(v == Update && PrepareDataForUpdate(r.hasCompoundKey, p.data).Err?) ==>
              res == Err(QuerySelection(r, SelectionKey(v).value).error)
    ensures VerbVariables(r, v, p).Err? && (SelectionKey(v).Some? ==> QuerySelection(r, SelectionKey(v).value).Ok?) ==>
              res == Err(VerbVariables(r, v, p).error)
  {
    match v
    case Update =>
      if PrepareDataForUpdate(r.hasCompoundKey, p.data).Err? then Err(PrepareDataForUpdate(r.hasCompoundKey, p.data).error)
      else Compose(r.updateResourceName, QuerySelection(r, "UPDATE"), VerbVariables(r, v, p))
    case UpdateMany =>
      var variables :- VerbVariables(r, v, p);
      Ok(Request(r.updateResourceName, "clientMutationId", variables))
    case _ =>
      Compose(RootField(r, v), QuerySelection(r, SelectionKey(v).value), VerbVariables(r, v, p))
  }

  /** `fetch(raFetchType, params)`: dispatch, then build the verb's request. */
  function Fetch(r: Resource, fetchType: string, p: Params): (res: Result<Request, JsError>)
    ensures Dispatch(r, fetchType).Err? ==> res == Err(Dispatch(r, fetchType).error)
    ensures Dispatch(r, fetchType).Ok? ==> res == FetchVerb(r, Dispatch(r, fetchType).value, p)
  {
    var v :- Dispatch(r, fetchType);
    FetchVerb(r, v, p)
  }

  /** GET_MANY_REFERENCE is GET_LIST with the filter narrowed to `target = id`. */
  lemma ReferenceIsNarrowedList(r: Resource, p: Params)
    ensures Fetch(r, "GET_MANY_REFERENCE", p) ==
              Fetch(r, "GET_LIST", p.(filter := Some(ReferenceFilter(p.filter, p.target, p.id))))
  {
    assert Dispatch(r, "GET_MANY_REFERENCE") == Ok(GetManyReference);
    assert Dispatch(r, "GET_LIST") == Ok(GetList);
  }

  /**
    An accepted mutation targets a root field the schema has, except that a
    compound-key DELETE checks `delete<Type>` but sends `delete<Type>ByNodeId`.
   */
  lemma MutationFieldExists(r: Resource, fetchType: string, p: Params)
    requires Fetch(r, fetchType, p).Ok?
    requires r.updateResourceName == "update" + r.typeName + KeySuffix(r.hasCompoundKey)
    requires r.deleteResourceName == "delete" + r.typeName + KeySuffix(r.hasCompoundKey)
    ensures var v := Dispatch(r, fetchType).value;
            && (v in {Create, Update, UpdateMany} ==> HasQuery(r, Fetch(r, fetchType, p).value.field))
            && (v == DeleteOne && !r.hasCompoundKey ==> HasQuery(r, Fetch(r, fetchType, p).value.field))
  {
    var v := Dispatch(r, fetchType).value;
    assert KeySuffix(false) == "";
    assert "delete" + r.typeName + "" == "delete" + r.typeName;
  }

  // ---------------------------------------------------------------------
  // The provider and its resource cache
  // ---------------------------------------------------------------------

  /**
    The provider the factory returns: the indexed introspection, the
    per-resource options, and the resources constructed so far.
   */
  datatype Provider = Provider(intro: Introspection, options: map<string, ResourceOptions>, cache: map<string, Resource>)

  /** The factory: index types and root queries by name; no resource is built yet. */
  function MakeProvider(types: seq<GqlType>, queries: seq<GqlType>, options: map<string, ResourceOptions>): (p: Provider)
    ensures p.cache == map[] && p.options == options
    ensures forall i :: 0 <= i < |types| ==> KeyOf(types[i]) in p.intro.types
    ensures forall i :: 0 <= i < |queries| ==> KeyOf(queries[i]) in p.intro.queries
  {
    Provider(Introspection(CreateTypeMap(types), CreateTypeMap(queries)), options, map[])
  }

  /** Constructing the resource for a name afresh; missing options throw. */
  function Construct(p: Provider, resourceName: string): Result<Resource, JsError> {
    if resourceName !in p.options then Err(TypeError)
    else NewResource(p.intro, resourceName, p.options[resourceName])
  }

  /** The resource for a name, from the cache or newly constructed. */
  function ResourceFor(p: Provider, resourceName: string): Result<Resource, JsError> {
    if resourceName in p.cache then Ok(p.cache[resourceName]) else Construct(p, resourceName)
  }

  /**
    One call of the provider: a constructed resource is cached before its
    `fetch` runs, so it stays cached when `fetch` throws; a constructor
    that throws caches nothing.
   */
  function Call(p: Provider, fetchType: string, resourceName: string, params: Params): (out: (Provider, Result<Request, JsError>))
    ensures out.0.intro == p.intro && out.0.options == p.options
    ensures ResourceFor(p, resourceName).Err? ==> out == (p, Err(ResourceFor(p, resourceName).error))
    ensures ResourceFor(p, resourceName).Ok? ==>
              && out.0.cache == p.cache[resourceName := ResourceFor(p, resourceName).value]
              && out.1 == Fetch(ResourceFor(p, resourceName).value, fetchType, params)
  {
    match ResourceFor(p, resourceName)
    case Err(e) => (p, Err(e))
    case Ok(r) => (p.(cache := p.cache[resourceName := r]), Fetch(r, fetchType, params))
  }

  /** Every cached resource is the one its options construct. */
  ghost predicate Coherent(p: Provider) {
    forall n :: n in p.cache ==> n in p.options && NewResource(p.intro, n, p.options[n]) == Ok(p.cache[n])
  }

  /** What a call returns when nothing is cached: construct, then fetch. */
  function Uncached(p: Provider, fetchType: string, resourceName: string, params: Params): Result<Request, JsError> {
    var r :- Construct(p, resourceName);
    Fetch(r, fetchType, params)
  }

  /** From a coherent state the cache returns what construction would. */
  lemma CachedIsConstructed(p: Provider, resourceName: string)
    requires Coherent(p)
    ensures ResourceFor(p, resourceName) == Construct(p, resourceName)
  {
  }

  /** Caching a constructed resource keeps the state coherent and keeps every entry. */
  lemma CachingKeepsCoherent(p: Provider, resourceName: string)
    requires Coherent(p) && Construct(p, resourceName).Ok?
    ensures Coherent(p.(cache := p.cache[resourceName := Construct(p, resourceName).value]))
  {
  }

  /** From a coherent state a call returns what constructing the resource afresh would. */
  lemma CallIsUncached(p: Provider, fetchType: string, resourceName: string, params: Params)
    requires Coherent(p)
    ensures Call(p, fetchType, resourceName, params).1 == Uncached(p, fetchType, resourceName, params)
  {
    CachedIsConstructed(p, resourceName);
  }

  /** A call from a coherent state leaves it coherent. */
  lemma CallKeepsCoherent(p: Provider, fetchType: string, resourceName: string, params: Params)
    requires Coherent(p)
    ensures Coherent(Call(p, fetchType, resourceName, params).0)
  {
    CachedIsConstructed(p, resourceName);
    if Construct(p, resourceName).Ok? {
      CachingKeepsCoherent(p, resourceName);
    }
  }

  /** A call from a coherent state never changes an entry already cached. */
  lemma CallKeepsEntries(p: Provider, fetchType: string, resourceName: string, params: Params)
    requires Coherent(p)
    ensures forall n :: n in p.cache ==>
              n in Call(p, fetchType, resourceName, params).0.cache && Call(p, fetchType, resourceName, params).0.cache[n] == p.cache[n]
  {
    CachedIsConstructed(p, resourceName);
    var cache := Call(p, fetchType, resourceName, params).0.cache;
    if Construct(p, resourceName).Ok? {
      assert cache == p.cache[resourceName := Construct(p, resourceName).value];
      CachingKeepsEntries(p, resourceName);
    } else {
      assert cache == p.cache;
    }
  }

  /** Caching a constructed resource over a coherent state changes no existing entry. */
  lemma CachingKeepsEntries(p: Provider, resourceName: string)
    requires Coherent(p) && Construct(p, resourceName).Ok?
    ensures forall n :: n in p.cache ==>
              n in p.cache[resourceName := Construct(p, resourceName).value] && p.cache[resourceName := Construct(p, resourceName).value][n] == p.cache[n]
  {
  }

  /**
    The cache is invisible: from a coherent state every call returns what
    constructing the resource afresh would, the state stays coherent, and
    entries already cached never change.
   */
  lemma CacheTransparent(p: Provider, fetchType: string, resourceName: string, params: Params)
    requires Coherent(p)
    ensures Call(p, fetchType, resourceName, params).1 == Uncached(p, fetchType, resourceName, params)
    ensures Coherent(Call(p, fetchType, resourceName, params).0)
    ensures forall n :: n in p.cache ==>
              n in Call(p, fetchType, resourceName, params).0.cache && Call(p, fetchType, resourceName, params).0.cache[n] == p.cache[n]
  {
    CallIsUncached(p, fetchType, resourceName, params);
    CallKeepsCoherent(p, fetchType, resourceName, params);
    CallKeepsEntries(p, fetchType, resourceName, params);
  }

  /** Two calls in a row for the same resource behave like two uncached calls. */
  lemma {:induction false} RepeatedCalls(p: Provider, t1: string, t2: string, resourceName: string, q1: Params, q2: Params)
    requires Coherent(p)
    ensures var p1 := Call(p, t1, resourceName, q1).0;
            && Call(p, t1, resourceName, q1).1 == Uncached(p, t1, resourceName, q1)
            && Call(p1, t2, resourceName, q2).1 == Uncached(p, t2, resourceName, q2)
  {
    CacheTransparent(p, t1, resourceName, q1);
    var p1 := Call(p, t1, resourceName, q1).0;
    CacheTransparent(p1, t2, resourceName, q2);
  }
}

=== FILE: selection.dfy ===
/**
  The selection-set compiler (src/field.ts): `createQueryFromType` walks
  the declared fields of a type in schema order and, for every field whose
  setting is on, appends ` <fragment>` produced by the field's handler; the
  simple handler renders a bare field name or recurses into an object type.
 */
module Selection {
  import opened Wrappers
  import opened Values
  import opened GqlTypes

  /**
    A field setting: `Off` for any falsy value (absent, `false`, `null`),
    `On` for `true`, and `Nested` for an object of per-field settings.
   */
  datatype Setting = Off | On | Nested(children: seq<(string, Setting)>)

  /**
    A field handler: the simple handler, or a caller's handler that always
    returns the same text (empty text drops the field).
   */
  datatype Handler = Simple | Fixed(text: string)

  type Handlers = map<string, Handler>

  /** The handler table with only the simple handler as `__default` (`SimpleFieldHandlers`). */
  const SimpleHandlers: Handlers := map["__default" := Simple]

  /** Index of the first setting named `name`. */
  function SettingIndex(children: seq<(string, Setting)>, name: string): (r: Option<nat>)
    ensures r.Some? ==> r.value < |children| && children[r.value].0 == name
    ensures r.Some? ==> forall j :: 0 <= j < r.value ==> children[j].0 != name
    ensures r.None? ==> forall j :: 0 <= j < |children| ==> children[j].0 != name
  {
    if |children| == 0 then None
    else if children[0].0 == name then Some(0)
    else
      match SettingIndex(children[1..], name)
      case None => None
      case Some(i) => Some(i + 1)
  }

  /** `get(settings, name)`: a child of an object setting, `Off` otherwise. */
  function SettingOf(settings: Setting, name: string): Setting {
    match settings
    case Nested(children) =>
      (match SettingIndex(children, name)
       case Some(i) => children[i].1
       case None => Off)
    case _ => Off
  }

  /** `get(handlers, field.name, get(handlers, '__default'))`. */
  function HandlerFor(handlers: Handlers, name: string): (r: Option<Handler>)
    ensures name in handlers ==> r == Some(handlers[name])
    ensures name !in handlers && "__default" in handlers ==> r == Some(handlers["__default"])
    ensures r.None? <==> name !in handlers && "__default" !in handlers
  {
    if name in handlers then Some(handlers[name])
    else if "__default" in handlers then Some(handlers["__default"])
    else None
  }

  /** `get(typeMap, [typeName, 'fields'])`. */
  function TypeFields(typeMap: TypeMap, typeName: string): Option<seq<GqlType>> {
    if typeName in typeMap then typeMap[typeName].fields else None
  }

  /**
    `createQueryFromType({typeName, typeMap, handlers, settings})`: empty
    when the type is unknown or has no fields; otherwise the fields'
    fragments, each preceded by one space.
   */
  function CreateQueryFromType(typeMap: TypeMap, handlers: Handlers, typeName: string, settings: Setting): (r: Result<string, JsError>)
    ensures TypeFields(typeMap, typeName).None? ==> r == Ok("")
    ensures r.Ok? && r.value != "" ==> r.value[0] == ' '
    decreases settings, 2, 0
  {
    match TypeFields(typeMap, typeName)
    case None => Ok("")
    case Some(fields) => CompileFields(typeMap, handlers, fields, settings)
  }

  /** The reduction over the type's fields, in declared order. */
  function CompileFields(typeMap: TypeMap, handlers: Handlers, fields: seq<GqlType>, settings: Setting): (r: Result<string, JsError>)
    ensures r.Ok? && r.value != "" ==> r.value[0] == ' '
    decreases settings, 1, |fields|
  {
    if |fields| == 0 then Ok("")
    else
      var current :- CompileFields(typeMap, handlers, fields[..|fields| - 1], settings);
      var field := fields[|fields| - 1];
      var fragment :- match settings
        case Nested(children) =>
          (match SettingIndex(children, JsStr(field.name))
           case Some(i) => FieldFragment(typeMap, handlers, field, children[i].1)
           case None => Ok(""))
        case _ => Ok("");
      Ok(if fragment == "" then current else current + " " + fragment)
  }

  /**
    What one field contributes under its own setting `setting`: nothing when
    the setting is off or no handler applies, otherwise the handler's text.
   */
  function FieldFragment(typeMap: TypeMap, handlers: Handlers, field: GqlType, setting: Setting): (r: Result<string, JsError>)
    ensures setting.Off? ==> r == Ok("")
    ensures HandlerFor(handlers, JsStr(field.name)).None? ==> r == Ok("")
    ensures !setting.Off? && HandlerFor(handlers, JsStr(field.name)) == Some(Simple) ==>
              r == SimpleFieldHandler(typeMap, handlers, field, setting)
    ensures !setting.Off? && HandlerFor(handlers, JsStr(field.name)).Some? && HandlerFor(handlers, JsStr(field.name)).value.Fixed? ==>
              r == Ok(HandlerFor(handlers, JsStr(field.name)).value.text)
    decreases setting, 4, 0
  {
    if setting.Off? then Ok("")
    else
      match HandlerFor(handlers, JsStr(field.name))
      case None => Ok("")
      case Some(Fixed(text)) => Ok(text)
      case Some(Simple) => SimpleFieldHandler(typeMap, handlers, field, setting)
  }

  /**
    `SimpleFieldHandler`: nothing for a falsy setting, the bare field name
    for `true`, and an object selection for anything else.
   */
  function SimpleFieldHandler(typeMap: TypeMap, handlers: Handlers, field: GqlType, setting: Setting): (r: Result<string, JsError>)
    ensures setting.Off? ==> r == Ok("")
    ensures setting.On? ==> r == Ok(JsStr(field.name))
    ensures setting.Nested? ==> r == ObjectField(typeMap, handlers, field, setting)
    decreases setting, 3, 0
  {
    match setting
    case Off => Ok("")
    case On => Ok(JsStr(field.name))
    case Nested(_) => ObjectField(typeMap, handlers, field, setting)
  }

  /**
    `ObjectField`: `name { <selection of the field's type> }`, or nothing
    when the field's type is not in the type map.
   */
  function ObjectField(typeMap: TypeMap, handlers: Handlers, field: GqlType, setting: Setting): (r: Result<string, JsError>)
    ensures FieldType(field, typeMap).Err? ==> r == Err(FieldType(field, typeMap).error)
    ensures FieldType(field, typeMap) == Ok(None) ==> r == Ok("")
    ensures FieldType(field, typeMap).Ok? && FieldType(field, typeMap).value.Some? ==>
              var nodeType := FieldType(field, typeMap).value.value;
              var inner := CreateQueryFromType(typeMap, handlers, TypeText(nodeType.name), setting);
              && (inner.Err? ==> r == Err(inner.error))
              && (inner.Ok? ==> r == Ok(JsStr(field.name) + " { " + inner.value + " }"))
    decreases setting, 2, 1
  {
    var nodeType :- FieldType(field, typeMap);
    match nodeType
    case None => Ok("")
    case Some(t) =>
      var inner :- CreateQueryFromType(typeMap, handlers, TypeText(t.name), setting);
      Ok(JsStr(field.name) + " { " + inner + " }")
  }

  /** A field's contribution in `CompileFields` is `FieldFragment` under `get(settings, name)`. */
  lemma CompileFieldsStep(typeMap: TypeMap, handlers: Handlers, fields: seq<GqlType>, settings: Setting)
    requires |fields| > 0
    ensures var field := fields[|fields| - 1];
            var current := CompileFields(typeMap, handlers, fields[..|fields| - 1], settings);
            var fragment := FieldFragment(typeMap, handlers, field, SettingOf(settings, JsStr(field.name)));
            CompileFields(typeMap, handlers, fields, settings) ==
              if current.Err? then current
              else if fragment.Err? then Err(fragment.error)
              else if fragment.value == "" then current
              else Ok(current.value + " " + fragment.value)
  {
  }

  /** Appending a field whose fragment is non-empty appends one space and the fragment. */
  lemma CompileFieldsSnoc(typeMap: TypeMap, handlers: Handlers, fields: seq<GqlType>, field: GqlType, settings: Setting, q: string, f: string)
    requires CompileFields(typeMap, handlers, fields, settings) == Ok(q)
    requires FieldFragment(typeMap, handlers, field, SettingOf(settings, JsStr(field.name))) == Ok(f)
    requires f != ""
    ensures CompileFields(typeMap, handlers, fields + [field], settings) == Ok(q + " " + f)
  {
    var all := fields + [field];
    assert all[..|all| - 1] == fields;
    CompileFieldsStep(typeMap, handlers, all, settings);
  }

  /** Two settings objects that answer every field name alike. */
  ghost predicate SameSettings(s1: Setting, s2: Setting) {
    forall n :: SettingOf(s1, n) == SettingOf(s2, n)
  }

  /** The query depends on the settings only through what they answer for each field name. */
  lemma {:induction false} SameSettingsSameQuery(typeMap: TypeMap, handlers: Handlers, fields: seq<GqlType>, s1: Setting, s2: Setting)
    requires SameSettings(s1, s2)
    ensures CompileFields(typeMap, handlers, fields, s1) == CompileFields(typeMap, handlers, fields, s2)
  {
    if |fields| > 0 {
      SameSettingsSameQuery(typeMap, handlers, fields[..|fields| - 1], s1, s2);
      CompileFieldsStep(typeMap, handlers, fields, s1);
      CompileFieldsStep(typeMap, handlers, fields, s2);
      assert SettingOf(s1, JsStr(fields[|fields| - 1].name)) == SettingOf(s2, JsStr(fields[|fields| - 1].name));
    }
  }

  predicate DistinctNames(children: seq<(string, Setting)>) {
    forall i, j :: 0 <= i < j < |children| ==> children[i].0 != children[j].0
  }

  /** Lists the same settings, each name once. */
  ghost predicate Reordered(c1: seq<(string, Setting)>, c2: seq<(string, Setting)>) {
    && DistinctNames(c1)
    && DistinctNames(c2)
    && (forall p :: p in c1 <==> p in c2)
  }

  /** With distinct names, the setting found for a name is the one listed under it. */
  lemma SettingOfListed(children: seq<(string, Setting)>, n: string, v: Setting)
    requires DistinctNames(children)
    requires (n, v) in children
    ensures SettingOf(Nested(children), n) == v
  {
    var k :| 0 <= k < |children| && children[k] == (n, v);
    var i := SettingIndex(children, n);
    assert i.Some?;
  }

  /** A name nobody lists is off. */
  lemma SettingOfUnlisted(children: seq<(string, Setting)>, n: string)
    requires forall v :: (n, v) !in children
    ensures SettingOf(Nested(children), n) == Off
  {
  }

  /** The order in which the settings object lists its keys does not change the query. */
  lemma {:induction false} SettingsOrderIrrelevant(typeMap: TypeMap, handlers: Handlers, typeName: string, c1: seq<(string, Setting)>, c2: seq<(string, Setting)>)
    requires Reordered(c1, c2)
    ensures CreateQueryFromType(typeMap, handlers, typeName, Nested(c1)) == CreateQueryFromType(typeMap, handlers, typeName, Nested(c2))
  {
    forall n
      ensures SettingOf(Nested(c1), n) == SettingOf(Nested(c2), n)
    {
      var i := SettingIndex(c1, n);
      if i.Some? {
        var v := c1[i.value].1;
        assert (n, v) in c1;
        SettingOfListed(c2, n, v);
      } else {
        SettingOfUnlisted(c1, n);
        SettingOfUnlisted(c2, n);
      }
    }
    match TypeFields(typeMap, typeName)
    case None =>
    case Some(fields) =>
      SameSettingsSameQuery(typeMap, handlers, fields, Nested(c1), Nested(c2));
  }

  /** Every setting is `true` or falsy: no nested selections. */
  predicate FlatSettings(settings: Setting) {
    settings.Nested? ==> forall i :: 0 <= i < |settings.children| ==> !settings.children[i].1.Nested?
  }

  /** Every handler in the table, including `__default`, is the simple one. */
  predicate SimpleOnly(handlers: Handlers) {
    "__default" in handlers && forall k :: k in handlers ==> handlers[k] == Simple
  }

  /** The names of the fields switched on, in declared order, each after one space. */
  function EnabledNames(fields: seq<GqlType>, settings: Setting): string {
    if |fields| == 0 then ""
    else
      var n := JsStr(fields[|fields| - 1].name);
      EnabledNames(fields[..|fields| - 1], settings) + (if SettingOf(settings, n).On? && n != "" then " " + n else "")
  }

  /**
    With simple handlers and flat settings the query is exactly the names of
    the enabled fields, in the type's field order, each preceded by a space.
   */
  lemma {:induction false} FlatQueryIsEnabledNames(typeMap: TypeMap, handlers: Handlers, fields: seq<GqlType>, settings: Setting)
    requires SimpleOnly(handlers)
    requires FlatSettings(settings)
    ensures CompileFields(typeMap, handlers, fields, settings) == Ok(EnabledNames(fields, settings))
  {
    if |fields| > 0 {
      FlatQueryIsEnabledNames(typeMap, handlers, fields[..|fields| - 1], settings);
      FlatQueryStep(typeMap, handlers, fields, settings);
    }
  }

  /** With simple handlers and flat settings a field renders as its name when on, and as nothing otherwise. */
  lemma FlatFragment(typeMap: TypeMap, handlers: Handlers, field: GqlType, settings: Setting)
    requires SimpleOnly(handlers)
    requires FlatSettings(settings)
    ensures var n := JsStr(field.name);
            var s := SettingOf(settings, n);
            FieldFragment(typeMap, handlers, field, s) == Ok(if s.On? then n else "")
  {
    var n := JsStr(field.name);
    var s := SettingOf(settings, n);
    if settings.Nested? {
      var i := SettingIndex(settings.children, n);
      if i.Some? {
        assert !settings.children[i.value].1.Nested?;
      }
    }
    assert !s.Nested?;
    assert HandlerFor(handlers, n) == Some(Simple);
  }

  lemma FlatQueryStep(typeMap: TypeMap, handlers: Handlers, fields: seq<GqlType>, settings: Setting)
    requires |fields| > 0
    requires SimpleOnly(handlers)
    requires FlatSettings(settings)
    requires CompileFields(typeMap, handlers, fields[..|fields| - 1], settings) == Ok(EnabledNames(fields[..|fields| - 1], settings))
    ensures CompileFields(typeMap, handlers, fields, settings) == Ok(EnabledNames(fields, settings))
  {
    var field := fields[|fields| - 1];
    var n := JsStr(field.name);
    var s := SettingOf(settings, n);
    var prior := EnabledNames(fields[..|fields| - 1], settings);
    var fragment := if s.On? then n else "";
    assert FieldFragment(typeMap, handlers, field, s) == Ok(fragment) by {
      FlatFragment(typeMap, handlers, field, settings);
    }
    assert CompileFields(typeMap, handlers, fields, settings) ==
             if fragment == "" then Ok(prior) else Ok(prior + " " + fragment) by {
      CompileFieldsStep(typeMap, handlers, fields, settings);
    }
    assert EnabledNames(fields, settings) == prior + (if s.On? && n != "" then " " + n else "");
    FlatQueryJoin(CompileFields(typeMap, handlers, fields, settings), EnabledNames(fields, settings), prior, n, fragment, s.On?);
  }

  /** The text step of `FlatQueryStep`: appending ` name` agrees with appending the fragment. */
  lemma FlatQueryJoin(compiled: Result<string, JsError>, enabled: string, prior: string, n: string, fragment: string, on: bool)
    requires fragment == if on then n else ""
    requires compiled == if fragment == "" then Ok(prior) else Ok(prior + " " + fragment)
    requires enabled == prior + (if on && n != "" then " " + n else "")
    ensures compiled == Ok(enabled)
  {
    if fragment != "" {
      assert prior + " " + n == prior + (" " + n);
    } else {
      assert prior + "" == prior;
    }
  }
}

/** Queries compiled for small content types. */
module SelectionExamples {
  import opened Wrappers
  import opened Values
  import opened GqlTypes
  import opened Selection

  function ContentType(): GqlType {
    ObjectType("Content", [Field("nodeId", Scalar("ID")), Field("name", Scalar("String")), Field("id", Scalar("Int"))])
  }

  lemma ContentSettings(settings: Setting)
    requires settings == Nested([("nodeId", On), ("name", On), ("id", On)])
    ensures SettingOf(settings, "nodeId") == On && SettingOf(settings, "name") == On && SettingOf(settings, "id") == On
  {
  }

  lemma CustomHandlerFragments(typeMap: TypeMap, handlers: Handlers)
    requires handlers == map["__default" := Simple, "nodeId" := Fixed("changedNameForNodeId")]
    ensures FieldFragment(typeMap, handlers, Field("nodeId", Scalar("ID")), On) == Ok("changedNameForNodeId")
    ensures FieldFragment(typeMap, handlers, Field("name", Scalar("String")), On) == Ok("name")
    ensures FieldFragment(typeMap, handlers, Field("id", Scalar("Int")), On) == Ok("id")
  {
    assert HandlerFor(handlers, "nodeId") == Some(Fixed("changedNameForNodeId"));
    assert HandlerFor(handlers, "name") == Some(Simple);
    assert HandlerFor(handlers, "id") == Some(Simple);
  }

  lemma CustomHandlerText()
    ensures "" + " " + "changedNameForNodeId" == " changedNameForNodeId"
    ensures " changedNameForNodeId" + " " + "name" == " changedNameForNodeId name"
    ensures " changedNameForNodeId name" + " " + "id" == " changedNameForNodeId name id"
  {
  }

  /** A caller's handler for `nodeId` replaces that field's text; the others stay simple. */
  lemma CustomHandlerExample(typeMap: TypeMap, handlers: Handlers, settings: Setting)
    requires typeMap == map["Content" := ContentType()]
    requires handlers == map["__default" := Simple, "nodeId" := Fixed("changedNameForNodeId")]
    requires settings == Nested([("nodeId", On), ("name", On), ("id", On)])
    ensures CreateQueryFromType(typeMap, handlers, "Content", settings) == Ok(" changedNameForNodeId name id")
  {
    var nodeId, name, id := Field("nodeId", Scalar("ID")), Field("name", Scalar("String")), Field("id", Scalar("Int"));
    assert [] + [nodeId] + [name] + [id] == [nodeId, name, id];
    assert TypeFields(typeMap, "Content") == Some([nodeId, name, id]);
    ContentSettings(settings);
    CustomHandlerFragments(typeMap, handlers);
    CustomHandlerText();
    CompileFieldsSnoc(typeMap, handlers, [], nodeId, settings, "", "changedNameForNodeId");
    CompileFieldsSnoc(typeMap, handlers, [] + [nodeId], name, settings, " changedNameForNodeId", "name");
    CompileFieldsSnoc(typeMap, handlers, [] + [nodeId] + [name], id, settings, " changedNameForNodeId name", "id");
  }

  function BlockTypeMap(): TypeMap {
    map[
      "Content" := ObjectType("Content", [Field("name", Scalar("String")), Field("block", Scalar("ContentBlock"))]),
      "ContentBlock" := ObjectType("ContentBlock", [Field("type", Scalar("String"))])]
  }

  /** The selection of `ContentBlock` with only `type` on. */
  lemma BlockSelection(typeMap: TypeMap, inner: Setting)
    requires typeMap == BlockTypeMap()
    requires inner == Nested([("type", On)])
    ensures CreateQueryFromType(typeMap, SimpleHandlers, "ContentBlock", inner) == Ok(" type")
  {
    var blockFields := typeMap["ContentBlock"].fields.value;
    assert SettingOf(inner, "type") == On;
    assert HandlerFor(SimpleHandlers, "type") == Some(Simple);
    CompileFieldsStep(typeMap, SimpleHandlers, blockFields, inner);
    assert blockFields[..0] == [];
    assert "" + " " + "type" == " type";
  }

  lemma NestedSettings(settings: Setting, inner: Setting)
    requires settings == Nested([("name", On), ("block", inner)])
    ensures SettingOf(settings, "name") == On && SettingOf(settings, "block") == inner
  {
    var children := settings.children;
    assert children[1..] == [("block", inner)];
    assert SettingIndex(children, "block") == Some(1);
  }

  /** The `block` field of `Content` renders as its own selection in braces. */
  lemma BlockFragment(typeMap: TypeMap, inner: Setting)
    requires typeMap == BlockTypeMap()
    requires inner == Nested([("type", On)])
    ensures FieldFragment(typeMap, SimpleHandlers, Field("block", Scalar("ContentBlock")), inner) == Ok("block {  type }")
  {
    BlockSelection(typeMap, inner);
    var block := Field("block", Scalar("ContentBlock"));
    assert FieldTypeName(block) == Ok(Some("ContentBlock"));
    assert FieldType(block, typeMap) == Ok(Some(typeMap["ContentBlock"]));
    assert HandlerFor(SimpleHandlers, "block") == Some(Simple);
    BlockText();
  }

  lemma BlockText()
    ensures "block" + " { " + " type" + " }" == "block {  type }"
    ensures "" + " " + "name" == " name"
    ensures " name" + " " + "block {  type }" == " name block {  type }"
  {
  }

  /** An object setting renders the field as `name { ... }` around its own selection. */
  lemma NestedSelectionExample(typeMap: TypeMap, settings: Setting)
    requires typeMap == BlockTypeMap()
    requires settings == Nested([("name", On), ("block", Nested([("type", On)]))])
    ensures CreateQueryFromType(typeMap, SimpleHandlers, "Content", settings) == Ok(" name block {  type }")
  {
    var inner := Nested([("type", On)]);
    var name, block := Field("name", Scalar("String")), Field("block", Scalar("ContentBlock"));
    assert [] + [name] + [block] == [name, block];
    assert TypeFields(typeMap, "Content") == Some([name, block]);
    NestedSettings(settings, inner);
    BlockFragment(typeMap, inner);
    assert HandlerFor(SimpleHandlers, "name") == Some(Simple);
    assert FieldFragment(typeMap, SimpleHandlers, name, On) == Ok("name");
    BlockText();
    CompileFieldsSnoc(typeMap, SimpleHandlers, [], name, settings, "", "name");
    CompileFieldsSnoc(typeMap, SimpleHandlers, [] + [name], block, settings, " name", "block {  type }");
  }
}

=== FILE: text.dfy ===
/**
  Character classes and string helpers that the JavaScript source gets from
  its runtime: ASCII case mapping, the ECMAScript white-space set used by
  `String.prototype.trim`, decimal rendering and parsing of integers, and
  `String.prototype.split` on a one-character separator.
 */
module Text {
  import opened Wrappers

  predicate IsUpper(c: char) {
    'A' <= c <= 'Z'
  }

  predicate IsLower(c: char) {
    'a' <= c <= 'z'
  }

  function ToUpperChar(c: char): (r: char)
    ensures !IsLower(r)
    ensures IsLower(c) ==> IsUpper(r)
    ensures !IsLower(c) ==> r == c
  {
    if IsLower(c) then (c as int - 'a' as int + 'A' as int) as char else c
  }

  function ToLowerChar(c: char): (r: char)
    ensures !IsUpper(r)
    ensures IsUpper(c) ==> IsLower(r)
    ensures !IsUpper(c) ==> r == c
  {
    if IsUpper(c) then (c as int - 'A' as int + 'a' as int) as char else c
  }

  /** `String.prototype.toUpperCase`, restricted to ASCII letters. */
  function ToUpper(s: string): (r: string)
    ensures |r| == |s|
    ensures forall i :: 0 <= i < |s| ==> r[i] == ToUpperChar(s[i])
  {
    if |s| == 0 then "" else [ToUpperChar(s[0])] + ToUpper(s[1..])
  }

  /** Upper-casing works character by character, so it distributes over concatenation. */
  lemma ToUpperAppend(a: string, b: string)
    ensures ToUpper(a + b) == ToUpper(a) + ToUpper(b)
  {
    var l, r := ToUpper(a + b), ToUpper(a) + ToUpper(b);
    forall i | 0 <= i < |l|
      ensures l[i] == r[i]
    {
      if i < |a| {
        assert (a + b)[i] == a[i];
      } else {
        assert (a + b)[i] == b[i - |a|];
      }
    }
  }

  /** Line terminators: the characters a regular expression `.` does not match. */
  predicate IsLineTerminator(c: char) {
    c == '\n' || c == '\r' || c == '\U{2028}' || c == '\U{2029}'
  }

  /** The ECMAScript WhiteSpace and LineTerminator characters removed by `trim`. */
  predicate IsWhiteSpace(c: char) {
    || IsLineTerminator(c)
    || c == '\t' || c == '\U{000B}' || c == '\U{000C}' || c == ' ' || c == '\U{00A0}'
    || c == '\U{FEFF}' || c == '\U{1680}' || ('\U{2000}' <= c <= '\U{200A}')
    || c == '\U{202F}' || c == '\U{205F}' || c == '\U{3000}'
  }

  /** No string occurs twice. */
  predicate Distinct(names: seq<string>) {
    forall i, j :: 0 <= i < j < |names| ==> names[i] != names[j]
  }

  predicate IsDigit(c: char) {
    '0' <= c <= '9'
  }

  predicate AllDigits(s: string) {
    forall i :: 0 <= i < |s| ==> IsDigit(s[i])
  }

  function DigitChar(d: nat): (c: char)
    requires d < 10
    ensures IsDigit(c)
  {
    ('0' as int + d) as char
  }

  function DigitValue(c: char): (d: nat)
    requires IsDigit(c)
    ensures d < 10
    ensures DigitChar(d) == c
  {
    c as int - '0' as int
  }

  /** The value of a string of decimal digits (leading zeros allowed). */
  function DigitsValue(s: string): nat
    requires AllDigits(s)
  {
    if |s| == 0 then 0 else DigitsValue(s[..|s| - 1]) * 10 + DigitValue(s[|s| - 1])
  }

  /** Shortest decimal rendering of a natural number. */
  function NatToString(n: nat): (r: string)
    ensures |r| > 0 && AllDigits(r)
    ensures |r| > 1 ==> r[0] != '0'
    decreases n
  {
    if n < 10 then [DigitChar(n)] else NatToString(n / 10) + [DigitChar(n % 10)]
  }

  /** `String(n)` for an integral JavaScript number. */
  function IntToString(n: int): (r: string)
    ensures |r| > 0
    ensures n >= 0 <==> r[0] != '-'
  {
    if n < 0 then "-" + NatToString(-n) else NatToString(n)
  }

  /**
    The integer denoted by an optionally signed, non-empty run of decimal
    digits, or None for any other string.
   */
  function ParseDecimal(s: string): (r: Option<int>)
    ensures r.Some? ==> |s| > 0
    ensures |s| > 0 && AllDigits(s) ==> r == Some(DigitsValue(s))
  {
    if |s| == 0 then None
    else if s[0] == '-' || s[0] == '+' then
      var digits := s[1..];
      if |digits| > 0 && AllDigits(digits) then
        var magnitude: int := DigitsValue(digits);
        Some(if s[0] == '-' then -magnitude else magnitude)
      else None
    else if AllDigits(s) then Some(DigitsValue(s))
    else None
  }

  lemma {:induction false} NatToStringValue(n: nat)
    ensures DigitsValue(NatToString(n)) == n
    decreases n
  {
    if n >= 10 {
      var prefix := NatToString(n / 10);
      var s := prefix + [DigitChar(n % 10)];
      assert s[..|s| - 1] == prefix;
      NatToStringValue(n / 10);
    }
  }

  /** Rendering an integer and parsing it back gives the integer again. */
  lemma IntToStringRoundTrip(n: int)
    ensures ParseDecimal(IntToString(n)) == Some(n)
  {
    if n < 0 {
      var s := IntToString(n);
      assert s[1..] == NatToString(-n);
      NatToStringValue(-n);
    } else {
      NatToStringValue(n);
    }
  }

  /** `s.split(sep)` for a one-character separator. */
  function Split(s: string, sep: char): (r: seq<string>)
    ensures |r| >= 1
    ensures forall i :: 0 <= i < |r| ==> sep !in r[i]
    decreases |s|
  {
    if |s| == 0 then [""]
    else
      var rest := Split(s[1..], sep);
      if s[0] == sep then [""] + rest
      else [[s[0]] + rest[0]] + rest[1..]
  }

  /** `pieces.join(sep)`. */
  function Join(pieces: seq<string>, sep: char): string
    requires |pieces| >= 1
  {
    if |pieces| == 1 then pieces[0] else pieces[0] + [sep] + Join(pieces[1..], sep)
  }

  /** A string without the separator splits into itself alone. */
  lemma {:induction false} SplitWithoutSeparator(s: string, sep: char)
    requires sep !in s
    ensures Split(s, sep) == [s]
    decreases |s|
  {
    if |s| > 0 {
      SplitWithoutSeparator(s[1..], sep);
      assert [s[0]] + s[1..] == s;
    }
  }

  /** Joining the pieces of a split restores the string. */
  lemma {:induction false} JoinSplit(s: string, sep: char)
    ensures Join(Split(s, sep), sep) == s
    decreases |s|
  {
    if |s| > 0 {
      var rest := Split(s[1..], sep);
      JoinSplit(s[1..], sep);
      if s[0] != sep {
        var r := Split(s, sep);
        if |rest| > 1 {
          assert r[1..] == rest[1..];
        }
      }
      assert s == [s[0]] + s[1..];
    }
  }

  /** Splitting a join of separator-free pieces gives the pieces back. */
  lemma {:induction false} SplitJoin(pieces: seq<string>, sep: char)
    requires |pieces| >= 1
    requires forall i :: 0 <= i < |pieces| ==> sep !in pieces[i]
    ensures Split(Join(pieces, sep), sep) == pieces
    decreases |pieces|, |pieces[0]|
  {
    var p := pieces[0];
    if |p| == 0 {
      if |pieces| > 1 {
        SplitJoin(pieces[1..], sep);
        var j := Join(pieces, sep);
        assert j == [sep] + Join(pieces[1..], sep);
        assert j[1..] == Join(pieces[1..], sep);
        assert [""] + pieces[1..] == pieces;
      }
    } else {
      var shorter := [p[1..]] + pieces[1..];
      assert shorter[1..] == pieces[1..];
      SplitJoin(shorter, sep);
      var j := Join(pieces, sep);
      if |pieces| == 1 {
        assert j[1..] == Join(shorter, sep);
      } else {
        assert j == p + [sep] + Join(pieces[1..], sep);
        assert j[1..] == Join(shorter, sep);
      }
      assert j[0] == p[0];
      assert [p[0]] + p[1..] == p;
      assert [[p[0]] + p[1..]] + pieces[1..] == pieces;
    }
  }

  function TrimStart(s: string): (r: string)
    ensures |r| <= |s| && r == s[|s| - |r|..]
    ensures forall k :: 0 <= k < |s| - |r| ==> IsWhiteSpace(s[k])
    ensures |r| > 0 ==> !IsWhiteSpace(r[0])
  {
    if |s| > 0 && IsWhiteSpace(s[0]) then TrimStart(s[1..]) else s
  }

  function TrimEnd(s: string): (r: string)
    ensures |r| <= |s| && r == s[..|r|]
    ensures forall k :: |r| <= k < |s| ==> IsWhiteSpace(s[k])
    ensures |r| > 0 ==> !IsWhiteSpace(r[|r| - 1])
  {
    if |s| > 0 && IsWhiteSpace(s[|s| - 1]) then TrimEnd(s[..|s| - 1]) else s
  }

  lemma TrimStartUnchanged(s: string)
    requires |s| == 0 || !IsWhiteSpace(s[0])
    ensures TrimStart(s) == s
  {
  }

  lemma TrimEndUnchanged(s: string)
    requires |s| == 0 || !IsWhiteSpace(s[|s| - 1])
    ensures TrimEnd(s) == s
  {
  }

  /** `String.prototype.trim`: the result neither starts nor ends with white space. */
  function Trim(s: string): (r: string)
    ensures |r| <= |s|
    ensures |r| > 0 ==> !IsWhiteSpace(r[0]) && !IsWhiteSpace(r[|r| - 1])
  {
    TrimEnd(TrimStart(s))
  }

  /**
    The trim of `s` is the infix of `s` left after removing its leading and
    trailing white space.
   */
  lemma TrimInfix(s: string)
    ensures exists i, j ::
              && 0 <= i <= j <= |s| && Trim(s) == s[i..j]
              && (forall k :: 0 <= k < i ==> IsWhiteSpace(s[k]))
              && (forall k :: j <= k < |s| ==> IsWhiteSpace(s[k]))
  {
    var t := TrimStart(s);
    var r := TrimEnd(t);
    var i := |s| - |t|;
    assert r == s[i..i + |r|];
    assert forall k :: i + |r| <= k < |s| ==> s[k] == t[k - i];
  }

  /** Trimming adds no character. */
  lemma TrimAvoids(s: string, c: char)
    requires c !in s
    ensures c !in Trim(s)
  {
    var r := Trim(s);
    TrimInfix(s);
    var i, j :| 0 <= i <= j <= |s| && r == s[i..j];
    assert forall k :: 0 <= k < |r| ==> r[k] == s[i + k];
  }

  /** A string that neither starts nor ends with white space is its own trim. */
  lemma TrimUnchanged(s: string)
    requires |s| == 0 || (!IsWhiteSpace(s[0]) && !IsWhiteSpace(s[|s| - 1]))
    ensures Trim(s) == s
  {
    TrimStartUnchanged(s);
    TrimEndUnchanged(s);
  }
}

=== FILE: utils.dfy ===
/**
  String and index helpers (src/utils.ts): first-letter case changes, the
  camel-to-snake rewrite behind sorting keys, and the name-keyed type map.
 */
module Utils {
  import opened Wrappers
  import opened Text
  import opened Values
  import opened GqlTypes

  /** `capitalize`: only the first character is upper-cased; an empty string throws. */
  function Capitalize(s: string): (r: string)
    requires |s| > 0
    ensures |r| == |s| && r[1..] == s[1..]
    ensures !IsLower(r[0]) && ToLowerChar(r[0]) == ToLowerChar(s[0])
  {
    [ToUpperChar(s[0])] + s[1..]
  }

  /** `lowercase`: only the first character is lower-cased; an empty string throws. */
  function Lowercase(s: string): (r: string)
    requires |s| > 0
    ensures |r| == |s| && r[1..] == s[1..]
    ensures !IsUpper(r[0]) && ToUpperChar(r[0]) == ToUpperChar(s[0])
  {
    [ToLowerChar(s[0])] + s[1..]
  }

  /** Capitalizing twice is capitalizing once, and likewise for lowercasing. */
  lemma CaseChangesIdempotent(s: string)
    requires |s| > 0
    ensures Capitalize(Capitalize(s)) == Capitalize(s)
    ensures Lowercase(Lowercase(s)) == Lowercase(s)
    ensures Lowercase(Capitalize(s)) == Lowercase(s)
    ensures Capitalize(Lowercase(s)) == Capitalize(s)
  {
  }

  // ---------------------------------------------------------------------
  // snake: `s.replace(/(.+?)([A-Z])/gm, '$1_$2')`
  // ---------------------------------------------------------------------

  /**
    The first position `j >= q` holding an upper-case letter, provided no
    line terminator (which `.` does not match) comes before it.
   */
  function UpperAfter(s: string, q: nat): (r: Option<nat>)
    requires q <= |s|
    ensures r.Some? ==> q <= r.value < |s| && IsUpper(s[r.value])
    ensures r.Some? ==> forall k :: q <= k < r.value ==> !IsUpper(s[k]) && !IsLineTerminator(s[k])
    decreases |s| - q
  {
    if q == |s| then None
    else if IsUpper(s[q]) then Some(q)
    else if IsLineTerminator(s[q]) then None
    else UpperAfter(s, q + 1)
  }

  /**
    Where a match of `(.+?)([A-Z])` attempted at position `p` ends: `.+?`
    takes at least one character and as few as possible, so the match ends
    at the first upper-case letter after `p`.
   */
  function MatchEnd(s: string, p: nat): (r: Option<nat>)
    requires p <= |s|
    ensures r.Some? ==> p < r.value < |s| && IsUpper(s[r.value])
  {
    if p == |s| || IsLineTerminator(s[p]) then None else UpperAfter(s, p + 1)
  }

  /**
    The global replacement from position `p` on, as the regular-expression
    engine performs it: where a match starts, its text is copied with `_`
    inserted before the closing upper-case letter and the search resumes
    after that letter; elsewhere one character is copied.
   */
  function ReplaceFrom(s: string, p: nat): string
    requires p <= |s|
    decreases |s| - p
  {
    if p == |s| then ""
    else
      match MatchEnd(s, p)
      case Some(j) => s[p..j] + "_" + [s[j]] + ReplaceFrom(s, j + 1)
      case None => [s[p]] + ReplaceFrom(s, p + 1)
  }

  /**
    One left-to-right pass: `inGroup` says whether the current match
    attempt already holds the one character `.+?` needs.
   */
  function SnakeScan(s: string, inGroup: bool): string {
    if |s| == 0 then ""
    else if IsLineTerminator(s[0]) then [s[0]] + SnakeScan(s[1..], false)
    else if !inGroup then [s[0]] + SnakeScan(s[1..], true)
    else if IsUpper(s[0]) then ['_', s[0]] + SnakeScan(s[1..], false)
    else [s[0]] + SnakeScan(s[1..], true)
  }

  /** One step of the scan, read at position `p` of `s`. */
  lemma ScanAt(s: string, p: nat, inGroup: bool)
    requires p < |s|
    ensures SnakeScan(s[p..], inGroup) ==
      if IsLineTerminator(s[p]) then [s[p]] + SnakeScan(s[p + 1..], false)
      else if !inGroup then [s[p]] + SnakeScan(s[p + 1..], true)
      else if IsUpper(s[p]) then ['_', s[p]] + SnakeScan(s[p + 1..], false)
      else [s[p]] + SnakeScan(s[p + 1..], true)
  {
    assert s[p..][0] == s[p];
    assert s[p..][1..] == s[p + 1..];
  }

  lemma {:induction false} ScanUpToMatch(s: string, q: nat, j: nat)
    requires q <= |s| && UpperAfter(s, q) == Some(j)
    ensures SnakeScan(s[q..], true) == s[q..j] + ['_', s[j]] + SnakeScan(s[j + 1..], false)
    decreases |s| - q
  {
    ScanAt(s, q, true);
    if q < j {
      ScanUpToMatch(s, q + 1, j);
      assert SnakeScan(s[q..], true) == [s[q]] + SnakeScan(s[q + 1..], true);
      assert s[q..j] == [s[q]] + s[q + 1..j];
      PrependShape(s[q], s[q + 1..j], ['_', s[j]], SnakeScan(s[j + 1..], false));
    } else {
      assert s[q..j] == [];
    }
  }

  lemma PrependShape(c: char, head: string, mid: string, rest: string)
    ensures [c] + (head + mid + rest) == [c] + head + mid + rest
  {
  }

  /** Without an upper-case letter ahead, a pending match attempt changes nothing. */
  lemma PendingWithoutUpper(s: string, q: nat)
    requires q <= |s| && UpperAfter(s, q).None?
    ensures SnakeScan(s[q..], true) == SnakeScan(s[q..], false)
  {
    if q < |s| {
      ScanAt(s, q, true);
      ScanAt(s, q, false);
    }
  }

  /** One step of the replacement where a match ends at `j`. */
  lemma ReplaceAtMatch(s: string, p: nat, j: nat)
    requires p < |s| && MatchEnd(s, p) == Some(j)
    ensures ReplaceFrom(s, p) == s[p..j] + "_" + [s[j]] + ReplaceFrom(s, j + 1)
  {
  }

  /** Where a match ends at `j`, the scan and the replacement agree if they agree after `j`. */
  lemma MatchStep(s: string, p: nat, j: nat)
    requires p < |s| && !IsLineTerminator(s[p]) && UpperAfter(s, p + 1) == Some(j)
    requires SnakeScan(s[j + 1..], false) == ReplaceFrom(s, j + 1)
    ensures SnakeScan(s[p..], false) == ReplaceFrom(s, p)
  {
    var c, head, upper, tail := s[p], s[p + 1..j], s[j], SnakeScan(s[j + 1..], false);
    assert SnakeScan(s[p..], false) == [c] + (head + ['_', upper] + tail) by {
      ScanAt(s, p, false);
      ScanUpToMatch(s, p + 1, j);
    }
    assert ReplaceFrom(s, p) == ([c] + head) + "_" + [upper] + tail by {
      ReplaceAtMatch(s, p, j);
      assert s[p..j] == [c] + head;
    }
    ConcatShape(c, head, upper, tail);
  }

  /** The two ways the scan and the replacement assemble a match agree. */
  lemma ConcatShape(c: char, head: string, upper: char, tail: string)
    ensures [c] + (head + ['_', upper] + tail) == ([c] + head) + "_" + [upper] + tail
  {
  }

  /** Where no match starts at `p`, the scan and the replacement agree if they agree after `p`. */
  lemma NoMatchStep(s: string, p: nat)
    requires p < |s| && MatchEnd(s, p).None?
    requires SnakeScan(s[p + 1..], false) == ReplaceFrom(s, p + 1)
    ensures SnakeScan(s[p..], false) == ReplaceFrom(s, p)
  {
    ScanAt(s, p, false);
    assert ReplaceFrom(s, p) == [s[p]] + ReplaceFrom(s, p + 1);
    if !IsLineTerminator(s[p]) {
      PendingWithoutUpper(s, p + 1);
    }
  }

  lemma {:induction false} ScanMatchesReplace(s: string, p: nat)
    requires p <= |s|
    ensures SnakeScan(s[p..], false) == ReplaceFrom(s, p)
    decreases |s| - p
  {
    if p < |s| {
      match MatchEnd(s, p)
      case Some(j) =>
        ScanMatchesReplace(s, j + 1);
        MatchStep(s, p, j);
      case None =>
        ScanMatchesReplace(s, p + 1);
        NoMatchStep(s, p);
    }
  }

  /**
    `snake`: the left-to-right scan produces exactly what the global
    regular-expression replacement produces.
   */
  function Snake(s: string): (r: string)
    ensures r == ReplaceFrom(s, 0)
  {
    ScanMatchesReplace(s, 0);
    SnakeScan(s, false)
  }

  /** The string with every `_` removed. */
  function DropUnderscores(s: string): (r: string)
    ensures |r| <= |s|
  {
    if |s| == 0 then ""
    else if s[0] == '_' then DropUnderscores(s[1..])
    else [s[0]] + DropUnderscores(s[1..])
  }

  lemma {:induction false} DropUnderscoresAppend(a: string, b: string)
    ensures DropUnderscores(a + b) == DropUnderscores(a) + DropUnderscores(b)
  {
    if |a| == 0 {
      assert a + b == b;
    } else {
      assert (a + b)[0] == a[0];
      assert (a + b)[1..] == a[1..] + b;
      DropUnderscoresAppend(a[1..], b);
      var head := if a[0] == '_' then "" else [a[0]];
      assert DropUnderscores(a + b) == head + DropUnderscores(a[1..] + b);
      assert DropUnderscores(a) == head + DropUnderscores(a[1..]);
    }
  }

  lemma {:induction false} ScanOnlyInsertsUnderscores(s: string, inGroup: bool)
    ensures DropUnderscores(SnakeScan(s, inGroup)) == DropUnderscores(s)
    ensures |SnakeScan(s, inGroup)| >= |s|
  {
    if |s| > 0 {
      ScanOnlyInsertsUnderscores(s[1..], !IsLineTerminator(s[0]) && (!inGroup || !IsUpper(s[0])));
      var rest := SnakeScan(s[1..], !IsLineTerminator(s[0]) && (!inGroup || !IsUpper(s[0])));
      if !IsLineTerminator(s[0]) && inGroup && IsUpper(s[0]) {
        DropUnderscoresAppend(['_', s[0]], rest);
      } else {
        DropUnderscoresAppend([s[0]], rest);
      }
      DropUnderscoresAppend([s[0]], s[1..]);
      assert s == [s[0]] + s[1..];
    }
  }

  /** `snake` only inserts underscores: dropping all underscores from both sides gives the same text. */
  lemma SnakeOnlyInsertsUnderscores(s: string)
    ensures DropUnderscores(Snake(s)) == DropUnderscores(s)
    ensures |Snake(s)| >= |s|
  {
    ScanOnlyInsertsUnderscores(s, false);
  }

  lemma {:induction false} ScanWithoutUpper(s: string, inGroup: bool)
    requires forall i :: 0 <= i < |s| ==> !IsUpper(s[i])
    ensures SnakeScan(s, inGroup) == s
  {
    if |s| > 0 {
      ScanWithoutUpper(s[1..], !IsLineTerminator(s[0]));
      assert s == [s[0]] + s[1..];
    }
  }

  /** A string with no upper-case letter after its first character is left unchanged. */
  lemma SnakeWithoutInnerUpper(s: string)
    requires forall i :: 0 < i < |s| ==> !IsUpper(s[i])
    ensures Snake(s) == s
  {
    if |s| > 0 {
      ScanWithoutUpper(s[1..], !IsLineTerminator(s[0]));
      assert s == [s[0]] + s[1..];
    }
  }

  function ScanState(s: string, inGroup: bool): bool {
    if |s| == 0 then inGroup
    else if IsLineTerminator(s[0]) then ScanState(s[1..], false)
    else if !inGroup then ScanState(s[1..], true)
    else if IsUpper(s[0]) then ScanState(s[1..], false)
    else ScanState(s[1..], true)
  }

  lemma {:induction false} ScanAppend(a: string, b: string, g: bool)
    ensures SnakeScan(a + b, g) == SnakeScan(a, g) + SnakeScan(b, ScanState(a, g))
  {
    if |a| == 0 {
      assert a + b == b;
    } else {
      assert (a + b)[0] == a[0];
      assert (a + b)[1..] == a[1..] + b;
      var g' := !IsLineTerminator(a[0]) && (!g || !IsUpper(a[0]));
      ScanAppend(a[1..], b, g');
    }
  }

  /** A run of characters with no upper-case letter and no line terminator. */
  predicate Plain(s: string) {
    forall i :: 0 <= i < |s| ==> !IsUpper(s[i]) && !IsLineTerminator(s[i])
  }

  lemma {:induction false} ScanPlain(s: string, g: bool)
    requires Plain(s)
    ensures SnakeScan(s, g) == s
    ensures ScanState(s, g) == (g || |s| > 0)
  {
    if |s| > 0 {
      assert Plain(s[1..]);
      ScanPlain(s[1..], true);
      assert s == [s[0]] + s[1..];
    }
  }

  /** A word: any first character but a line terminator, then plain characters. */
  predicate Word(s: string) {
    |s| > 0 && !IsLineTerminator(s[0]) && Plain(s[1..])
  }

  /** A camel-case word after the first: an upper-case letter followed by a word. */
  predicate Hump(w: string) {
    |w| >= 2 && IsUpper(w[0]) && Word(w[1..])
  }

  function Concat(ws: seq<string>): string {
    if |ws| == 0 then "" else ws[0] + Concat(ws[1..])
  }

  /** Each word preceded by `_`. */
  function Underscored(ws: seq<string>): string {
    if |ws| == 0 then "" else "_" + ws[0] + Underscored(ws[1..])
  }

  lemma ScanWord(s: string)
    requires Word(s)
    ensures SnakeScan(s, false) == s
    ensures ScanState(s, false)
  {
    ScanPlain(s[1..], true);
    assert s == [s[0]] + s[1..];
  }

  lemma ScanHump(w: string)
    requires Hump(w)
    ensures SnakeScan(w, true) == "_" + w
    ensures ScanState(w, true)
  {
    ScanWord(w[1..]);
    assert w == [w[0]] + w[1..];
  }

  lemma {:induction false} ScanHumps(ws: seq<string>)
    requires forall i :: 0 <= i < |ws| ==> Hump(ws[i])
    ensures SnakeScan(Concat(ws), true) == Underscored(ws)
  {
    if |ws| > 0 {
      var w := ws[0];
      var rest := Concat(ws[1..]);
      assert Concat(ws) == w + rest;
      ScanHumps(ws[1..]);
      ScanHump(w);
      ScanAppend(w, rest, true);
      assert Underscored(ws) == "_" + w + Underscored(ws[1..]);
    }
  }

  /**
    A camel-case identifier (a word, then humps) becomes its words joined
    by underscores: every hump after the first word gets one `_`.
   */
  lemma SnakeCamelCase(head: string, humps: seq<string>)
    requires Word(head)
    requires forall i :: 0 <= i < |humps| ==> Hump(humps[i])
    ensures Snake(head + Concat(humps)) == head + Underscored(humps)
  {
    ScanHumps(humps);
    ScanWord(head);
    ScanAppend(head, Concat(humps), false);
  }

  lemma {:induction false} ConcatUnderscored2(a: string, b: string)
    ensures Concat([a, b]) == a + b
    ensures Underscored([a, b]) == "_" + a + "_" + b
  {
    var ws := [a, b];
    assert ws[1..] == [b];
    assert ws[1..][1..] == [];
    assert Concat([b]) == b + "";
    assert Underscored([b]) == "_" + b + "";
  }

  lemma {:induction false} ConcatUnderscored3(a: string, b: string, c: string)
    ensures Concat([a, b, c]) == a + b + c
    ensures Underscored([a, b, c]) == "_" + a + "_" + b + "_" + c
  {
    var ws := [a, b, c];
    assert ws[1..] == [b, c];
    ConcatUnderscored2(b, c);
  }

  lemma CamelCaseMoreParts()
    ensures "CamelCaseMore" == "Camel" + ("Case" + "More")
    ensures "Camel" + ("_" + "Case" + "_" + "More") == "Camel_Case_More"
  {
  }

  /** `snake('CamelCaseMore')`: a leading capital is not preceded by `_`. */
  lemma SnakeExampleCamelCaseMore(s: string)
    requires s == "CamelCaseMore"
    ensures Snake(s) == "Camel_Case_More"
  {
    assert Word("Camel") && Hump("Case") && Hump("More");
    ConcatUnderscored2("Case", "More");
    SnakeCamelCase("Camel", ["Case", "More"]);
    CamelCaseMoreParts();
  }

  /** `snake('ABC')`: the capital a match ends with is not reused to start the next one. */
  lemma SnakeExampleConsecutiveCapitals(s: string)
    requires s == "ABC"
    ensures Snake(s) == "A_BC"
  {
    var humps := ["BC"];
    assert Word("A") && Hump(humps[0]);
    SnakeCamelCase("A", humps);
    assert humps[1..] == [];
    assert Concat(humps) == "BC";
    assert s == "A" + Concat(humps);
    assert Underscored(humps) == "_BC";
  }

  lemma FieldNameWords()
    ensures Word("camel") && Hump("Case") && Hump("Field") && Hump("Name")
  {
  }

  lemma FieldNameParts()
    ensures "camelCaseFieldName" == "camel" + ("Case" + "Field" + "Name")
    ensures "camel" + ("_" + "Case" + "_" + "Field" + "_" + "Name") == "camel_Case_Field_Name"
  {
  }

  lemma SnakeExampleFieldName(s: string)
    requires s == "camelCaseFieldName"
    ensures Snake(s) == "camel_Case_Field_Name"
  {
    FieldNameWords();
    ConcatUnderscored3("Case", "Field", "Name");
    SnakeCamelCase("camel", ["Case", "Field", "Name"]);
    FieldNameParts();
  }

  /** `createSortingKey(field, order)`: the upper-cased snake form of the field, `_`, the order. */
  function CreateSortingKey(field: string, order: string): (r: string)
    ensures |r| >= |field| + 1 + |order|
    ensures r[..|r| - |order| - 1] == ToUpper(ReplaceFrom(field, 0))
    ensures r[|r| - |order| - 1..] == "_" + order
  {
    SnakeOnlyInsertsUnderscores(field);
    ToUpper(Snake(field)) + "_" + order
  }

  /** `createSortingKey('camelCaseFieldName', 'DESC')`. */
  lemma SortingKeyExample(field: string, order: string)
    requires field == "camelCaseFieldName" && order == "DESC"
    ensures CreateSortingKey(field, order) == "CAMEL_CASE_FIELD_NAME_DESC"
  {
    SnakeExampleFieldName(field);
    UpperExample(Snake(field));
    var r := CreateSortingKey(field, order);
    assert r == ToUpper(Snake(field)) + "_" + order;
  }

  lemma UpperExample(s: string)
    requires s == "camel_Case_Field_Name"
    ensures ToUpper(s) == "CAMEL_CASE_FIELD_NAME"
  {
    UpperExampleParts();
    ToUpperAppend("camel_" + "Case_" + "Field_", "Name");
    ToUpperAppend("camel_" + "Case_", "Field_");
    ToUpperAppend("camel_", "Case_");
    UpperExamplePieces();
  }

  lemma UpperExampleParts()
    ensures "camel_Case_Field_Name" == "camel_" + "Case_" + "Field_" + "Name"
    ensures "CAMEL_" + "CASE_" + "FIELD_" + "NAME" == "CAMEL_CASE_FIELD_NAME"
  {
  }

  /** The upper-cased pieces of the example, one character mapping at a time. */
  lemma UpperExamplePieces()
    ensures ToUpper("camel_") == "CAMEL_" && ToUpper("Case_") == "CASE_"
    ensures ToUpper("Field_") == "FIELD_" && ToUpper("Name") == "NAME"
  {
    UpperExampleChars();
    UpperPiece("camel_", "CAMEL_");
    UpperPiece("Case_", "CASE_");
    UpperPiece("Field_", "FIELD_");
    UpperPiece("Name", "NAME");
  }

  /** A text whose characters each upper-case to the matching character of `u`. */
  lemma UpperPiece(s: string, u: string)
    requires |s| == |u| && forall i :: 0 <= i < |s| ==> ToUpperChar(s[i]) == u[i]
    ensures ToUpper(s) == u
  {
  }

  /** The character mappings the example needs. */
  lemma UpperExampleChars()
    ensures ToUpperChar('c') == 'C' && ToUpperChar('a') == 'A' && ToUpperChar('m') == 'M'
    ensures ToUpperChar('e') == 'E' && ToUpperChar('l') == 'L' && ToUpperChar('_') == '_'
    ensures ToUpperChar('C') == 'C' && ToUpperChar('s') == 'S' && ToUpperChar('F') == 'F'
    ensures ToUpperChar('i') == 'I' && ToUpperChar('d') == 'D' && ToUpperChar('N') == 'N'
  {
  }

  /**
    `fieldIsObjectOrListOfObject`: the field's type is an `OBJECT`, or the
    type it wraps is an `OBJECT` or a `LIST`. Reading the kind of a missing
    type throws.
   */
  function FieldIsObjectOrListOfObject(field: GqlType): (r: Result<bool, JsError>)
    ensures field.typ.None? <==> r == Err(TypeError)
    ensures r.Ok? ==>
              (r.value <==> IsObjectType(field.typ.value)
                            || (field.typ.value.ofType.Some? && field.typ.value.ofType.value.kind == Some("LIST")))
    ensures r.Ok? && r.value ==> KindInChain("OBJECT", field.typ) || KindInChain("LIST", field.typ)
  {
    match field.typ
    case None => Err(TypeError)
    case Some(t) =>
      var chain := TypeChain(field.typ);
      assert t.ofType.Some? ==> chain[1] == t.ofType.value;
      Ok(|| t.kind == Some("OBJECT")
         || (t.ofType.Some? && (t.ofType.value.kind == Some("OBJECT") || t.ofType.value.kind == Some("LIST"))))
  }

  /** The key a type is filed under: its name as a property key renders it. */
  function KeyOf(t: GqlType): string {
    TypeText(t.name)
  }

  /** No later type in the list has the same key as `types[i]`. */
  predicate LastWithKey(types: seq<GqlType>, i: int) {
    && 0 <= i < |types|
    && forall j :: i < j < |types| ==> KeyOf(types[j]) != KeyOf(types[i])
  }

  /**
    `createTypeMap`: one entry per distinct name; each name maps to the last
    type in the list that carries it.
   */
  function CreateTypeMap(types: seq<GqlType>): (r: TypeMap)
    ensures forall i :: 0 <= i < |types| ==> KeyOf(types[i]) in r
    ensures forall k :: k in r ==> exists i :: LastWithKey(types, i) && KeyOf(types[i]) == k && r[k] == types[i]
  {
    if |types| == 0 then map[]
    else
      var init := types[..|types| - 1];
      var last := types[|types| - 1];
      var m := CreateTypeMap(init);
      var r := m[KeyOf(last) := last];
      TypeMapStep(types, m);
      r
  }

  lemma TypeMapStep(types: seq<GqlType>, m: TypeMap)
    requires |types| > 0
    requires forall i :: 0 <= i < |types| - 1 ==> KeyOf(types[i]) in m
    requires forall k :: k in m ==>
               exists i :: LastWithKey(types[..|types| - 1], i) && KeyOf(types[i]) == k && m[k] == types[i]
    ensures forall i :: 0 <= i < |types| ==> KeyOf(types[i]) in m[KeyOf(types[|types| - 1]) := types[|types| - 1]]
    ensures var r := m[KeyOf(types[|types| - 1]) := types[|types| - 1]];
            forall k :: k in r ==> exists i :: LastWithKey(types, i) && KeyOf(types[i]) == k && r[k] == types[i]
  {
    var init := types[..|types| - 1];
    var n := |types| - 1;
    var last := types[n];
    var r := m[KeyOf(last) := last];
    forall k | k in r
      ensures exists i :: LastWithKey(types, i) && KeyOf(types[i]) == k && r[k] == types[i]
    {
      if k == KeyOf(last) {
        assert LastWithKey(types, n);
      } else {
        var i :| LastWithKey(init, i) && KeyOf(types[i]) == k && m[k] == types[i];
        assert LastWithKey(types, i);
      }
    }
  }

  /** With distinct names every type is retrievable by its name and the map has one entry per type. */
  lemma TypeMapRetrievesEach(types: seq<GqlType>)
    requires forall i, j :: 0 <= i < j < |types| ==> KeyOf(types[i]) != KeyOf(types[j])
    ensures forall i :: 0 <= i < |types| ==> CreateTypeMap(types)[KeyOf(types[i])] == types[i]
  {
    var r := CreateTypeMap(types);
    forall i | 0 <= i < |types|
      ensures r[KeyOf(types[i])] == types[i]
    {
      var k := KeyOf(types[i]);
      var i' :| LastWithKey(types, i') && KeyOf(types[i']) == k && r[k] == types[i'];
      assert i' == i;
    }
  }
}

=== FILE: values.dfy ===
/**
  JSON-like JavaScript values and the few object operations the source uses:
  property reads, the spread-and-set object literal `{...o, [k]: v}`, and the
  `String(...)` / `Number(...)` conversions.
 */
module Values {
  import opened Wrappers
  import opened Text

  /**
    A JavaScript value. Objects keep their keys in insertion order.
    `Foreign(fn, arg)` stands for the value a function the model does not
    compute (a JavaScript number conversion with a non-integral result, a
    date formatter, a full-text query parser, a caller's own callback)
    returns for `arg`.
   */
  datatype Value =
    | Undefined
    | Null
    | Bool(b: bool)
    | Num(n: int)
    | Str(s: string)
    | Arr(items: seq<Value>)
    | Obj(entries: seq<(string, Value)>)
    | Foreign(fn: string, arg: Value)

  /** What a JavaScript call throws: a runtime TypeError or `new Error(message)`. */
  datatype JsError = TypeError | Error(message: string)

  type Entries = seq<(string, Value)>

  function Keys(es: Entries): (r: seq<string>)
    ensures |r| == |es|
    ensures forall i :: 0 <= i < |es| ==> r[i] == es[i].0
  {
    if |es| == 0 then [] else [es[0].0] + Keys(es[1..])
  }

  /** A JavaScript object never has the same key twice. */
  predicate DistinctKeys(es: Entries) {
    forall i, j :: 0 <= i < j < |es| ==> es[i].0 != es[j].0
  }

  /** The value stored under `k`, if any. */
  function Lookup(es: Entries, k: string): (r: Option<Value>)
    ensures r.Some? ==> exists i :: 0 <= i < |es| && es[i] == (k, r.value)
    ensures r.None? ==> forall i :: 0 <= i < |es| ==> es[i].0 != k
  {
    if |es| == 0 then None
    else if es[0].0 == k then Some(es[0].1)
    else
      Lookup(es[1..], k)
  }

  /** A key has a value exactly when it is one of the object's keys. */
  lemma LookupInKeys(es: Entries, k: string)
    ensures Lookup(es, k).Some? <==> k in Keys(es)
  {
    if Lookup(es, k).None? {
      assert forall i :: 0 <= i < |Keys(es)| ==> Keys(es)[i] != k;
    }
  }

  /** In an object, each entry is what its key looks up. */
  lemma {:induction false} LookupAt(es: Entries, i: int)
    requires DistinctKeys(es) && 0 <= i < |es|
    ensures Lookup(es, es[i].0) == Some(es[i].1)
  {
    if i > 0 {
      assert es[0].0 != es[i].0;
      LookupAt(es[1..], i - 1);
    }
  }

  /** Appending a new key looks it up and leaves every other lookup alone. */
  lemma {:induction false} LookupAppend(es: Entries, k: string, v: Value, k': string)
    requires k !in Keys(es)
    ensures Lookup(es + [(k, v)], k') == if Lookup(es, k').Some? then Lookup(es, k') else if k' == k then Some(v) else None
  {
    if |es| > 0 {
      assert (es + [(k, v)])[1..] == es[1..] + [(k, v)];
      assert Keys(es)[1..] == Keys(es[1..]);
      LookupAppend(es[1..], k, v, k');
    }
  }

  lemma KeysAppend(es: Entries, k: string, v: Value)
    ensures Keys(es + [(k, v)]) == Keys(es) + [k]
  {
  }

  /** Appending a new key keeps the keys distinct. */
  lemma AppendKeepsDistinct(es: Entries, k: string, v: Value)
    requires DistinctKeys(es) && k !in Keys(es)
    ensures DistinctKeys(es + [(k, v)])
  {
    forall i | 0 <= i < |es| ensures es[i].0 != k {
      assert Keys(es)[i] == es[i].0;
    }
  }

  /** Two objects with the same key order and the same value under every key are equal. */
  lemma EntriesEqual(a: Entries, b: Entries)
    requires Keys(a) == Keys(b) && DistinctKeys(a)
    requires forall k :: Lookup(a, k) == Lookup(b, k)
    ensures a == b
  {
    assert DistinctKeys(b) by {
      forall i, j | 0 <= i < j < |b| ensures b[i].0 != b[j].0 {
        assert Keys(a)[i] == Keys(b)[i] && Keys(a)[j] == Keys(b)[j];
      }
    }
    forall i | 0 <= i < |a| ensures a[i] == b[i] {
      assert Keys(a)[i] == Keys(b)[i];
      LookupAt(a, i);
      LookupAt(b, i);
    }
  }

  /** `o[k]` on an object: the stored value, or undefined. */
  function Prop(es: Entries, k: string): Value {
    Lookup(es, k).GetOr(Undefined)
  }

  /**
    `{...es, [k]: v}`: an existing key keeps its position and takes the new
    value, a new key is appended.
   */
  function Put(es: Entries, k: string, v: Value): (r: Entries)
    ensures Lookup(r, k) == Some(v)
    ensures Lookup(es, k).Some? ==> Keys(r) == Keys(es)
    ensures Lookup(es, k).None? ==> Keys(r) == Keys(es) + [k]
  {
    if |es| == 0 then [(k, v)]
    else
      ConsEntry(es[0], es[1..], k);
      assert [es[0]] + es[1..] == es;
      if es[0].0 == k then
        ConsEntry((k, v), es[1..], k);
        [(k, v)] + es[1..]
      else
        ConsEntry(es[0], Put(es[1..], k, v), k);
        [es[0]] + Put(es[1..], k, v)
  }

  /** An entry in front of others: its key leads, and other keys are looked up behind it. */
  lemma ConsEntry(e: (string, Value), rest: Entries, k: string)
    ensures Keys([e] + rest) == [e.0] + Keys(rest)
    ensures e.0 == k ==> Lookup([e] + rest, k) == Some(e.1)
    ensures e.0 != k ==> Lookup([e] + rest, k) == Lookup(rest, k)
  {
    assert ([e] + rest)[1..] == rest;
  }

  /** Putting `k` leaves the value under every other key as it was. */
  lemma {:induction false} LookupPut(es: Entries, k: string, v: Value, k': string)
    ensures Lookup(Put(es, k, v), k') == if k' == k then Some(v) else Lookup(es, k')
  {
    if |es| > 0 && es[0].0 != k {
      var r := Put(es, k, v);
      assert r[1..] == Put(es[1..], k, v);
      LookupPut(es[1..], k, v, k');
    }
  }

  /** Putting a key into an object keeps its keys distinct. */
  lemma PutKeepsDistinct(es: Entries, k: string, v: Value)
    requires DistinctKeys(es)
    ensures DistinctKeys(Put(es, k, v))
  {
    var r := Put(es, k, v);
    var before, after := Keys(es), Keys(r);
    forall i, j | 0 <= i < j < |r|
      ensures r[i].0 != r[j].0
    {
      assert r[i].0 == after[i] && r[j].0 == after[j];
      if j < |es| {
        assert after[i] == before[i] == es[i].0 && after[j] == before[j] == es[j].0;
      } else {
        assert Lookup(es, k).None? && after == before + [k];
        assert after[i] == es[i].0;
      }
    }
  }

  /** `{...es, ...more}`: the entries of `more` are put into `es` one after another. */
  function Assign(es: Entries, more: Entries): (r: Entries)
    decreases |more|
  {
    if |more| == 0 then es else Assign(Put(es, more[0].0, more[0].1), more[1..])
  }

  /** After a spread, a key of `more` holds `more`'s value and every other key keeps its old value. */
  lemma {:induction false} LookupAssign(es: Entries, more: Entries, k: string)
    requires DistinctKeys(more)
    ensures Lookup(Assign(es, more), k) == if Lookup(more, k).Some? then Lookup(more, k) else Lookup(es, k)
    decreases |more|
  {
    if |more| > 0 {
      LookupAssign(Put(es, more[0].0, more[0].1), more[1..], k);
      LookupPut(es, more[0].0, more[0].1, k);
    }
  }

  /** Spreading an object into an empty one copies it. */
  lemma AssignIntoEmpty(more: Entries)
    requires |more| == 1
    ensures Assign([], more) == more
  {
  }

  /** Spreading into an object with distinct keys keeps them distinct. */
  lemma {:induction false} AssignKeepsDistinct(es: Entries, more: Entries)
    requires DistinctKeys(es)
    ensures DistinctKeys(Assign(es, more))
    decreases |more|
  {
    if |more| > 0 {
      PutKeepsDistinct(es, more[0].0, more[0].1);
      AssignKeepsDistinct(Put(es, more[0].0, more[0].1), more[1..]);
    }
  }

  /** A property read `v[k]`: undefined and null throw, other primitives have no such property. */
  function GetProp(v: Value, k: string): (r: Result<Value, JsError>)
    ensures r.Err? <==> v.Undefined? || v.Null?
    ensures v.Obj? ==> r == Ok(Prop(v.entries, k))
  {
    match v
    case Undefined => Err(TypeError)
    case Null => Err(TypeError)
    case Obj(es) => Ok(Prop(es, k))
    case _ => Ok(Undefined)
  }

  /** A possibly missing string as a template literal or property key renders it. */
  function JsStr(s: Option<string>): string {
    s.GetOr("undefined")
  }

  /** `String(v)` where the model can compute it. */
  function ToText(v: Value): Option<string> {
    match v
    case Undefined => Some("undefined")
    case Null => Some("null")
    case Bool(b) => Some(if b then "true" else "false")
    case Num(n) => Some(IntToString(n))
    case Str(s) => Some(s)
    case Obj(_) => Some("[object Object]")
    case _ => None
  }

  /**
    `String(v)`, total: an array joins its items' texts with `,` (undefined
    and null items give empty text); the text of a value the model leaves
    uncomputed stays symbolic.
   */
  function Stringify(v: Value): (r: string)
    ensures ToText(v).Some? ==> r == ToText(v).value
    decreases v
  {
    match v
    case Arr(items) =>
      if |items| == 0 then ""
      else Join(seq(|items|, i requires 0 <= i < |items| =>
                    if items[i].Undefined? || items[i].Null? then "" else Stringify(items[i])), ',')
    case Foreign(fn, arg) => fn + "(" + Stringify(arg) + ")"
    case _ => ToText(v).value
  }

  /** A value holding nothing the model leaves uncomputed, so `Stringify` gives its exact text. */
  predicate Computable(v: Value)
    decreases v
  {
    match v
    case Foreign(_, _) => false
    case Arr(items) => forall i :: 0 <= i < |items| ==> Computable(items[i])
    case _ => true
  }

  /** `Boolean(v)`; a value the model leaves uncomputed counts as true. */
  predicate Truthy(v: Value) {
    match v
    case Undefined => false
    case Null => false
    case Bool(b) => b
    case Num(n) => n != 0
    case Str(s) => s != ""
    case _ => true
  }

  /**
    `Number(v)`: integers, booleans, null and optionally signed decimal digit
    strings are converted; every other conversion is left uncomputed.
   */
  function ToNumber(v: Value): (r: Value)
    ensures r.Num? || r == Foreign("Number", v)
    ensures v.Num? ==> r == v
    ensures v.Str? && ParseDecimal(v.s).Some? ==> r == Num(ParseDecimal(v.s).value)
  {
    match v
    case Num(_) => v
    case Bool(b) => Num(if b then 1 else 0)
    case Null => Num(0)
    case Str(s) =>
      (match ParseDecimal(s)
       case Some(n) => Num(n)
       case None => Foreign("Number", v))
    case _ => Foreign("Number", v)
  }

  /** `String(n)` read back by `Number(...)` is `n` again. */
  lemma NumberOfStringOfInt(n: int)
    ensures ToNumber(Str(IntToString(n))) == Num(n)
  {
    IntToStringRoundTrip(n);
  }
}

=== FILE: wrappers.dfy ===
/** Failure-compatible Option and Result datatypes used throughout the model. */
module Wrappers {

  datatype Option<+T> = None | Some(value: T) {

    predicate IsFailure() {
      None?
    }

    function PropagateFailure<U>(): Option<U>
      requires None?
    {
      None
    }

    function Extract(): T
      requires Some?
    {
      value
    }

    function GetOr(default: T): T {
      match this
      case Some(v) => v
      case None => default
    }
  }

  /** Either a value or the error the JavaScript code would have thrown. */
  datatype Result<+T, +E> = Ok(value: T) | Err(error: E) {

    predicate IsFailure() {
      Err?
    }

    function PropagateFailure<U>(): Result<U, E>
      requires Err?
    {
      Err(error)
    }

    function Extract(): T
      requires Ok?
    {
      value
    }
  }
}
